=== FILE: README.md ===
# Bulb scene graph in Dafny

A model of the retained-mode scene graph of Bulb, a small C++ layer over the
filament renderer. The model covers six parts:

- **Node bookkeeping.** `Node` keeps its name, its dirty flag and its parent list.
- **`Composite`.** A composite keeps its ordered child list and its child listeners. The model keeps both directions of every link in step.
- **Traversal.** `traverse` and `accept` dispatch to the visitors. `RenderVisitor` keeps the matrix stack, the current material and the entity list.
- **Transforms.** Covers the affine transform's component matrices, their inverses and the composition order, and the custom transform.
- **Drawables.** `Drawable`, `Geometry`, `MultiGeometry` and `PositionalLight` each have a `pre_render`, which writes transforms, material slots and light positions into the engine's managers.
- **`SceneGraph`.** Ownership, the name and animation indexes, the sun and the directional lights, the `dirty` flag and the `updating` gate, and `render`'s rebuild of the scene.

How the model represents the program:

- **Matrices.** A matrix is a word over factor labels: `Identity` is the empty word and products concatenate. This keeps every equality that holds by associativity, and never claims that two different words are different matrices. The one numeric product the code needs is light placement, `M * initialPosition`. It is a function parameter `apply`.
- **Node objects.** Nodes are records in an arena `map<NodeId, NodeRec>`, and pointers are ids. Child-listener callbacks are recorded in a log of `Event`s rather than run.
- **The engine.** The filament managers are a plain `Engine` value:
  - entities handed out by a counter;
  - the transform manager's table;
  - the material slots of each renderable;
  - the light table;
  - the current scene and its generation.
- **Traversal.** A traversal is written out as the sequence of visitor calls it makes (`Traversal.Trace`). A visitor is a step function folded over that sequence (`Visitors.Run`). The graph must be acyclic; a rank map, in which every child ranks below its parent, witnesses this. Popping an empty matrix stack, or dereferencing a null per-part material, is undefined behaviour in the source. It sets a sticky `fault` flag, which is proved never to be set on well-formed input. The flag is also set when a multi-geometry's part list holds the same entity twice. Parts come from the glTF loader, which creates each part entity once, so this does not arise in the source; the model needs distinct parts to say which material each part ends with.
- **Unspecified iteration order.** `std::unordered_map` iteration order is a parameter `order` that enumerates the keys. Expired weak listeners are a parameter set. `beginFrame`'s answer is a parameter `frameOk`.

Files:

- `wrappers.dfy`: `Option`.
- `seqs.dfy`: sequence helpers.
- `ut.dfy`: `near_zero` and the angle conversions.
- `matrix.dfy`: matrix words.
- `engine.dfy`: the engine.
- `transform.dfy`: the transforms.
- `material.dfy`: the material node's payload.
- `node.dfy`: the node record.
- `composite.dfy`: the child/parent links.
- `traversal.dfy`: the visitor call protocol.
- `drawable.dfy`: the drawables and their `pre_render`.
- `visitor.dfy`: the visitors.
- `scenegraph.dfy`: `SceneGraph`.

## Model

| member | source | states |
|---|---|---|
| Ut.Abs | include/bulb/ut.hh:18 | the magnitude is non-negative and equals the value or its negation |
| Ut.NearZero | include/bulb/ut.hh:16-20 | near zero holds exactly when the value lies in the closed interval [-epsilon, epsilon] |
| Ut.DegreesToRadians | include/bulb/ut.hh:34 | radians times 180 equals degrees times pi |
| Ut.RadiansToDegrees | include/bulb/ut.hh:30 | degrees times pi equals radians times 180 |
| Ut.AngleRoundTrip | include/bulb/ut.hh:30-36 | converting degrees to radians and back, or radians to degrees and back, returns the original angle |
| Matrices.ProductAppend | src/nodes/Visitor.cc:18-20 | folding the product over a concatenated stack is the product of the two folds, so the stack composes associatively |
| Matrices.ProductSingleton | src/nodes/Visitor.cc:18-20 | the product of a one-matrix stack is that matrix, since the identity is neutral |
| Transforms.Reciprocal | include/bulb/nodes/AffineTransform.hh:30-32 | a near-zero scale gets inverse scale 0; any other scale gets a non-zero inverse of the same sign |
| Transforms.ReciprocalInverts | include/bulb/nodes/AffineTransform.hh:30-32 | away from zero the guarded inverse scale is a true reciprocal, s * r = 1 |
| Transforms.Remultiply | include/bulb/nodes/AffineTransform.hh:142-154 | mul() re-establishes M and Mi as the products of the components in the stored order and changes no component |
| Transforms.NewAffine | include/bulb/nodes/AffineTransform.hh:24-56 | a new affine transform is valid (M and Mi are the ordered products); R, T and S are the given rotation, translation and scale, and Ri, Ti and Si their transpose, negation and guarded reciprocals |
| Transforms.SetRotation | include/bulb/nodes/AffineTransform.hh:58-74 | setting the rotation replaces R, makes Ri its transpose, keeps S, T, their inverses and the order, and re-multiplies |
| Transforms.SetTranslation | include/bulb/nodes/AffineTransform.hh:78-94 | setting the translation makes T translate by t and Ti by -t, keeps the other components, and re-multiplies |
| Transforms.SetScaling | include/bulb/nodes/AffineTransform.hh:98-118 | setting the scale makes S the diagonal of s and Si the diagonal of guarded reciprocals, keeps the rest, and re-multiplies |
| Transforms.SetUniformScaling | include/bulb/nodes/AffineTransform.hh:120-130 | uniform scaling leaves M and Mi as the ordered products of the components |
| Transforms.UniformScalingAgrees | include/bulb/nodes/AffineTransform.hh:120-130 | scaling(s) is the same as scaling(s, s, s), including the near-zero guard |
| Transforms.SettersPreserveValid | include/bulb/nodes/AffineTransform.hh:58-130 | every setter keeps a valid transform valid and keeps its order |
| Transforms.ValidMatrixIsOrderProduct | include/bulb/nodes/AffineTransform.hh:145-153 | the matrix of any transform reachable through the constructor and setters is T, R and S multiplied in the order its MatrixTransformOrder names |
| Transforms.NewCustom | include/bulb/nodes/CustomTransform.hh:18-19 | a custom transform stores the given matrix together with its inverse |
| Transforms.SetCustom | include/bulb/nodes/CustomTransform.hh:21-25 | set replaces the matrix and keeps the stored inverse paired with it |
| Transforms.Matrix | include/bulb/nodes/AffineTransform.hh:134 | matrix() of an affine transform is its M; of a custom transform, its stored matrix |
| Transforms.NewAffineTransform | include/bulb/nodes/AffineTransform.hh:24-39 | a transform node built from a rotation, translation and scale has matrix Compose(order, T, R, S) and carries the given animation parameters |
| Transforms.NewCustomTransform | include/bulb/nodes/CustomTransform.hh:18-19 | a custom transform node's matrix() is exactly the matrix given |
| Transforms.SetAnimationParameters | include/bulb/nodes/Transform.hh:24 | replacing the animation parameters leaves the shape and the matrix unchanged |
| Transforms.Animate | include/bulb/nodes/Transform.hh:33 | animate calls the callable once, with the transform and its own stored parameters |
| Materials.NewMaterial | include/bulb/nodes/Material.hh:18-20 | a new material node holds the given handle and no textures or samplers |
| Materials.GetMaterial | include/bulb/nodes/Material.hh:46 | get_material returns the handle the node holds |
| Materials.Open | src/nodes/Material.cc:13-24 | empty asset data or a missing engine gives false and leaves the node unchanged; otherwise the built handle is stored, and the result is true exactly when a handle was built |
| Materials.OpenReadsBack | src/nodes/Material.cc:13-24 | after an attempted open, get_material returns what the builder built, and a true answer means it is non-null; after a refused open, get_material returns the old handle |
| Materials.BindTexture | src/nodes/Material.cc:26-43 | binding a texture overwrites the texture entry; a sampler for a new name gets the given modes, but an existing sampler keeps its modes; the compare mode is always updated; other names are untouched; the engine default parameter gets the texture and the sampler |
| Materials.RebindKeepsFirstModes | src/nodes/Material.cc:38-40 | binding the same parameter twice keeps the first binding's filter and wrap modes, because emplace does not replace |
| Nodes.NewComposite | include/bulb/nodes/Composite.hh:21 | a new composite has no children and no listeners |
| Nodes.NewNode | include/bulb/nodes/Node.hh:27 | a null name becomes the empty name; the node has no parents and the given dirty flag |
| Nodes.SetName | include/bulb/nodes/Node.hh:35 | set_name changes the name only |
| Nodes.AddParent | src/nodes/Node.cc:6-12 | add_parent appends the parent only when it is absent, so the parent set becomes the old set plus p, and a duplicate-free list stays duplicate-free |
| Nodes.RemoveParent | src/nodes/Node.cc:14-24 | remove_parent answers whether p was present; it erases the first occurrence and keeps every other parent; on a duplicate-free list p is then gone |
| Nodes.SetParent | src/nodes/Node.cc:26-38 | below the size, slot i is overwritten and the previous parent is returned; at or past the size the call is add_parent and returns null |
| Nodes.ParentAt | include/bulb/nodes/Node.hh:47-49 | parent_at is defined exactly below parents_size and returns the i-th parent |
| Nodes.GetParents | src/nodes/Node.cc:40-47 | get_parents has parents_size entries, and entry i is parent_at(i) |
| Nodes.AddParentIdempotent | src/nodes/Node.cc:6-12 | adding the same parent twice is the same as adding it once |
| Nodes.AddRemoveParentRoundTrip | src/nodes/Node.cc:6-24 | removing a parent just added, which was absent before, restores the node and reports success |
| Nodes.SetParentRestores | src/nodes/Node.cc:26-38 | below the size, set_parent returns the displaced parent, and setting that parent back into the slot restores the node and returns the parent just set |
| Nodes.SetParentCanDuplicate | src/nodes/Node.cc:26-38 | set_parent does no duplicate check: it can leave the same parent twice in the list |
| Composites.Notify | include/bulb/nodes/Composite.hh:35-36 | one callback per registered listener, in registration order, each with this parent, the child and the operation |
| Composites.Notices | src/nodes/Composite.cc:25-30 | every callback made while removing a range names this parent, the Delete operation and one of the removed children |
| Composites.NoticesLength | src/nodes/Composite.cc:25-30 | removing k children makes k times the listener count callbacks |
| Composites.AddChild | include/bulb/nodes/Composite.hh:27-38 | a child already present leaves everything unchanged; otherwise it is appended, gains this parent once, and one Add callback fires per listener; other nodes are untouched |
| Composites.AddChildKeepsLinked | include/bulb/nodes/Composite.hh:27-38 | add_child keeps both directions of every link in step (c is a child of p exactly when p is a parent of c), and keeps both lists duplicate-free |
| Composites.RemoveChild | include/bulb/nodes/Composite.hh:54-67 | remove_child answers whether c was a child; if so, c loses this parent, the entry leaves the child list, and one Delete callback fires per listener; otherwise nothing changes |
| Composites.RemoveChildKeepsLinked | include/bulb/nodes/Composite.hh:54-67 | remove_child keeps the links in step and the lists duplicate-free |
| Composites.AddRemoveChildRoundTrip | include/bulb/nodes/Composite.hh:27-67 | removing a child that add_child just added restores every node exactly; only the callback log grows |
| Composites.SetChild | include/bulb/nodes/Composite.hh:40-52 | set_child at the size is add_child and returns null; the same child in slot i is a no-op returning null; otherwise the occupant loses this parent and is returned, c takes slot i and gains this parent (its list is exactly add_parent's, the occupant's exactly remove_parent's), neither child's own children change, p's parents are kept, and a Change callback fires per listener |
| Composites.SetChildKeepsLinked | include/bulb/nodes/Composite.hh:40-52 | when c is not elsewhere in the list, set_child keeps the links in step and the lists duplicate-free |
| Composites.SetChildCanDuplicate | include/bulb/nodes/Composite.hh:40-52 | set_child does not check the rest of the list, so it can store a child twice |
| Composites.RemoveChildren | src/nodes/Composite.cc:15-34 | a start past the size or an empty count removes nothing; otherwise the children [start, min(start+no, size)) are returned in order, leave the list, lose this parent and keep their other parents (a duplicate-free parent list stays duplicate-free), and each fires Delete to every listener; every node not removed, p included, keeps its parent list |
| Composites.RemoveChildrenReassembles | src/nodes/Composite.cc:15-34 | the remaining list with the returned children spliced back in at start is the original list |
| Composites.RemoveChildrenKeepsLinked | src/nodes/Composite.cc:15-34 | remove_children keeps the links in step and the lists duplicate-free |
| Composites.RemoveChildrenAsWritten | src/nodes/Composite.cc:15-34 | with end = start + no computed modulo 2^64, a wrapped end at or below start removes nothing |
| Composites.RemoveChildrenAgreeWithoutWrap | src/nodes/Composite.cc:21 | when start + no does not overflow size_t, the code as written and the clamped definition agree |
| Composites.RemoveChildrenWrapLosesRange | src/nodes/Composite.cc:21 | with three children, start 1 and no = SIZE_MAX the code as written removes nothing, where the clamp removes the last two |
| Composites.ChildAt | include/bulb/nodes/Composite.hh:71-73 | child_at is defined exactly below children_size and returns the i-th child |
| Composites.GetChildren | src/nodes/Composite.cc:36-43 | get_children has children_size entries, and entry i is child_at(i) |
| Composites.AddChildListener | include/bulb/nodes/Composite.hh:77-80 | a listener is appended to this composite's list; no link changes and no callback fires |
| Composites.ListenerHearsLaterAdds | include/bulb/nodes/Composite.hh:27-38 | a listener registered before add_child hears its Add, after the earlier listeners |
| Traversal.Accept | include/bulb/nodes/Composite.hh:23 | accept makes at most one call; a plain composite makes none, a drawable visits itself, a transform visits itself with its matrix() and a material with its get_material() |
| Traversal.TraceFits | src/nodes/Composite.cc:6-13 | drawables are visited only on leaves, and on_post_traverse fires only on composites, with their own dynamic type, never on a drawable |
| Traversal.TraceAllFits | src/nodes/Composite.cc:6-13 | the same for the traversal of a child list |
| Traversal.TraceCounts | src/nodes/Composite.cc:6-13 | a traversal fires on_post_traverse exactly once per composite reached and visit(Drawable) exactly once per leaf reached (shared nodes counted once per path), whatever the child counts |
| Traversal.TraceAllCounts | src/nodes/Composite.cc:6-13 | the same counts for a child list |
| Visitors.FrameStep | src/nodes/Visitor.cc:10-44 | visiting a transform pushes its matrix; visiting a material sets the current material; post-traversal of a transform or light pops, of a material clears to null, of a plain composite does nothing; visiting a drawable leaves the frame alone |
| Visitors.TraceSound | src/nodes/Visitor.cc:10-44 | over a whole subtree the matrix stack returns to where it began and is never popped empty; each drawable sees the stack of its ancestors' matrices; the material afterwards is independently defined by MaterialAfter |
| Visitors.NewRenderState | include/bulb/nodes/Visitor.hh:56-58 | a render visitor starts with an empty stack, no material and an empty entity list |
| Visitors.FinalMatrix | src/nodes/Visitor.cc:18-22 | the final transform is the product of the stack, followed by the internal transform when there is one |
| Visitors.Prepare | src/nodes/Visitor.cc:18-30 | the drawable's final transform is set; with a current material a materializable drawable takes it, and any other drawable keeps its materials; what it contributes is unchanged |
| Visitors.RenderDrawable | src/nodes/Visitor.cc:12-32 | visiting a drawable rewrites only that node's record; it appends the drawable's contribution and touches only the engine's transform, slot and light tables; an undefined pre_render sets fault |
| Visitors.Step | include/bulb/nodes/Visitor.hh:41-44 | the base NodeVisitor ignores every call; the render visitor's frame moves as FrameStep says |
| Visitors.RunAppend | src/nodes/Composite.cc:6-13 | running a visitor over two call sequences in turn is running it over their concatenation |
| Visitors.RunKeeps | src/nodes/Visitor.cc:10-44 | a visitor never changes the node ids, any child or parent list, or the engine beyond its transform, slot and light tables |
| Visitors.BaseVisitorInert | include/bulb/nodes/Visitor.hh:41-44 | traversing with the base NodeVisitor changes nothing |
| Visitors.RunFrame | src/nodes/Visitor.cc:10-44 | the render visitor's stack and material follow the frame-only fold, independently of drawable rendering |
| Visitors.RunEmits | src/nodes/Visitor.cc:31 | on well-formed calls the render visitor appends, in call order, each visited drawable's contribution and never faults |
| Visitors.RenderTraversal | src/nodes/Visitor.cc:10-44 | a render traversal of an acyclic graph leaves the stack as it found it and does not fault; the entities it appends are the contributions of the drawables it visits, in traversal order |
| Visitors.NestedMaterialClears | src/nodes/Visitor.cc:40-41 | leaving a nested Material sets the current material to null rather than restoring the outer one, so a later sibling drawable sees no material |
| Drawables.NewDrawable | include/bulb/nodes/Drawable.hh:24-25 | a drawable owns a freshly created entity, never alive before, and starts with the identity final transform |
| Drawables.NewGeometry | include/bulb/nodes/Geometry.hh:23-25 | a geometry holds the default material and internal transform it was given, and a fresh entity |
| Drawables.NewMultiGeometry | include/bulb/nodes/MultiGeometry.hh:27-29 | a multi-geometry holds the root material it was given and a fresh entity; it has no parts, no part materials, and identity S |
| Drawables.NewPositionalLight | src/nodes/PositionalLight.cc:10-33 | a light's initial position is the given point with w = 1; a light of the given kind is built on its fresh entity at that position |
| Drawables.DestroyDrawable | src/nodes/Geometry.cc:71-85 | a geometry's destructor drops its entity's transform, renderable and light components and then (as every drawable's destructor does, src/nodes/Drawable.cc:21-27) destroys the entity; other drawables' destructors destroy only the entity; nothing else in the engine changes |
| Engines.DestroyComponents | src/nodes/Geometry.cc:81 | destroying an entity in the engine removes its transform, parent, renderable and light entries and keeps every other entity's entries |
| Drawables.SetTransform | include/bulb/nodes/Drawable.hh:37-39 | set_transform replaces the internal transform, and get_transform reads it back |
| Drawables.SetFinalTransform | include/bulb/nodes/Drawable.hh:49 | set_final_transform changes only the final matrix |
| Drawables.SetMaterial | include/bulb/nodes/Geometry.hh:31-33 | set_material on a geometry or multi-geometry makes get_material return it and keeps the parts and their materials |
| Drawables.GetMaterialAt | src/nodes/MultiGeometry.cc:90-96 | get_material_at is null past the part-material list and the i-th part material below it |
| Drawables.SetMaterialAt | src/nodes/MultiGeometry.cc:98-105 | set_material_at ignores indexes at or past the part count; otherwise it resizes the material list to the part count with nulls and sets slot i |
| Drawables.GetChildAt | src/nodes/MultiGeometry.cc:82-88 | get_child_at is null exactly at or past the part count, and otherwise the i-th part entity |
| Drawables.AddPart | src/nodes/MultiGeometry.cc:68-80 | add_child appends a freshly created entity, which get_child_at can then read back; with a transform both the root and the part get transform-manager entries and the part is parented to the root; the engine otherwise gains only the new entity (no transform entries without a matrix; scene, lights and renderables kept) |
| Drawables.BasePreRender | src/nodes/Drawable.cc:10-19 | the base pre_render writes the final transform for its entity and nothing else |
| Drawables.GeometryPreRender | src/nodes/Geometry.cc:53-69 | geometry pre_render writes its transform; with a material it fills every primitive slot with the default instance; it appends its entity |
| Drawables.ApplyPartMaterials | src/nodes/MultiGeometry.cc:47-61 | each part present in the renderable manager gets its own material's default instance in every slot; other renderables keep theirs |
| Drawables.MultiPreRender | src/nodes/MultiGeometry.cc:13-66 | the root's transform becomes M * S; the root material fills the root's slots and the part materials fill the parts' slots; the root and then its parts are appended in order |
| Drawables.LightPreRender | src/nodes/PositionalLight.cc:35-48 | the light moves to the dehomogenised M * initial position unless w is near zero, in which case it stays; its entity is appended |
| Drawables.PreRender | include/bulb/nodes/Drawable.hh:31 | dispatching pre_render appends exactly the drawable's contribution, and changes only the engine's transform, slot and light tables |
| SceneGraphs.NewSceneGraph | include/bulb/SceneGraph.hh:57-61 | a new graph has an empty arena, a fresh scene (the engine otherwise as given), no root, owned nodes, names, lights, listeners or callbacks, is dirty and is not updating |
| SceneGraphs.StartUpdating | src/SceneGraph.cc:67-72 | the compare-and-swap succeeds exactly when the gate was free, and the gate is held afterwards either way |
| SceneGraphs.EndUpdating | src/SceneGraph.cc:74-78 | end_updating sets dirty to its argument (true by default) and releases the gate |
| SceneGraphs.GateIsExclusive | src/SceneGraph.cc:67-72 | a second start_updating fails while the first holds the gate, and succeeds again after end_updating |
| SceneGraphs.EndUpdatingFalseDiscardsDirty | src/SceneGraph.cc:74-78 | end_updating(false) discards a pending dirty flag; the default re-arms it |
| SceneGraphs.GetNode | src/SceneGraph.cc:620-627 | get_node finds a node exactly when its name is registered, and returns the registered node |
| SceneGraphs.GetAnimatedTransforms | src/SceneGraph.cc:611-618 | one entry per animated name in map order; it holds exactly the animated transforms |
| SceneGraphs.AddSceneListener | include/bulb/SceneGraph.hh:153 | the listener is appended and nothing else changes |
| SceneGraphs.Release | src/SceneGraph.cc:87 | clearing the owned nodes destroys every owned drawable's entity, drops the components of exactly the owned geometries' entities, and leaves the scene, the parameters and the entity counter alone |
| SceneGraphs.MakeRoot | src/SceneGraph.cc:80-98 | an existing root is returned unless isReplace; otherwise owned nodes are destroyed (their entities die and the owned geometries' components leave the engine, the scene and parameters are kept), a new unnamed composite becomes the root and is dirty exactly when a name was given, the indexes are kept, and the graph is dirty; every other node record, the child-listener log, the callbacks made, and the engine's counter, scene and parameters are kept |
| SceneGraphs.MakeRootNeverRegistered | src/SceneGraph.cc:93-96 | because the name lands in the dirty parameter, no lookup by any name changes when a root is made |
| SceneGraphs.AdoptRoot | include/bulb/SceneGraph.hh:70 | adopt_root of a composite that is neither the current root nor owned destroys the owned nodes (their entities die and the owned geometries' components leave the engine, the scene and parameters are kept) and installs the new root; the indexes and flags are kept |
| SceneGraphs.MakeAffineTransform | src/SceneGraph.cc:100-136 | a new, owned, dirty transform node whose matrix is the ordered product; a non-empty name is registered; with parameters it enters the animated index, even under the empty name; the graph is dirty; every other node record, the log and the rest of the graph are kept |
| SceneGraphs.MakeUniformAffineTransform | include/bulb/SceneGraph.hh:87-102 | the scalar-scale overloads are the vector overloads with scale (s, s, s) |
| SceneGraphs.MakeCustomTransform | src/SceneGraph.cc:164-182 | a new, owned custom transform node with the given matrix, registered and animated as for the affine case; the graph is dirty; every other node record, the log and the rest of the graph are kept |
| SceneGraphs.MakeMaterial | src/SceneGraph.cc:210-236 | a new, owned material node holding the handle, registered under a non-empty name; the graph is dirty; every other node record, the log and the rest of the graph are kept |
| SceneGraphs.MakeMaterialFromFile | src/SceneGraph.cc:238-252 | when open fails the graph is unchanged and the result is null; otherwise as make_material with the opened handle: a new owned, registered node, the graph dirty, and nothing else (root, indexes, lights, listeners, engine) changed |
| SceneGraphs.MakeGeometry | src/SceneGraph.cc:275-287 | a new, owned, registered geometry with a fresh entity that is now alive; the engine gains only that entity, and the rest of the graph, the dirty flag included, is kept |
| SceneGraphs.MakeMultiGeometry | src/SceneGraph.cc:310-322 | a new, owned, registered multi-geometry with a fresh entity that is now alive; the engine gains only that entity, and the rest of the graph, the dirty flag included, is kept |
| SceneGraphs.MakePositionalLight | src/SceneGraph.cc:364-392 | a new, owned, registered positional light with a fresh entity that is now alive and a light of the given kind at the given position; nothing else in the engine or the graph changes, the dirty flag included |
| SceneGraphs.Adopt | src/SceneGraph.cc:254-273 | a node already owned is refused and nothing changes; otherwise it becomes owned, a non-empty name is registered, and the graph is dirty |
| SceneGraphs.AdoptTransform | src/SceneGraph.cc:138-208 | as Adopt; with parameters, the node's parameters are replaced and it enters the animated index; its matrix and every other node are unchanged, and so are the root, the lights, the listeners, the engine and the log |
| SceneGraphs.AdoptTwiceRefused | src/SceneGraph.cc:254-273 | a node adopted once is refused the second time, so ownership never duplicates |
| SceneGraphs.LastWriterWins | src/SceneGraph.cc:210-222 | a second node made under the same non-empty name shadows the first in get_node |
| SceneGraphs.AddSunlight | src/SceneGraph.cc:411-430 | the previous sun loses its light and its entity; a fresh entity with a sun light at the origin becomes the sun; the graph is dirty; no other engine table or graph field changes |
| SceneGraphs.RemoveSunlightAsWritten | src/SceneGraph.cc:432-443 | the sun leaves the scene and loses its light and entity, the graph is dirty, but `sun` keeps the destroyed id; nothing else changes |
| SceneGraphs.RemoveSunlight | src/SceneGraph.cc:432-443 | as written, except that afterwards there is no sun |
| SceneGraphs.AddDirectionalLight | src/SceneGraph.cc:445-468 | a light of the same name is destroyed first; a fresh directional light at the origin is stored under the name; the graph is dirty; no other engine table or graph field changes |
| SceneGraphs.RemoveDirectionalLight | src/SceneGraph.cc:470-483 | an absent name changes nothing; otherwise the light and its entity are destroyed, the name leaves the map, the graph is dirty, and nothing else changes |
| SceneGraphs.DirectionalRoundTrip | src/SceneGraph.cc:445-483 | removing a directional light just added under a fresh name restores the light map |
| SceneGraphs.Seeds | src/SceneGraph.cc:25-34 | the entity list starts with the sun when there is one, followed by the directional lights, the i-th being the light of the i-th name in the map's iteration order |
| SceneGraphs.Assemble | src/SceneGraph.cc:18-36 | a scene holding renderables is replaced by a new one; the assembled list is the seeds followed by the traversal's contributions in order; the stack ends empty and nothing faults; links and entities are untouched |
| SceneGraphs.Rebuild | src/SceneGraph.cc:18-45 | after a rebuild, the scene holds exactly its previous members plus the assembled list; every listener not expired is called with the new scene's generation, and no other call is made; the node records are the traversal's, no child-listener event is logged, links are kept; dirty is cleared |
| SceneGraphs.SceneCallbacks | src/SceneGraph.cc:39-43 | each listener whose weak pointer still locks is called with the new scene and each call goes to such a listener; at most one call per registration, and with no listener expired exactly one per registration in registration order |
| SceneGraphs.SceneCallbacksAppend | src/SceneGraph.cc:39-43 | the loop visits listeners in registration order: the calls for two runs of registrations are those of the first run followed by those of the second |
| SceneGraphs.Render | src/SceneGraph.cc:11-65 | while the gate is held, false and no change (nothing else is required of the graph then, nor of a clean one); otherwise a dirty graph is rebuilt and a clean one is untouched, dirty ends cleared, and beginFrame's answer is the result |
| SceneGraphs.RenderAssembly | src/SceneGraph.cc:18-45 | every entity of the sun, the directional lights and the traversal ends up in the scene after a dirty render |
| SceneGraphs.SkippedFrameKeepsRebuild | src/SceneGraph.cc:44-63 | the rebuild happens and dirty is cleared before beginFrame answers, so a skipped frame returns false with the rebuilt graph, and the next render whose frame begins returns true without rebuilding again |
| SceneGraphs.GateBlocksRender | src/SceneGraph.cc:14-15 | render does nothing while the gate is held; releasing the gate with the default makes the next render rebuild |
| SceneGraphs.RemovedSunStillRendered | src/SceneGraph.cc:432-443 | after remove_sunlight as written, the next rebuild seeds the destroyed sun; with the reset, only the directional lights are seeded |
| SceneGraphs.SunReplaced | src/SceneGraph.cc:411-443 | a sun added after a corrected removal is the one seeded first, and it is alive |

## Left out

- Rendering proper is left out: the renderer, views, cameras, the swap chain, `postRender`, and the background view, texture and image (`set_background`, `set_background_image`). They are GPU and windowing I/O.
- `Geometry::open_filamesh`, `MultiGeometry::open_gltf` and `make_multi_geometry(name, gltfAssetPath, ...)` parse asset files through foreign loaders, so they are not modelled.
- The asset reader is a parameter. `Material::open` and `make_material(name, filename)` receive the file contents and the handle the engine builds.
- `make_material(name, data, size)` builds a handle in the engine. It is `MakeMaterial` with that handle as a parameter.
- Real arithmetic is left out:
  - Matrix entries and light positions are exact reals, not `float`/`double`.
  - A quaternion or 3x3 rotation is a label.
  - `inverse()` of a custom matrix is a label paired with the matrix.
- Light colour, intensity, cone, falloff, shadows and sun halo are not modelled. Only the light kind and position are kept.
- Sun and directional light positions are the origin, because the model does not use direction.
- `Material::operator()(param, value)` for scalar parameters is not modelled: it forwards to the foreign `setDefaultParameter`. The texture overload is modelled.
- `Transforms.Animate`: the animation callable is any function of the transform and its parameters, so nothing is promised about its effect.
- Null pointers passed where the static types exclude them are not modelled. Neither are the `dynamic_cast` failure branches in the `adopt_*` functions, which the static parameter types make unreachable.
- `SceneGraphs.AdoptRoot`: its requires exclude two inputs whose source behaviour is undefined. With the current root, `root.reset(newroot)` deletes the node it has just installed. With a node the graph owns, `nodes.clear()` deletes the node before it becomes the root.
- Destroyed node objects are not modelled as deallocated. They stay in the arena, and their drawables' entities are destroyed (a geometry's engine components too). Name-index entries that point at destroyed nodes are kept as the source keeps them. Use-after-free through them is not modelled.
- `Drawable::~Drawable` first calls `Node::~Node()` explicitly, which is undefined behaviour. The model keeps only the entity destruction.
- `Geometry::~Geometry`'s vertex- and index-buffer release is not modelled, since buffers come only from `open_filamesh`.
- `Composites.SetChild`: its requires exclude an index past the end, and the index equal to the size when the child is already present. In both cases the source reads `children[index]` out of bounds.
- `SceneGraphs.Render`: a dirty render before any `make_root` or `adopt_root` dereferences a null root (src/SceneGraph.cc:35), which is undefined behaviour; the requires excludes that case.
- `Drawables.DestroyDrawable`: the engine-null check in `Geometry::~Geometry` is not modelled, because the engine is a value that always exists. What filament does to the transform children of a destroyed transform component is foreign and not modelled; only the destroyed entity's own entries go.
- `Drawables.BasePreRender`: the transform is written to the entity's entry even when the entity has no transform component. The source asks `getInstance` and writes through whatever instance it gets, and the components are created by the asset loaders, which are not part of this model.
- `Nodes.SetParent`: index values past `parents.size()` go to `add_parent` as in the source. `operator[]` is not modelled separately.
- Atomic operations on `isUpdating` are modelled as sequential steps. The concurrent interleavings of `render` with writers are not modelled.
- Visiting a drawable rewrites the arena, while the traversal's call sequence is computed from the graph at the start. Because traversal never changes child lists, both views agree, which `Visitors.RunKeeps` states.
- `SceneGraphs.Assemble`: it states the assembled list only when every drawable's `pre_render` is defined, meaning a multi-geometry's part materials are non-null. Otherwise it states only the frame and engine facts.
- Iteration order of `std::unordered_map` is a parameter. `SceneGraphs.GetAnimatedTransforms` and `SceneGraphs.Seeds` state their results for any order that enumerates the keys, not for the library's actual order.
- Expired weak listeners are a parameter set, and the callbacks' effects are not modelled. Only the calls are recorded.

Where the code and its documentation disagree, the model follows the code:

- `AffineTransform::mul` builds `Mi` in the same factor order as `M`, not the reverse order that would make `M * Mi` the identity. The model keeps the same order, so no inverse law is claimed.
- Leaving a `Material` node sets the current material to null. A drawable after a nested material sees no material, rather than getting back the outer one (`Visitors.NestedMaterialClears`).
- `set_material` on a drawable overwrites its own material permanently. The drawable does not revert to it after leaving the Material subtree.
- `make_root` passes its name as the composite's `dirty` argument, so the root is unnamed and never registered (`SceneGraphs.MakeRootNeverRegistered`).

## Findings

| source | as written | input that shows it | evidently intended | confidence | as-written member | corrected member |
|---|---|---|---|---|---|---|
| src/nodes/Composite.cc:21 | `size_t end = start + no` wraps modulo 2^64 before the clamp to the child count | three children, start = 1, no = SIZE_MAX: end wraps to 0 and nothing is removed | clamp `start + no` to the child count without overflow, removing children 1 and 2 | high; not executed | Composites.RemoveChildrenAsWritten (shown by Composites.RemoveChildrenWrapLosesRange) | Composites.RemoveChildren |
| src/SceneGraph.cc:432-443 | `remove_sunlight` destroys the sun's light and entity but never resets `sun` | add_sunlight, remove_sunlight, then a dirty render: `sun.isNull()` is false, so the destroyed entity is pushed into the scene's entity list | reset `sun` to the null entity after destroying it | medium; not executed | SceneGraphs.RemoveSunlightAsWritten (shown by SceneGraphs.RemovedSunStillRendered) | SceneGraphs.RemoveSunlight |

=== FILE: composite.dfy ===
/**
 * Composite: a node with an ordered child list and child listeners
 * (include/bulb/nodes/Composite.hh, src/nodes/Composite.cc). The node
 * objects live in an arena keyed by id; each mutator updates the child list
 * of the composite and the parent list of the child together, and appends
 * one notification per registered listener to the event log.
 */
module Composites {
  import opened Wrappers
  import opened Seqs
  import opened Nodes

  /** Node::CallbackOps. */
  datatype Op = Add | Change | Delete

  /** One listener callback invocation: callback(parent, child, op). */
  datatype Event = Event(listener: ListenerId, parent: NodeId, child: NodeId, op: Op)

  type Heap = map<NodeId, NodeRec>

  datatype Arena = Arena(nodes: Heap, log: seq<Event>)

  predicate IsComposite(h: Heap, p: NodeId) {
    p in h && h[p].body.Composite?
  }

  /** The child list of a composite; a leaf or an unknown id has none. */
  function Kids(h: Heap, p: NodeId): seq<NodeId> {
    if IsComposite(h, p) then h[p].body.children else []
  }

  function Listeners(h: Heap, p: NodeId): seq<ListenerId> {
    if IsComposite(h, p) then h[p].body.listeners else []
  }

  /** Every child of p is a node of the arena. */
  predicate KidsPresent(h: Heap, p: NodeId) {
    forall x :: x in Kids(h, p) ==> x in h
  }

  /**
   * The link invariant every Composite mutator keeps: c is a child of p
   * exactly when p is a parent of c, links point inside the arena, and no
   * list holds an id twice.
   */
  predicate Linked(h: Heap) {
    Mutual(h) && Inside(h) && NoDups(h)
  }

  predicate Mutual(h: Heap) {
    forall p, c :: p in h && c in h ==> (c in Kids(h, p) <==> p in h[c].parents)
  }

  predicate Inside(h: Heap) {
    && (forall p, c :: p in h && c in Kids(h, p) ==> c in h)
    && (forall c, p :: c in h && p in h[c].parents ==> p in h)
  }

  predicate NoDups(h: Heap) {
    forall p :: p in h ==> NoDup(Kids(h, p)) && NoDup(h[p].parents)
  }

  /** Same ids, and per node the same name, dirty flag, kind, role, listeners and drawable: only links differ. */
  predicate SameFrame(h: Heap, h': Heap) {
    && h'.Keys == h.Keys
    && forall x :: x in h ==>
         && h'[x].name == h[x].name && h'[x].dirty == h[x].dirty
         && h'[x].body.Composite? == h[x].body.Composite?
         && (h[x].body.Leaf? ==> h'[x].body == h[x].body)
         && (h[x].body.Composite? ==> h'[x].body.role == h[x].body.role && h'[x].body.listeners == h[x].body.listeners)
  }

  /** One notification per listener, in registration order. */
  function Notify(ls: seq<ListenerId>, p: NodeId, c: NodeId, op: Op): (r: seq<Event>)
    ensures |r| == |ls|
    ensures forall k :: 0 <= k < |ls| ==> r[k].listener == ls[k] && r[k].parent == p && r[k].child == c && r[k].op == op
  {
    seq(|ls|, k requires 0 <= k < |ls| => Event(ls[k], p, c, op))
  }

  /** The notifications for several children, child by child. */
  function Notices(ls: seq<ListenerId>, p: NodeId, cs: seq<NodeId>, op: Op): (r: seq<Event>)
    ensures forall k :: 0 <= k < |r| ==> r[k].parent == p && r[k].op == op && r[k].child in cs
  {
    if |cs| == 0 then [] else Notify(ls, p, cs[0], op) + Notices(ls, p, cs[1..], op)
  }

  /** Every child of the run fires once per listener. */
  lemma {:induction false} NoticesLength(ls: seq<ListenerId>, p: NodeId, cs: seq<NodeId>, op: Op)
    ensures |Notices(ls, p, cs, op)| == |cs| * |ls|
  {
    if |cs| > 0 {
      NoticesLength(ls, p, cs[1..], op);
      assert |cs| * |ls| == |ls| + (|cs| - 1) * |ls|;
    }
  }

  /** The composite's record with its child list replaced. */
  function WithKids(h: Heap, p: NodeId, cs: seq<NodeId>): (r: Heap)
    requires IsComposite(h, p)
    ensures SameFrame(h, r) && Kids(r, p) == cs
    ensures forall x :: x in h ==> r[x].parents == h[x].parents
    ensures forall x :: x != p ==> Kids(r, x) == Kids(h, x)
    ensures forall x :: x in h && x != p ==> r[x] == h[x]
  {
    h[p := h[p].(body := h[p].body.(children := cs))]
  }

  /** The child's record with the parent added (add_parent). */
  function Link(h: Heap, c: NodeId, p: NodeId): (r: Heap)
    requires c in h
    ensures SameFrame(h, r) && r[c].parents == AddParent(h[c], p).parents
    ensures forall x :: Kids(r, x) == Kids(h, x)
    ensures forall x :: x in h && x != c ==> r[x] == h[x]
  {
    h[c := AddParent(h[c], p)]
  }

  /** The child's record with the parent removed (remove_parent). */
  function Unlink(h: Heap, c: NodeId, p: NodeId): (r: Heap)
    requires c in h
    ensures SameFrame(h, r) && r[c].parents == RemoveParent(h[c], p).0.parents
    ensures forall x :: Kids(r, x) == Kids(h, x)
    ensures forall x :: x in h && x != c ==> r[x] == h[x]
  {
    h[c := RemoveParent(h[c], p).0]
  }

  /**
   * add_child: a child already present changes nothing and fires nothing;
   * otherwise it is appended, gains this composite as a parent, and one Add
   * fires per listener.
   */
  function AddChild(a: Arena, p: NodeId, c: NodeId): (r: Arena)
    requires IsComposite(a.nodes, p) && c in a.nodes
    ensures SameFrame(a.nodes, r.nodes)
    ensures c in Kids(a.nodes, p) ==> r == a
    ensures c !in Kids(a.nodes, p) ==>
      && Kids(r.nodes, p) == Kids(a.nodes, p) + [c]
      && r.nodes[c].parents == AddParent(a.nodes[c], p).parents
      && r.log == a.log + Notify(Listeners(a.nodes, p), p, c, Add)
    ensures forall x :: x in a.nodes && x != p && x != c ==> r.nodes[x] == a.nodes[x]
    ensures c != p ==> r.nodes[p].parents == a.nodes[p].parents && Kids(r.nodes, c) == Kids(a.nodes, c)
  {
    if c in Kids(a.nodes, p) then a
    else
      var h1 := WithKids(a.nodes, p, Kids(a.nodes, p) + [c]);
      Arena(Link(h1, c, p), a.log + Notify(Listeners(a.nodes, p), p, c, Add))
  }

  /** Adding one link p -> c that was absent keeps the link invariant. */
  lemma LinkKeepsLinked(h: Heap, h': Heap, p: NodeId, c: NodeId)
    requires Linked(h) && SameFrame(h, h') && IsComposite(h, p) && c in h && c !in Kids(h, p)
    requires forall x :: x in h ==> Kids(h', x) == if x == p then Kids(h, p) + [c] else Kids(h, x)
    requires forall x :: x in h ==> h'[x].parents == if x == c then h[c].parents + [p] else h[x].parents
    ensures Linked(h')
  {
    assert p !in h[c].parents;
    forall q, d | q in h' && d in h'
      ensures d in Kids(h', q) <==> q in h'[d].parents
    {
      assert (d in Kids(h, q) <==> q in h[d].parents);
    }
    assert Mutual(h');
    assert Inside(h');
    forall x | x in h'
      ensures NoDup(Kids(h', x)) && NoDup(h'[x].parents)
    {
      if x == p { AppendNoDup(Kids(h, p), c); }
      if x == c { AppendNoDup(h[c].parents, p); }
    }
    assert NoDups(h');
  }

  lemma AddChildKeepsLinked(a: Arena, p: NodeId, c: NodeId)
    requires IsComposite(a.nodes, p) && c in a.nodes && Linked(a.nodes)
    ensures Linked(AddChild(a, p, c).nodes)
  {
    var h := a.nodes;
    var h' := AddChild(a, p, c).nodes;
    if c !in Kids(h, p) {
      assert p !in h[c].parents;
      LinkKeepsLinked(h, h', p, c);
    }
  }

  /**
   * Replacing some links of one composite p keeps the link invariant: the
   * children in `gone` lose p as a parent, those in `added` (new to p) gain
   * it, and every other child list and parent list is unchanged.
   */
  lemma RelinkKeepsLinked(h: Heap, h': Heap, p: NodeId, gone: set<NodeId>, added: set<NodeId>)
    requires Linked(h) && SameFrame(h, h') && IsComposite(h, p)
    requires forall x :: x in gone ==> x in Kids(h, p)
    requires forall x :: x in added ==> x in h && x !in Kids(h, p)
    requires forall x :: x in h && x != p ==> Kids(h', x) == Kids(h, x)
    requires forall x :: x in Kids(h', p) <==> (x in Kids(h, p) && x !in gone) || x in added
    requires NoDup(Kids(h', p))
    requires forall x :: x in h && x !in gone && x !in added ==> h'[x].parents == h[x].parents
    requires forall x, q :: x in gone ==> (q in h'[x].parents <==> q in h[x].parents && q != p)
    requires forall x, q :: x in added ==> (q in h'[x].parents <==> q in h[x].parents || q == p)
    requires forall x :: x in gone + added ==> NoDup(h'[x].parents)
    ensures Linked(h')
  {
    forall q, d | q in h' && d in h'
      ensures d in Kids(h', q) <==> q in h'[d].parents
    {
      assert (d in Kids(h, q) <==> q in h[d].parents);
    }
    assert Mutual(h');
    forall q, d | q in h' && d in Kids(h', q)
      ensures d in h'
    {
    }
    forall d, q | d in h' && q in h'[d].parents
      ensures q in h'
    {
    }
    assert Inside(h');
    assert NoDups(h');
  }

  /**
   * remove_child: true iff the child was present; then its entry is erased,
   * it loses this composite as a parent and one Delete fires per listener.
   * An absent child changes nothing.
   */
  function RemoveChild(a: Arena, p: NodeId, c: NodeId): (r: (Arena, bool))
    requires IsComposite(a.nodes, p) && KidsPresent(a.nodes, p)
    ensures SameFrame(a.nodes, r.0.nodes)
    ensures r.1 <==> c in Kids(a.nodes, p)
    ensures !r.1 ==> r.0 == a
    ensures r.1 ==>
      && r.0.nodes[c].parents == RemoveParent(a.nodes[c], p).0.parents
      && (exists k :: 0 <= k < |Kids(a.nodes, p)| && Kids(a.nodes, p)[k] == c && c !in Kids(a.nodes, p)[..k]
            && Kids(r.0.nodes, p) == Kids(a.nodes, p)[..k] + Kids(a.nodes, p)[k + 1..])
      && r.0.log == a.log + Notify(Listeners(a.nodes, p), p, c, Delete)
    ensures forall x :: x in a.nodes && x != p && x != c ==> r.0.nodes[x] == a.nodes[x]
    ensures c != p ==> r.0.nodes[p].parents == a.nodes[p].parents && Kids(r.0.nodes, c) == Kids(a.nodes, c)
  {
    var ch := Kids(a.nodes, p);
    if c !in ch then (a, false)
    else
      var h1 := Unlink(a.nodes, c, p);
      var k := IndexOf(ch, c);
      assert c !in ch[..k];
      (Arena(WithKids(h1, p, RemoveAt(ch, k)), a.log + Notify(Listeners(a.nodes, p), p, c, Delete)), true)
  }

  lemma RemoveChildKeepsLinked(a: Arena, p: NodeId, c: NodeId)
    requires IsComposite(a.nodes, p) && Linked(a.nodes)
    ensures Linked(RemoveChild(a, p, c).0.nodes)
  {
    var h := a.nodes;
    var ch := Kids(h, p);
    if c in ch {
      var h' := RemoveChild(a, p, c).0.nodes;
      RemoveFirstFromNoDup(ch, c);
      assert Kids(h', p) == RemoveAt(ch, IndexOf(ch, c));
      RelinkKeepsLinked(h, h', p, {c}, {});
    }
  }

  /** The link invariant reads only ids, child lists and parent lists. */
  lemma SameLinksSameLinked(h: Heap, h': Heap)
    requires h'.Keys == h.Keys
    requires forall x :: x in h ==> Kids(h', x) == Kids(h, x) && h'[x].parents == h[x].parents
    ensures Linked(h') == Linked(h)
  {
    forall x ensures Kids(h', x) == Kids(h, x) {
      if x !in h {
        assert !IsComposite(h, x) && !IsComposite(h', x);
      }
    }
  }

  /** A new node with no parents and no children keeps the link invariant. */
  lemma FreshKeepsLinked(h: Heap, x: NodeId, n: NodeRec)
    requires x !in h && n.parents == [] && (n.body.Composite? ==> n.body.children == [])
    ensures Linked(h) ==> Linked(h[x := n])
  {
    if Linked(h) {
      var h' := h[x := n];
      assert Kids(h', x) == [];
      forall y | y in h ensures Kids(h', y) == Kids(h, y) && x !in Kids(h, y) {
      }
      assert Mutual(h');
      assert Inside(h');
      assert NoDups(h');
    }
  }

  /** Two heaps with the same frame, child lists and parent lists are equal. */
  lemma FrameLinksDetermine(h: Heap, h': Heap)
    requires SameFrame(h, h')
    requires forall x :: x in h ==> Kids(h', x) == Kids(h, x) && h'[x].parents == h[x].parents
    ensures h' == h
  {
    forall x | x in h
      ensures h'[x] == h[x]
    {
      if h[x].body.Composite? {
        assert h'[x].body.children == Kids(h', x);
      }
    }
  }

  /** Appending c to p's children (and p to c's parents) and then erasing both first occurrences restores the heap. */
  lemma AppendEraseRestores(h: Heap, h2: Heap, h3: Heap, p: NodeId, c: NodeId)
    requires IsComposite(h, p) && c in h && c !in Kids(h, p) && p !in h[c].parents
    requires SameFrame(h, h2) && SameFrame(h2, h3)
    requires Kids(h2, p) == Kids(h, p) + [c] && h2[c].parents == h[c].parents + [p]
    requires forall x :: x in h && x != p && x != c ==> h2[x] == h[x] && h3[x] == h2[x]
    requires exists k :: (0 <= k < |Kids(h2, p)| && Kids(h2, p)[k] == c
                          && Kids(h3, p) == Kids(h2, p)[..k] + Kids(h2, p)[k + 1..])
    requires exists j :: (0 <= j < |h2[c].parents| && h2[c].parents[j] == p
                          && h3[c].parents == h2[c].parents[..j] + h2[c].parents[j + 1..])
    requires c != p ==> h3[p].parents == h2[p].parents == h[p].parents && Kids(h3, c) == Kids(h2, c) == Kids(h, c)
    ensures h3 == h
  {
    CutAppended(Kids(h, p), c, Kids(h3, p));
    CutAppended(h[c].parents, p, h3[c].parents);
    forall x | x in h
      ensures Kids(h3, x) == Kids(h, x) && h3[x].parents == h[x].parents
    {
      if x != p && x != c {
        assert h3[x] == h[x];
      }
    }
    FrameLinksDetermine(h, h3);
  }

  /** Adding a new child and removing it again restores every node record. */
  lemma AddRemoveChildRoundTrip(a: Arena, p: NodeId, c: NodeId)
    requires IsComposite(a.nodes, p) && c in a.nodes && Linked(a.nodes) && c !in Kids(a.nodes, p)
    ensures KidsPresent(AddChild(a, p, c).nodes, p)
    ensures RemoveChild(AddChild(a, p, c), p, c).1
    ensures RemoveChild(AddChild(a, p, c), p, c).0.nodes == a.nodes
  {
    assert p !in a.nodes[c].parents;
    var a2 := AddChild(a, p, c);
    assert Kids(a2.nodes, p) == Kids(a.nodes, p) + [c];
    assert a2.nodes[c].parents == a.nodes[c].parents + [p];
    var r := RemoveChild(a2, p, c);
    assert r.1;
    assert RemoveParent(a2.nodes[c], p).1;
    AppendEraseRestores(a.nodes, a2.nodes, r.0.nodes, p, c);
  }

  /**
   * set_child(c, i). Below the size: the occupant equal to c gives null and
   * no change; otherwise the occupant loses this parent, slot i holds c, c
   * gains this parent, one Change fires per listener and the occupant is
   * returned. At the size (the only index past the end the source can read
   * back) with a new child it is add_child and returns null.
   */
  function SetChild(a: Arena, p: NodeId, c: NodeId, i: nat): (r: (Arena, Option<NodeId>))
    requires IsComposite(a.nodes, p) && c in a.nodes && KidsPresent(a.nodes, p)
    requires i < |Kids(a.nodes, p)| || (i == |Kids(a.nodes, p)| && c !in Kids(a.nodes, p))
    ensures SameFrame(a.nodes, r.0.nodes)
    ensures i == |Kids(a.nodes, p)| ==> r == (AddChild(a, p, c), None)
    ensures i < |Kids(a.nodes, p)| && Kids(a.nodes, p)[i] == c ==> r == (a, None)
    ensures i < |Kids(a.nodes, p)| && Kids(a.nodes, p)[i] != c ==>
      var cur := Kids(a.nodes, p)[i];
      && r.1 == Some(cur)
      && Kids(r.0.nodes, p) == Kids(a.nodes, p)[i := c]
      && p in r.0.nodes[c].parents
      && (NoDup(a.nodes[cur].parents) ==> p !in r.0.nodes[cur].parents)
      && (forall q :: q != p ==> (q in r.0.nodes[c].parents <==> q in a.nodes[c].parents))
      && (forall q :: q != p ==> (q in r.0.nodes[cur].parents <==> q in a.nodes[cur].parents))
      && r.0.nodes[c].parents == AddParent(a.nodes[c], p).parents
      && (cur != p ==> r.0.nodes[cur].parents == RemoveParent(a.nodes[cur], p).0.parents)
      && (c != p ==> Kids(r.0.nodes, c) == Kids(a.nodes, c))
      && (cur != p ==> Kids(r.0.nodes, cur) == Kids(a.nodes, cur))
      && (c != p && cur != p ==> r.0.nodes[p].parents == a.nodes[p].parents)
      && r.0.log == a.log + Notify(Listeners(a.nodes, p), p, c, Change)
      && (forall x :: x in a.nodes && x != p && x != c && x != cur ==> r.0.nodes[x] == a.nodes[x])
  {
    var ch := Kids(a.nodes, p);
    if i == |ch| then (AddChild(a, p, c), None)
    else
      var cur := ch[i];
      if c == cur then (a, None)
      else
        var h1 := Unlink(a.nodes, cur, p);
        var h2 := WithKids(h1, p, ch[i := c]);
        (Arena(Link(h2, c, p), a.log + Notify(Listeners(a.nodes, p), p, c, Change)), Some(cur))
  }

  /** set_child keeps the link invariant when c is not already a child elsewhere in the list. */
  lemma SetChildKeepsLinked(a: Arena, p: NodeId, c: NodeId, i: nat)
    requires IsComposite(a.nodes, p) && c in a.nodes && Linked(a.nodes)
    requires i <= |Kids(a.nodes, p)|
    requires c !in Kids(a.nodes, p) || (i < |Kids(a.nodes, p)| && Kids(a.nodes, p)[i] == c)
    ensures Linked(SetChild(a, p, c, i).0.nodes)
  {
    var h := a.nodes;
    var ch := Kids(h, p);
    if i == |ch| {
      AddChildKeepsLinked(a, p, c);
    } else if ch[i] != c {
      var cur := ch[i];
      var h' := SetChild(a, p, c, i).0.nodes;
      assert p !in h[c].parents;
      UpdateMembers(ch, i, c);
      assert h'[c].parents == h[c].parents + [p];
      AppendNoDup(h[c].parents, p);
      RelinkKeepsLinked(h, h', p, {cur}, {c});
    }
  }

  /** set_child does not look for c elsewhere in the list, so, unlike add_child, it can store a child twice. */
  lemma SetChildCanDuplicate()
    ensures var child := NodeRec("", false, [0], NewComposite(PlainComposite));
      var h := map[0 := NodeRec("", false, [], Composite([1, 2], [], PlainComposite)), 1 := child, 2 := child];
      NoDup(Kids(h, 0)) && !NoDup(Kids(SetChild(Arena(h, []), 0, 2, 0).0.nodes, 0))
  {
    var child := NodeRec("", false, [0], NewComposite(PlainComposite));
    var h := map[0 := NodeRec("", false, [], Composite([1, 2], [], PlainComposite)), 1 := child, 2 := child];
    assert Kids(h, 0) == [1, 2];
    var after := Kids(SetChild(Arena(h, []), 0, 2, 0).0.nodes, 0);
    assert after == [1, 2][0 := 2];
    assert after[0] == after[1];
  }

  /** remove_parent(p) on each listed child, in order. */
  function Detach(h: Heap, p: NodeId, cs: seq<NodeId>): (r: Heap)
    requires forall x :: x in cs ==> x in h
    ensures SameFrame(h, r)
    ensures forall x :: Kids(r, x) == Kids(h, x)
    ensures forall x :: x in h && x !in cs ==> r[x] == h[x]
    ensures forall x, q :: x in cs && q != p ==> (q in r[x].parents <==> q in h[x].parents)
    ensures forall x :: x in cs && NoDup(h[x].parents) ==> p !in r[x].parents && NoDup(r[x].parents)
    decreases |cs|
  {
    if |cs| == 0 then h
    else
      var h1 := Unlink(h, cs[0], p);
      var r := Detach(h1, p, cs[1..]);
      assert forall x :: x in cs ==> x == cs[0] || x in cs[1..];
      r
  }

  /**
   * The body of remove_children once the range [start, end) is known: each
   * child of the range loses this parent and fires one Delete per listener,
   * in order; then the range is erased and returned.
   */
  function RemoveRange(a: Arena, p: NodeId, start: nat, end: nat): (r: (Arena, seq<NodeId>))
    requires IsComposite(a.nodes, p) && KidsPresent(a.nodes, p) && start <= end <= |Kids(a.nodes, p)|
    ensures SameFrame(a.nodes, r.0.nodes)
    ensures r.1 == Kids(a.nodes, p)[start..end]
    ensures Kids(r.0.nodes, p) == Kids(a.nodes, p)[..start] + Kids(a.nodes, p)[end..]
    ensures forall x :: x != p ==> Kids(r.0.nodes, x) == Kids(a.nodes, x)
    ensures forall x :: x in a.nodes && x !in r.1 ==> r.0.nodes[x].parents == a.nodes[x].parents
    ensures forall x :: x in a.nodes && x != p && x !in r.1 ==> r.0.nodes[x] == a.nodes[x]
    ensures forall x, q :: x in r.1 && q != p ==> (q in r.0.nodes[x].parents <==> q in a.nodes[x].parents)
    ensures forall x :: x in r.1 && NoDup(a.nodes[x].parents) ==> p !in r.0.nodes[x].parents && NoDup(r.0.nodes[x].parents)
    ensures r.0.log == a.log + Notices(Listeners(a.nodes, p), p, r.1, Delete)
  {
    var ch := Kids(a.nodes, p);
    var removed := ch[start..end];
    var h1 := Detach(a.nodes, p, removed);
    (Arena(WithKids(h1, p, ch[..start] + ch[end..]), a.log + Notices(Listeners(a.nodes, p), p, removed, Delete)), removed)
  }

  function Min(x: nat, y: nat): nat {
    if x <= y then x else y
  }

  /**
   * remove_children(start, no), with the end of the range clamped to the
   * size: a start past the size, or an empty range, changes nothing and
   * returns nothing; otherwise children[start, min(start + no, size)) are
   * removed and returned in their original order.
   */
  function RemoveChildren(a: Arena, p: NodeId, start: nat, no: nat): (r: (Arena, seq<NodeId>))
    requires IsComposite(a.nodes, p) && KidsPresent(a.nodes, p)
    ensures SameFrame(a.nodes, r.0.nodes)
    ensures start > |Kids(a.nodes, p)| || start + no <= start ==> r == (a, [])
    ensures start <= |Kids(a.nodes, p)| ==>
      var ch := Kids(a.nodes, p);
      var end := Min(start + no, |ch|);
      && r.1 == ch[start..end]
      && Kids(r.0.nodes, p) == ch[..start] + ch[end..]
    ensures |r.1| == 0 ==> r.0 == a
    ensures forall x :: x != p ==> Kids(r.0.nodes, x) == Kids(a.nodes, x)
    ensures forall x :: x in a.nodes && x !in r.1 ==> r.0.nodes[x].parents == a.nodes[x].parents
    ensures forall x :: x in a.nodes && x != p && x !in r.1 ==> r.0.nodes[x] == a.nodes[x]
    ensures forall x, q :: x in r.1 && q != p ==> (q in r.0.nodes[x].parents <==> q in a.nodes[x].parents)
    ensures forall x :: x in r.1 && NoDup(a.nodes[x].parents) ==> p !in r.0.nodes[x].parents && NoDup(r.0.nodes[x].parents)
    ensures r.0.log == a.log + Notices(Listeners(a.nodes, p), p, r.1, Delete)
  {
    var ch := Kids(a.nodes, p);
    if start > |ch| then (a, [])
    else
      var end := Min(start + no, |ch|);
      if start >= end then (a, [])
      else
        RemoveRange(a, p, start, end)
  }

  /** The survivors with the removed run put back at `start` give the original child list. */
  lemma RemoveChildrenReassembles(a: Arena, p: NodeId, start: nat, no: nat)
    requires IsComposite(a.nodes, p) && KidsPresent(a.nodes, p) && start <= |Kids(a.nodes, p)|
    ensures var r := RemoveChildren(a, p, start, no);
      Kids(a.nodes, p) == Kids(r.0.nodes, p)[..start] + r.1 + Kids(r.0.nodes, p)[start..]
  {
    var r := RemoveChildren(a, p, start, no);
    SpliceReassembles(Kids(a.nodes, p), Kids(r.0.nodes, p), start, Min(start + no, |Kids(a.nodes, p)|));
  }

  /** Cutting the run [start, end) out of p's children, and p out of their parents, keeps the link invariant. */
  lemma CutKeepsLinked(h: Heap, h': Heap, p: NodeId, start: nat, end: nat)
    requires Linked(h) && SameFrame(h, h') && IsComposite(h, p) && start <= end <= |Kids(h, p)|
    requires Kids(h', p) == Kids(h, p)[..start] + Kids(h, p)[end..]
    requires forall x :: x != p ==> Kids(h', x) == Kids(h, x)
    requires forall x :: x in h && x !in Kids(h, p)[start..end] ==> h'[x].parents == h[x].parents
    requires forall x, q :: x in Kids(h, p)[start..end] && q != p ==> (q in h'[x].parents <==> q in h[x].parents)
    requires forall x :: x in Kids(h, p)[start..end] && NoDup(h[x].parents) ==> p !in h'[x].parents && NoDup(h'[x].parents)
    ensures Linked(h')
  {
    var ch := Kids(h, p);
    var cut := ch[start..end];
    SpliceMembers(ch, start, end);
    var gone := set x | x in cut;
    forall x | x in gone
      ensures x in ch && x in h
      ensures forall q :: q in h'[x].parents <==> q in h[x].parents && q != p
      ensures NoDup(h'[x].parents)
    {
      assert x in cut;
      assert NoDup(h[x].parents);
    }
    forall x
      ensures x in Kids(h', p) <==> (x in ch && x !in gone)
    {
    }
    forall x | x in h && x !in gone
      ensures h'[x].parents == h[x].parents
    {
      assert x !in cut;
    }
    RelinkKeepsLinked(h, h', p, gone, {});
  }

  lemma RemoveRangeKeepsLinked(a: Arena, p: NodeId, start: nat, end: nat)
    requires IsComposite(a.nodes, p) && Linked(a.nodes) && start <= end <= |Kids(a.nodes, p)|
    ensures Linked(RemoveRange(a, p, start, end).0.nodes)
  {
    CutKeepsLinked(a.nodes, RemoveRange(a, p, start, end).0.nodes, p, start, end);
  }

  lemma RemoveChildrenKeepsLinked(a: Arena, p: NodeId, start: nat, no: nat)
    requires IsComposite(a.nodes, p) && Linked(a.nodes)
    ensures Linked(RemoveChildren(a, p, start, no).0.nodes)
  {
    var ch := Kids(a.nodes, p);
    if start <= |ch| && start < Min(start + no, |ch|) {
      RemoveRangeKeepsLinked(a, p, start, Min(start + no, |ch|));
    }
  }

  /** size_t, the type of remove_children's arguments: arithmetic on it wraps modulo 2^64. */
  const SizeModulus: nat := 0x1_0000_0000_0000_0000

  /**
   * remove_children exactly as written: `end = start + no` is computed in
   * size_t and wraps before it is clamped to the size.
   */
  function RemoveChildrenAsWritten(a: Arena, p: NodeId, start: nat, no: nat): (r: (Arena, seq<NodeId>))
    requires IsComposite(a.nodes, p) && KidsPresent(a.nodes, p)
    requires start < SizeModulus && no < SizeModulus
    ensures SameFrame(a.nodes, r.0.nodes)
    ensures start > |Kids(a.nodes, p)| ==> r == (a, [])
    ensures start + no >= SizeModulus && (start + no) % SizeModulus <= start ==> r == (a, [])
  {
    var ch := Kids(a.nodes, p);
    if start > |ch| then (a, [])
    else
      var wrapped := (start + no) % SizeModulus;
      var end := if wrapped > |ch| then |ch| else wrapped;
      if start >= end then (a, [])
      else RemoveRange(a, p, start, end)
  }

  /** Without wrap-around the code as written and the clamped definition agree. */
  lemma RemoveChildrenAgreeWithoutWrap(a: Arena, p: NodeId, start: nat, no: nat)
    requires IsComposite(a.nodes, p) && KidsPresent(a.nodes, p)
    requires start + no < SizeModulus
    ensures RemoveChildrenAsWritten(a, p, start, no) == RemoveChildren(a, p, start, no)
  {
    var ch := Kids(a.nodes, p);
    var wrapped := (start + no) % SizeModulus;
    assert wrapped == start + no;
    var end := if wrapped > |ch| then |ch| else wrapped;
    assert end == Min(start + no, |ch|);
    if start <= |ch| && start < end {
      assert RemoveChildrenAsWritten(a, p, start, no) == RemoveRange(a, p, start, end);
      assert RemoveChildren(a, p, start, no) == RemoveRange(a, p, start, end);
    }
  }

  /**
   * The wrap loses the whole range: with three children, start 1 and
   * no = SIZE_MAX the code as written removes nothing, where the intended
   * clamp removes the last two children.
   */
  lemma RemoveChildrenWrapLosesRange()
    ensures var leaf := NodeRec("", false, [0], NewComposite(PlainComposite));
      var a := Arena(map[0 := NodeRec("", false, [], Composite([1, 2, 3], [], PlainComposite)), 1 := leaf, 2 := leaf, 3 := leaf], []);
      && RemoveChildrenAsWritten(a, 0, 1, SizeModulus - 1).1 == []
      && RemoveChildren(a, 0, 1, SizeModulus - 1).1 == [2, 3]
  {
    var leaf := NodeRec("", false, [0], NewComposite(PlainComposite));
    var a := Arena(map[0 := NodeRec("", false, [], Composite([1, 2, 3], [], PlainComposite)), 1 := leaf, 2 := leaf, 3 := leaf], []);
    assert Kids(a.nodes, 0) == [1, 2, 3];
    assert (1 + (SizeModulus - 1)) % SizeModulus == 0;
    assert [1, 2, 3][1..3] == [2, 3];
  }

  /** child_at: vector::at throws past the end, which is None here. */
  function ChildAt(h: Heap, p: NodeId, i: nat): (r: Option<NodeId>)
    requires IsComposite(h, p)
    ensures r.Some? <==> i < ChildrenSize(h, p)
    ensures r.Some? ==> r.value == Kids(h, p)[i] && r.value in Kids(h, p)
  {
    if i < |Kids(h, p)| then Some(Kids(h, p)[i]) else None
  }

  function ChildrenSize(h: Heap, p: NodeId): nat
    requires IsComposite(h, p)
  {
    |Kids(h, p)|
  }

  /** get_children: a copy of the child list, in order. */
  function GetChildren(h: Heap, p: NodeId): (r: seq<NodeId>)
    requires IsComposite(h, p)
    ensures |r| == ChildrenSize(h, p)
    ensures forall i :: 0 <= i < |r| ==> ChildAt(h, p, i) == Some(r[i])
  {
    Kids(h, p)
  }

  /** add_child_listener: appends the callback; links and the log are untouched. */
  function AddChildListener(a: Arena, p: NodeId, l: ListenerId): (r: Arena)
    requires IsComposite(a.nodes, p)
    ensures Listeners(r.nodes, p) == Listeners(a.nodes, p) + [l]
    ensures forall x :: x != p ==> Listeners(r.nodes, x) == Listeners(a.nodes, x)
    ensures forall x :: Kids(r.nodes, x) == Kids(a.nodes, x)
    ensures forall x :: x in a.nodes ==> x in r.nodes && r.nodes[x].parents == a.nodes[x].parents
    ensures Linked(a.nodes) ==> Linked(r.nodes)
    ensures r.log == a.log
  {
    var n := a.nodes[p];
    Arena(a.nodes[p := n.(body := n.body.(listeners := n.body.listeners + [l]))], a.log)
  }

  /** A listener registered on p hears every later new child of p, after the listeners registered before it. */
  lemma ListenerHearsLaterAdds(a: Arena, p: NodeId, l: ListenerId, c: NodeId)
    requires IsComposite(a.nodes, p) && c in a.nodes && c !in Kids(a.nodes, p)
    ensures var r := AddChild(AddChildListener(a, p, l), p, c);
      r.log == a.log + Notify(Listeners(a.nodes, p), p, c, Add) + [Event(l, p, c, Add)]
  {
    var a1 := AddChildListener(a, p, l);
    var ls := Listeners(a.nodes, p);
    assert Notify(ls + [l], p, c, Add) == Notify(ls, p, c, Add) + [Event(l, p, c, Add)];
  }
}

=== FILE: drawable.dfy ===
/**
 * Drawable and its render contributions: Drawable, Geometry, MultiGeometry and
 * PositionalLight (include/bulb/nodes/Drawable.hh, Geometry.hh, MultiGeometry.hh,
 * Materializable.hh, PositionalLight.hh and their .cc files). A drawable is a
 * leaf: it has parents but no children.
 */
module Drawables {
  import opened Wrappers
  import opened Seqs
  import opened Matrices
  import opened Engines
  import Transforms
  import Ut

  datatype Variant =
    | PlainDrawable
    | Geometry(material: Option<MatHandle>)
    | MultiGeometry(rootMaterial: Option<MatHandle>, parts: seq<Entity>, partMaterials: seq<Option<MatHandle>>, s: Mat)
    | PositionalLight(initial: Vec4)

  /**
   * `entity` is the rendered entity (the root entity of a MultiGeometry),
   * `final` the world matrix last written by the render traversal and
   * `internal` the owned internal transform, if any.
   */
  datatype Drawable = Drawable(entity: Entity, final: Mat, internal: Option<Transforms.Transform>, variant: Variant)

  /** The Drawable constructor: a fresh rendered entity, final matrix identity, the given internal transform. */
  function NewDrawable(e: Engine, internal: Option<Transforms.Transform>, variant: Variant): (r: (Drawable, Engine))
    requires Valid(e)
    ensures Valid(r.1) && r.0.entity != 0 && r.0.entity !in e.alive && r.1.alive == e.alive + {r.0.entity}
    ensures e.next <= r.0.entity < r.1.next
    ensures r.0.final == Identity && r.0.internal == internal && r.0.variant == variant
    ensures r.1.transforms == e.transforms && r.1.slots == e.slots && r.1.lights == e.lights && r.1.scene == e.scene
    ensures r.1 == e.(next := r.1.next, alive := r.1.alive)
  {
    var (e', x) := Create(e);
    (Drawable(x, Identity, internal, variant), e')
  }

  /** Geometry(name, defaultMaterial, internalTransform). */
  function NewGeometry(e: Engine, material: Option<MatHandle>, internal: Option<Transforms.Transform>): (r: (Drawable, Engine))
    requires Valid(e)
    ensures Valid(r.1) && r.0.entity !in e.alive && r.0.final == Identity
    ensures e.next <= r.0.entity < r.1.next
    ensures r.0.variant == Geometry(material) && r.0.internal == internal
    ensures r.1 == e.(next := r.1.next, alive := e.alive + {r.0.entity})
  {
    NewDrawable(e, internal, Geometry(material))
  }

  /** MultiGeometry(name, defaultMaterial, internalTransform): no parts yet and S the identity. */
  function NewMultiGeometry(e: Engine, material: Option<MatHandle>, internal: Option<Transforms.Transform>): (r: (Drawable, Engine))
    requires Valid(e)
    ensures Valid(r.1) && r.0.entity !in e.alive && r.0.final == Identity && r.0.internal == internal
    ensures e.next <= r.0.entity < r.1.next
    ensures r.0.variant.MultiGeometry? && r.0.variant.rootMaterial == material
    ensures r.0.variant.parts == [] && r.0.variant.partMaterials == [] && r.0.variant.s == Identity
    ensures r.1 == e.(next := r.1.next, alive := e.alive + {r.0.entity})
  {
    NewDrawable(e, internal, MultiGeometry(material, [], [], Identity))
  }

  /**
   * Both PositionalLight constructors (spot and point): Drawable(name) with no
   * internal transform, a light built on the entity at the initial position,
   * and the initial position kept in homogeneous form with w = 1.
   */
  function NewPositionalLight(e: Engine, kind: LightKind, position: Vec3): (r: (Drawable, Engine))
    requires Valid(e) && (kind == PointLight || kind == SpotLight)
    ensures Valid(r.1) && r.0.entity !in e.alive && r.0.internal == None && r.0.final == Identity
    ensures e.next <= r.0.entity < r.1.next
    ensures r.0.variant == PositionalLight(Vec4(position.x, position.y, position.z, 1.0))
    ensures r.1.lights == e.lights[r.0.entity := LightRec(kind, position)]
    ensures r.1 == e.(next := r.1.next, alive := e.alive + {r.0.entity}, lights := r.1.lights)
  {
    var (d, e') := NewDrawable(e, None, PositionalLight(Vec4(position.x, position.y, position.z, 1.0)));
    (d, e'.(lights := e'.lights[d.entity := LightRec(kind, position)]))
  }

  /**
   * The destructors. ~Geometry first has the engine destroy the rendered
   * entity's components (renderable, transform, light); ~Drawable then lets
   * the owned internal transform go with the record and destroys the entity.
   * MultiGeometry and PositionalLight have only ~Drawable, so their
   * components stay in the engine's tables.
   */
  function DestroyDrawable(d: Drawable, e: Engine): (r: Engine)
    ensures d.entity !in r.alive && r.alive == e.alive - {d.entity}
    ensures d.variant.Geometry? ==>
      d.entity !in r.transforms && d.entity !in r.transformParent && d.entity !in r.slots && d.entity !in r.lights
    ensures Stripped(e, r, if d.variant.Geometry? then {d.entity} else {})
    ensures r == e.(alive := r.alive, transforms := r.transforms, transformParent := r.transformParent, slots := r.slots, lights := r.lights)
  {
    var e1 := if d.variant.Geometry? then DestroyComponents(e, d.entity) else e;
    Destroy(e1, d.entity)
  }

  /** set_transform: replaces (and releases) the owned internal transform; get_transform reads it back. */
  function SetTransform(d: Drawable, t: Option<Transforms.Transform>): (r: Drawable)
    ensures GetTransform(r) == t
    ensures r.entity == d.entity && r.final == d.final && r.variant == d.variant
  {
    d.(internal := t)
  }

  function GetTransform(d: Drawable): Option<Transforms.Transform> {
    d.internal
  }

  /** set_final_transform, reserved to the render visitor: the only writer of the final matrix. */
  function SetFinalTransform(d: Drawable, m: Mat): (r: Drawable)
    ensures r.final == m && r.entity == d.entity && r.internal == d.internal && r.variant == d.variant
  {
    d.(final := m)
  }

  /** The Materializable capability: Geometry and MultiGeometry have it, lights and plain drawables do not. */
  predicate IsMaterializable(d: Drawable) {
    d.variant.Geometry? || d.variant.MultiGeometry?
  }

  /** get_material: Geometry's material, or MultiGeometry's root material. */
  function GetMaterial(d: Drawable): Option<MatHandle>
    requires IsMaterializable(d)
  {
    if d.variant.Geometry? then d.variant.material else d.variant.rootMaterial
  }

  /** set_material: writes only the (root) material. */
  function SetMaterial(d: Drawable, m: Option<MatHandle>): (r: Drawable)
    requires IsMaterializable(d)
    ensures IsMaterializable(r) && GetMaterial(r) == m
    ensures r.entity == d.entity && r.final == d.final && r.internal == d.internal
    ensures d.variant.Geometry? ==> r.variant.Geometry?
    ensures d.variant.MultiGeometry? ==>
      r.variant.MultiGeometry? && r.variant.parts == d.variant.parts
      && r.variant.partMaterials == d.variant.partMaterials && r.variant.s == d.variant.s
  {
    if d.variant.Geometry? then d.(variant := Geometry(m)) else d.(variant := d.variant.(rootMaterial := m))
  }

  /** get_material_at: always null for Geometry; for MultiGeometry null iff i is past the per-part list. */
  function GetMaterialAt(d: Drawable, i: nat): (r: Option<MatHandle>)
    requires IsMaterializable(d)
    ensures d.variant.Geometry? ==> r == None
    ensures d.variant.MultiGeometry? && i >= |d.variant.partMaterials| ==> r == None
    ensures d.variant.MultiGeometry? && i < |d.variant.partMaterials| ==> r == d.variant.partMaterials[i]
  {
    if d.variant.Geometry? then None
    else if i >= |d.variant.partMaterials| then None
    else d.variant.partMaterials[i]
  }

  /**
   * set_material_at: nothing for Geometry or for i past the part count;
   * otherwise the per-part list is resized to the part count (new entries
   * null) and entry i is set.
   */
  function SetMaterialAt(d: Drawable, i: nat, m: Option<MatHandle>): (r: Drawable)
    requires IsMaterializable(d)
    ensures d.variant.Geometry? || i >= |d.variant.parts| ==> r == d
    ensures d.variant.MultiGeometry? && i < |d.variant.parts| ==>
      && r.variant.MultiGeometry?
      && |r.variant.partMaterials| == |d.variant.parts|
      && GetMaterialAt(r, i) == m
      && (forall j :: 0 <= j < |d.variant.parts| && j != i ==>
            r.variant.partMaterials[j] == (if j < |d.variant.partMaterials| then d.variant.partMaterials[j] else None))
      && r == d.(variant := d.variant.(partMaterials := r.variant.partMaterials))
  {
    if d.variant.Geometry? || i >= |d.variant.parts| then d
    else d.(variant := d.variant.(partMaterials := Resize(d.variant.partMaterials, |d.variant.parts|, None)[i := m]))
  }

  /** get_root. */
  function GetRoot(d: Drawable): Entity
    requires d.variant.MultiGeometry?
  {
    d.entity
  }

  /** no_children: the number of part entities. */
  function NoChildren(d: Drawable): nat
    requires d.variant.MultiGeometry?
  {
    |d.variant.parts|
  }

  /** get_child_at: null iff i is not below the part count. */
  function GetChildAt(d: Drawable, i: nat): (r: Option<Entity>)
    requires d.variant.MultiGeometry?
    ensures r.None? <==> i >= NoChildren(d)
    ensures r.Some? ==> r.value == d.variant.parts[i]
  {
    if i >= |d.variant.parts| then None else Some(d.variant.parts[i])
  }

  /**
   * MultiGeometry::add_child(T): appends one fresh entity and returns it.
   * Given a matrix, the root gets a fresh identity transform component and the
   * new entity a transform component holding the matrix, parented to the root.
   */
  function AddPart(d: Drawable, e: Engine, t: Option<Mat>): (r: (Drawable, Engine, Entity))
    requires d.variant.MultiGeometry? && Valid(e)
    ensures Valid(r.1) && r.2 != 0 && r.2 !in e.alive && r.2 in r.1.alive
    ensures r.0 == d.(variant := d.variant.(parts := d.variant.parts + [r.2]))
    ensures NoChildren(r.0) == NoChildren(d) + 1 && GetChildAt(r.0, NoChildren(d)) == Some(r.2)
    ensures t.None? ==> r.1.transforms == e.transforms
    ensures t.Some? ==>
      r.1.transforms == e.transforms[d.entity := Identity][r.2 := t.value]
      && r.1.transformParent == e.transformParent[r.2 := d.entity]
    ensures r.1.slots == e.slots && r.1.lights == e.lights
    ensures t.None? ==> r.1.transformParent == e.transformParent
    ensures r.1 == e.(next := r.1.next, alive := e.alive + {r.2}, transforms := r.1.transforms,
                      transformParent := r.1.transformParent)
  {
    var (e1, x) := Create(e);
    var d' := d.(variant := d.variant.(parts := d.variant.parts + [x]));
    if t.None? then (d', e1, x)
    else (d', e1.(transforms := e1.transforms[d.entity := Identity][x := t.value],
                  transformParent := e1.transformParent[x := d.entity]), x)
  }

  /** The entities a drawable's pre_render appends to the render list, in order. */
  function Contribution(d: Drawable): seq<Entity> {
    match d.variant
    case PlainDrawable => []
    case Geometry(_) => [d.entity]
    case MultiGeometry(_, parts, _, _) => [d.entity] + parts
    case PositionalLight(_) => [d.entity]
  }

  /**
   * MultiGeometry's pre_render dereferences entry i of a non-empty per-part
   * list for every part i: the list must then cover every part with a
   * non-null material.
   */
  predicate PartsReady(d: Drawable) {
    d.variant.MultiGeometry? ==>
      |d.variant.partMaterials| == 0
      || (|d.variant.partMaterials| >= |d.variant.parts|
          && forall i :: 0 <= i < |d.variant.parts| ==> d.variant.partMaterials[i].Some?)
  }

  /** Drawable::pre_render: the final matrix goes to the entity's transform; nothing is appended. */
  function BasePreRender(d: Drawable, e: Engine): (r: Engine)
    ensures r.transforms == e.transforms[d.entity := d.final]
    ensures r == e.(transforms := r.transforms)
  {
    Engines.SetTransform(e, d.entity, d.final)
  }

  /**
   * Geometry::pre_render: Drawable::pre_render first; then, with a material
   * set, every primitive of the renderable gets its default instance; then
   * the entity is appended.
   */
  function GeometryPreRender(d: Drawable, e: Engine, out: seq<Entity>): (r: (Engine, seq<Entity>))
    requires d.variant.Geometry?
    ensures r.1 == out + [d.entity]
    ensures r.0.transforms == e.transforms[d.entity := d.final]
    ensures d.variant.material.None? ==> r.0.slots == e.slots
    ensures d.variant.material.Some? && d.entity in e.slots ==>
      r.0.slots == e.slots[d.entity := seq(|e.slots[d.entity]|, _ => Some(DefaultInstance(d.variant.material.value)))]
    ensures d.entity !in e.slots ==> r.0.slots == e.slots
    ensures r.0.slots.Keys == e.slots.Keys
    ensures r.0 == e.(transforms := r.0.transforms, slots := r.0.slots)
  {
    var e1 := BasePreRender(d, e);
    var e2 := if d.variant.material.Some? then SetAllSlots(e1, d.entity, DefaultInstance(d.variant.material.value)) else e1;
    (e2, out + [d.entity])
  }

  /** The per-part material pass: part i's primitives get the default instance of material i. */
  function ApplyPartMaterials(e: Engine, parts: seq<Entity>, mats: seq<Option<MatHandle>>): (r: Engine)
    requires |mats| >= |parts| && forall i :: 0 <= i < |parts| ==> mats[i].Some?
    requires NoDup(parts)
    ensures r.slots.Keys == e.slots.Keys
    ensures forall i :: 0 <= i < |parts| && parts[i] in e.slots ==>
      r.slots[parts[i]] == seq(|e.slots[parts[i]]|, _ => Some(DefaultInstance(mats[i].value)))
    ensures forall x :: x in e.slots && x !in parts ==> r.slots[x] == e.slots[x]
    ensures r == e.(slots := r.slots)
    decreases |parts|
  {
    if |parts| == 0 then e
    else
      var e1 := SetAllSlots(e, parts[0], DefaultInstance(mats[0].value));
      var r := ApplyPartMaterials(e1, parts[1..], mats[1..]);
      assert forall i :: 1 <= i < |parts| ==> parts[1..][i - 1] == parts[i] && parts[i] != parts[0];
      r
  }

  /**
   * MultiGeometry::pre_render: M*S to the root entity's transform; the root
   * material (if set) on the root's primitives; the per-part materials (if the
   * list is non-empty) on each part; then the root and every part, in order,
   * are appended. Part entities are distinct (each was created fresh).
   */
  function MultiPreRender(d: Drawable, e: Engine, out: seq<Entity>): (r: (Engine, seq<Entity>))
    requires d.variant.MultiGeometry? && PartsReady(d) && NoDup(d.variant.parts)
    ensures r.1 == out + [d.entity] + d.variant.parts
    ensures r.0.transforms == e.transforms[d.entity := Mul(d.final, d.variant.s)]
    ensures r.0.slots.Keys == e.slots.Keys
    ensures d.variant.rootMaterial.None? && |d.variant.partMaterials| == 0 ==> r.0.slots == e.slots
    ensures d.variant.rootMaterial.Some? && d.entity in e.slots && d.entity !in d.variant.parts ==>
      r.0.slots[d.entity] == seq(|e.slots[d.entity]|, _ => Some(DefaultInstance(d.variant.rootMaterial.value)))
    ensures |d.variant.partMaterials| > 0 ==> forall i :: 0 <= i < |d.variant.parts| && d.variant.parts[i] in e.slots ==>
      r.0.slots[d.variant.parts[i]] == seq(|e.slots[d.variant.parts[i]]|, _ => Some(DefaultInstance(d.variant.partMaterials[i].value)))
    ensures r.0 == e.(transforms := r.0.transforms, slots := r.0.slots)
  {
    var e1 := Engines.SetTransform(e, d.entity, Mul(d.final, d.variant.s));
    var e2 := if d.variant.rootMaterial.Some? then SetAllSlots(e1, d.entity, DefaultInstance(d.variant.rootMaterial.value)) else e1;
    var e3 := if |d.variant.partMaterials| > 0 then ApplyPartMaterials(e2, d.variant.parts, d.variant.partMaterials) else e2;
    (e3, out + [d.entity] + d.variant.parts)
  }

  /** The float epsilon PositionalLight::pre_render guards the homogeneous divide with. */
  const LightEpsilon: real := 0.0000001

  /**
   * PositionalLight::pre_render: pos = M * initial (matrix arithmetic is the
   * `apply` parameter); the light moves to (x/w, y/w, z/w) only when w is not
   * near zero; Drawable::pre_render is not called; the entity is appended.
   */
  function LightPreRender(d: Drawable, e: Engine, out: seq<Entity>, apply: (Mat, Vec4) -> Vec4): (r: (Engine, seq<Entity>))
    requires d.variant.PositionalLight?
    ensures r.1 == out + [d.entity]
    ensures r.0.transforms == e.transforms && r.0.slots == e.slots && r.0.lights.Keys == e.lights.Keys
    ensures var pos := apply(d.final, d.variant.initial);
      && (Ut.NearZero(pos.w, LightEpsilon) ==> r.0 == e)
      && (!Ut.NearZero(pos.w, LightEpsilon) && d.entity in e.lights ==>
            r.0.lights[d.entity].position == Vec3(pos.x / pos.w, pos.y / pos.w, pos.z / pos.w)
            && r.0.lights[d.entity].kind == e.lights[d.entity].kind)
    ensures r.0 == e.(lights := r.0.lights)
  {
    var pos := apply(d.final, d.variant.initial);
    var e' := if !Ut.NearZero(pos.w, LightEpsilon) then SetLightPosition(e, d.entity, Vec3(pos.x / pos.w, pos.y / pos.w, pos.z / pos.w)) else e;
    (e', out + [d.entity])
  }

  /** When pre_render's behaviour is defined: per-part materials cover the parts, and the parts are distinct. */
  predicate PreRenderDefined(d: Drawable) {
    PartsReady(d) && (d.variant.MultiGeometry? ==> NoDup(d.variant.parts))
  }

  /** The virtual pre_render, dispatched on the drawable's kind: it appends exactly the drawable's contribution. */
  function PreRender(d: Drawable, e: Engine, out: seq<Entity>, apply: (Mat, Vec4) -> Vec4): (r: (Engine, seq<Entity>))
    requires PreRenderDefined(d)
    ensures r.1 == out + Contribution(d)
    ensures d.variant.PlainDrawable? ==> r.0 == BasePreRender(d, e)
    ensures !d.variant.PositionalLight? ==> d.entity in r.0.transforms
    ensures r.0.alive == e.alive && r.0.scene == e.scene && r.0.next == e.next
    ensures r.0 == e.(transforms := r.0.transforms, slots := r.0.slots, lights := r.0.lights)
  {
    match d.variant
    case PlainDrawable => (BasePreRender(d, e), out)
    case Geometry(_) => GeometryPreRender(d, e, out)
    case MultiGeometry(_, _, _, _) => MultiPreRender(d, e, out)
    case PositionalLight(_) => LightPreRender(d, e, out, apply)
  }
}

=== FILE: engine.dfy ===
/**
 * The rendering engine the scene graph drives, reduced to the state the
 * core reads and writes: entity ids, the transform manager, the material
 * instance of each renderable primitive, light positions, material default
 * parameters and the scene's entity set. Every handle is an opaque id.
 */
module Engines {
  import opened Wrappers
  import opened Matrices

  /** utils::Entity; 0 is the null entity. */
  type Entity = nat

  /** filament::Material* (non-null handles only; null is None). */
  type MatHandle = nat

  type TextureId = nat

  /** The material instance a primitive is drawn with; the core only ever uses default instances. */
  datatype Instance = DefaultInstance(material: MatHandle)

  datatype LightKind = SunLight | DirectionalLight | PointLight | SpotLight

  datatype LightRec = LightRec(kind: LightKind, position: Vec3)

  /** Filter and wrap modes of a texture sampler (opaque enumerator codes). */
  datatype SamplerModes = SamplerModes(minFilter: nat, magFilter: nat, wrapS: nat, wrapT: nat, wrapR: nat)

  datatype Sampler = Sampler(modes: SamplerModes, compareMode: nat, compareFunc: nat)

  datatype Binding = Binding(texture: Option<TextureId>, sampler: Sampler)

  datatype Engine = Engine(
    next: Entity,                                 // the next id the entity manager hands out
    alive: set<Entity>,
    transforms: map<Entity, Mat>,                 // transform manager: local transform per entity
    transformParent: map<Entity, Entity>,         // transform manager: parent instance
    slots: map<Entity, seq<Option<Instance>>>,    // renderable manager: material instance per primitive
    lights: map<Entity, LightRec>,                // light manager
    parameters: map<(MatHandle, string), Binding>, // default texture parameters per material
    scene: set<Entity>,                           // entities of the current scene
    sceneGeneration: nat)                         // how many scenes have been created

  /** Every live entity was handed out before, and 0 is never handed out. */
  predicate Valid(e: Engine) {
    e.next >= 1 && forall x :: x in e.alive ==> 0 < x < e.next
  }

  function Empty(): (e: Engine)
    ensures Valid(e) && e.alive == {} && e.scene == {}
  {
    Engine(1, {}, map[], map[], map[], map[], map[], {}, 0)
  }

  /** EntityManager::create: a fresh, non-null, live entity. */
  function Create(e: Engine): (r: (Engine, Entity))
    requires Valid(e)
    ensures Valid(r.0) && r.1 != 0 && r.1 !in e.alive && r.0.alive == e.alive + {r.1}
    ensures e.next <= r.1 < r.0.next
    ensures r.0 == e.(next := r.0.next, alive := r.0.alive)
  {
    (e.(next := e.next + 1, alive := e.alive + {e.next}), e.next)
  }

  /** EntityManager::destroy. */
  function Destroy(e: Engine, x: Entity): (r: Engine)
    ensures x !in r.alive && r.alive == e.alive - {x}
    ensures Valid(e) ==> Valid(r)
    ensures r == e.(alive := r.alive)
  {
    e.(alive := e.alive - {x})
  }

  /**
   * Engine::destroy(Entity): the entity's renderable, light and transform
   * components go; the entity itself stays alive until the entity manager
   * destroys it, and every other entity's components are untouched.
   */
  function DestroyComponents(e: Engine, x: Entity): (r: Engine)
    ensures x !in r.transforms && x !in r.transformParent && x !in r.slots && x !in r.lights
    ensures forall y :: y in e.transforms && y != x ==> y in r.transforms && r.transforms[y] == e.transforms[y]
    ensures forall y :: y in e.transformParent && y != x ==> y in r.transformParent && r.transformParent[y] == e.transformParent[y]
    ensures forall y :: y in e.slots && y != x ==> y in r.slots && r.slots[y] == e.slots[y]
    ensures forall y :: y in e.lights && y != x ==> y in r.lights && r.lights[y] == e.lights[y]
    ensures r.transforms.Keys <= e.transforms.Keys && r.slots.Keys <= e.slots.Keys && r.lights.Keys <= e.lights.Keys
    ensures r.transformParent.Keys <= e.transformParent.Keys
    ensures r == e.(transforms := r.transforms, transformParent := r.transformParent, slots := r.slots, lights := r.lights)
  {
    e.(transforms := e.transforms - {x}, transformParent := e.transformParent - {x},
       slots := e.slots - {x}, lights := e.lights - {x})
  }

  /** r's component tables are e's with the entities xs dropped, and nothing else differs. */
  predicate Stripped(e: Engine, r: Engine, xs: set<Entity>) {
    && r.transforms == e.transforms - xs && r.transformParent == e.transformParent - xs
    && r.slots == e.slots - xs && r.lights == e.lights - xs
  }

  /** Dropping xs and then ys drops xs + ys. */
  lemma StrippedTwice(e: Engine, m: Engine, r: Engine, xs: set<Entity>, ys: set<Entity>)
    requires Stripped(e, m, xs) && Stripped(m, r, ys)
    ensures Stripped(e, r, xs + ys)
  {
    assert r.transforms == e.transforms - (xs + ys);
    assert r.transformParent == e.transformParent - (xs + ys);
    assert r.slots == e.slots - (xs + ys);
    assert r.lights == e.lights - (xs + ys);
  }

  /** TransformManager::setTransform on the entity's instance. */
  function SetTransform(e: Engine, x: Entity, m: Mat): (r: Engine)
    ensures r.transforms == e.transforms[x := m]
  {
    e.(transforms := e.transforms[x := m])
  }

  /**
   * Every primitive of the entity's renderable gets `inst`; an entity with
   * no renderable instance is left alone (the source's `if (ei)` guard).
   */
  function SetAllSlots(e: Engine, x: Entity, inst: Instance): (r: Engine)
    ensures x in e.slots ==> r.slots == e.slots[x := seq(|e.slots[x]|, _ => Some(inst))]
    ensures x !in e.slots ==> r == e
    ensures r.slots.Keys == e.slots.Keys
    ensures forall y :: y in e.slots && y != x ==> r.slots[y] == e.slots[y]
    ensures r == e.(slots := r.slots)
  {
    if x in e.slots then e.(slots := e.slots[x := seq(|e.slots[x]|, _ => Some(inst))]) else e
  }

  /** LightManager::setPosition on the entity's light instance, if it has one. */
  function SetLightPosition(e: Engine, x: Entity, p: Vec3): (r: Engine)
    ensures x in e.lights ==> r.lights == e.lights[x := LightRec(e.lights[x].kind, p)]
    ensures x !in e.lights ==> r == e
    ensures r == e.(lights := r.lights)
  {
    if x in e.lights then e.(lights := e.lights[x := e.lights[x].(position := p)]) else e
  }

  /** The position a light has until something moves it. */
  const Origin: Vec3 := Vec3(0.0, 0.0, 0.0)

  /** LightManager::Builder(kind)...build(engine, x): x gets a light of that kind. */
  function BuildLight(e: Engine, x: Entity, kind: LightKind): (r: Engine)
    ensures x in r.lights && r.lights[x].kind == kind
    ensures forall y :: y in e.lights && y != x ==> y in r.lights && r.lights[y] == e.lights[y]
    ensures r.lights.Keys == e.lights.Keys + {x}
    ensures r == e.(lights := r.lights)
  {
    e.(lights := e.lights[x := LightRec(kind, Origin)])
  }

  /** LightManager::destroy: the entity loses its light component, every other light stays. */
  function DestroyLight(e: Engine, x: Entity): (r: Engine)
    ensures x !in r.lights && r.lights.Keys == e.lights.Keys - {x}
    ensures forall y :: y in e.lights && y != x ==> r.lights[y] == e.lights[y]
    ensures r == e.(lights := r.lights)
  {
    e.(lights := e.lights - {x})
  }

  /** Engine::createScene, the new scene replacing the view's old one: empty, and one generation later. */
  function CreateScene(e: Engine): (r: Engine)
    ensures r.scene == {} && r.sceneGeneration == e.sceneGeneration + 1
    ensures r == e.(scene := {}, sceneGeneration := r.sceneGeneration)
  {
    e.(scene := {}, sceneGeneration := e.sceneGeneration + 1)
  }

  /** Scene::addEntities: every listed entity joins the scene. */
  function AddEntities(e: Engine, xs: seq<Entity>): (r: Engine)
    ensures forall x :: x in r.scene <==> x in e.scene || x in xs
    ensures r == e.(scene := r.scene)
  {
    e.(scene := e.scene + set x | x in xs)
  }

  /** Scene::remove. */
  function RemoveEntity(e: Engine, x: Entity): (r: Engine)
    ensures r.scene == e.scene - {x}
    ensures r == e.(scene := r.scene)
  {
    e.(scene := e.scene - {x})
  }

  /** How many entities of the scene carry a renderable component. */
  function RenderableCount(e: Engine): nat {
    |e.scene * e.slots.Keys|
  }
}

=== FILE: material.dfy ===
/**
 * The Material node's own state (include/bulb/nodes/Material.hh,
 * src/nodes/Material.cc): the engine material handle and the named texture
 * and sampler bindings. Name, dirty flag and children live in the node record.
 */
module Materials {
  import opened Wrappers
  import opened Engines

  datatype Material = Material(handle: Option<MatHandle>, textures: map<string, Option<TextureId>>, samplers: map<string, Sampler>)

  /** Material(name) leaves the handle null; Material(m, name) stores m. */
  function NewMaterial(handle: Option<MatHandle>): (m: Material)
    ensures m.handle == handle && m.textures == map[] && m.samplers == map[]
  {
    Material(handle, map[], map[])
  }

  /** get_material: the stored handle, unchanged. */
  function GetMaterial(m: Material): (h: Option<MatHandle>)
    ensures h == m.handle
  {
    m.handle
  }

  /**
   * open(filename): `data` is what the asset reader produced for the file,
   * `engineAvailable` whether the engine singleton exists, `built` what the
   * material builder returns for the bytes. Empty data or no engine: false
   * with the handle untouched; otherwise the handle becomes the build result
   * (possibly null) and the answer says whether it is non-null.
   */
  function Open(m: Material, data: seq<bv8>, engineAvailable: bool, built: Option<MatHandle>): (r: (Material, bool))
    ensures |data| == 0 || !engineAvailable ==> r == (m, false)
    ensures |data| > 0 && engineAvailable ==> r.0 == m.(handle := built) && (r.1 <==> built.Some?)
    ensures r.1 ==> r.0.handle.Some?
  {
    if |data| == 0 then (m, false)
    else if !engineAvailable then (m, false)
    else (m.(handle := built), built.Some?)
  }

  /**
   * What get_material reads after open: the build result when the open was
   * attempted (so a true answer means a non-null handle), and the previous
   * handle when the data was empty or there was no engine.
   */
  lemma OpenReadsBack(m: Material, data: seq<bv8>, engineAvailable: bool, built: Option<MatHandle>)
    ensures var (m', ok) := Open(m, data, engineAvailable, built);
      && (|data| > 0 && engineAvailable ==> GetMaterial(m') == built)
      && (ok ==> GetMaterial(m').Some? && GetMaterial(m') == built)
      && (|data| == 0 || !engineAvailable ==> GetMaterial(m') == GetMaterial(m) && !ok)
  {
  }

  /**
   * operator()(paramName, texture, filters..., compare...): the texture for
   * the name is overwritten; the sampler's filter and wrap modes are recorded
   * only on the first binding of the name (emplace does not overwrite), while
   * the compare mode is applied on every binding; then the material's default
   * parameter is set in the engine. The handle must be non-null (it is
   * dereferenced). The node itself is returned for chaining.
   */
  function BindTexture(m: Material, e: Engine, param: string, texture: Option<TextureId>,
                       modes: SamplerModes, compareMode: nat, compareFunc: nat): (r: (Material, Engine))
    requires m.handle.Some?
    ensures r.0.handle == m.handle
    ensures r.0.textures == m.textures[param := texture]
    ensures param in r.0.samplers && r.0.samplers.Keys == m.samplers.Keys + {param}
    ensures r.0.samplers[param].modes == (if param in m.samplers then m.samplers[param].modes else modes)
    ensures r.0.samplers[param].compareMode == compareMode && r.0.samplers[param].compareFunc == compareFunc
    ensures forall q :: q in m.samplers && q != param ==> r.0.samplers[q] == m.samplers[q]
    ensures r.1 == e.(parameters := e.parameters[(m.handle.value, param) := Binding(texture, r.0.samplers[param])])
  {
    var s0 := if param in m.samplers then m.samplers[param] else Sampler(modes, compareMode, compareFunc);
    var s := s0.(compareMode := compareMode, compareFunc := compareFunc);
    var m' := m.(textures := m.textures[param := texture], samplers := m.samplers[param := s]);
    (m', e.(parameters := e.parameters[(m.handle.value, param) := Binding(texture, s)]))
  }

  /** Rebinding a name keeps the filter and wrap modes of its first binding. */
  lemma {:induction false} RebindKeepsFirstModes(m: Material, e: Engine, param: string, t1: Option<TextureId>, t2: Option<TextureId>,
                                                 modes1: SamplerModes, modes2: SamplerModes, cm: nat, cf: nat)
    requires m.handle.Some? && param !in m.samplers
    ensures var (m1, e1) := BindTexture(m, e, param, t1, modes1, cm, cf);
            var (m2, _) := BindTexture(m1, e1, param, t2, modes2, cm, cf);
            m2.samplers[param].modes == modes1 && m2.textures[param] == t2
  {
    var (m1, e1) := BindTexture(m, e, param, t1, modes1, cm, cf);
    assert m1.samplers[param].modes == modes1;
  }
}

=== FILE: matrix.dfy ===
/**
 * Abstract 4x4 matrices. A matrix is a word of factor labels read left to
 * right as a product: the identity is the empty word and the product is
 * concatenation. Every equation proved over words therefore holds for any
 * associative product with a unit; no claim that two words denote different
 * matrices is ever made.
 */
module Matrices {

  datatype Vec3 = Vec3(x: real, y: real, z: real)

  datatype Vec4 = Vec4(x: real, y: real, z: real, w: real)

  /** Where a rotation came from: a quaternion, or a caller-supplied 3x3 matrix kept opaque. */
  datatype RotationSource = FromQuat(qw: real, qx: real, qy: real, qz: real) | FromMat3(id: nat)

  datatype Factor =
    | Translate(t: Vec3)                // the identity with t in the fourth column
    | Diagonal(d: Vec3)                 // diag(d.x, d.y, d.z, 1)
    | Rotate(src: RotationSource)       // the rotation matrix built from src
    | Transposed(src: RotationSource)   // transpose of the rotation matrix built from src
    | Opaque(id: nat)                   // a caller-supplied 4x4 matrix
    | InverseOf(m: seq<Factor>)         // the general inverse of a matrix, uninterpreted

  type Mat = seq<Factor>

  const Identity: Mat := []

  function Mul(a: Mat, b: Mat): Mat {
    a + b
  }

  /** I * ms[0] * ... * ms[n-1], accumulated left to right as the render visitor does. */
  function Product(ms: seq<Mat>): Mat {
    if |ms| == 0 then Identity else Mul(Product(ms[..|ms| - 1]), ms[|ms| - 1])
  }

  /** The accumulated product of a concatenation splits into the two partial products. */
  lemma {:induction false} ProductAppend(a: seq<Mat>, b: seq<Mat>)
    ensures Product(a + b) == Mul(Product(a), Product(b))
    decreases |b|
  {
    if |b| == 0 {
      assert a + b == a;
    } else {
      var b' := b[..|b| - 1];
      assert (a + b)[..|a + b| - 1] == a + b';
      assert (a + b)[|a + b| - 1] == b[|b| - 1];
      ProductAppend(a, b');
    }
  }

  lemma ProductSingleton(m: Mat)
    ensures Product([m]) == m
  {
    assert [m][..0] == [];
  }
}

=== FILE: node.dfy ===
/**
 * Node: the base of every scene-graph node (include/bulb/nodes/Node.hh,
 * src/nodes/Node.cc). A node carries a name, a dirty flag fixed at
 * construction and an ordered list of parent composites; its body says what
 * kind of node it is. Node pointers become ids into an arena map.
 */
module Nodes {
  import opened Wrappers
  import opened Seqs
  import Transforms
  import Materials
  import Drawables

  type NodeId = nat

  /** A registered child listener callback, as an opaque id. */
  type ListenerId = nat

  /** What kind of composite a node is: a plain Composite, a Transform or a Material. */
  datatype Role =
    | PlainComposite
    | TransformNode(transform: Transforms.Transform)
    | MaterialNode(material: Materials.Material)

  /** A composite owns an ordered child list and its child listeners; a drawable is a leaf. */
  datatype Body =
    | Composite(children: seq<NodeId>, listeners: seq<ListenerId>, role: Role)
    | Leaf(drawable: Drawables.Drawable)

  datatype NodeRec = NodeRec(name: string, dirty: bool, parents: seq<NodeId>, body: Body)

  /** A fresh composite body: no children, no listeners. */
  function NewComposite(role: Role): (b: Body)
    ensures b.Composite? && b.children == [] && b.listeners == [] && b.role == role
  {
    Composite([], [], role)
  }

  /** Node(dirty, name): a null name becomes the empty string; there are no parents yet. */
  function NewNode(dirty: bool, name: Option<string>, body: Body): (n: NodeRec)
    ensures name.None? ==> n.name == ""
    ensures name.Some? ==> n.name == name.value
    ensures IsDirty(n) == dirty && n.parents == [] && n.body == body
  {
    NodeRec(if name.Some? then name.value else "", dirty, [], body)
  }

  predicate IsDirty(n: NodeRec) {
    n.dirty
  }

  /** set_name: only the name changes. */
  function SetName(n: NodeRec, name: string): (r: NodeRec)
    ensures r.name == name
    ensures r.parents == n.parents && IsDirty(r) == IsDirty(n) && r.body == n.body
  {
    n.(name := name)
  }

  /** add_parent: appends the parent only when it is absent. */
  function AddParent(n: NodeRec, p: NodeId): (r: NodeRec)
    ensures p in r.parents
    ensures p in n.parents ==> r == n
    ensures p !in n.parents ==> r.parents == n.parents + [p]
    ensures NoDup(n.parents) ==> NoDup(r.parents)
    ensures forall q :: q in r.parents <==> q in n.parents || q == p
    ensures r.name == n.name && IsDirty(r) == IsDirty(n) && r.body == n.body
  {
    if p in n.parents then n
    else
      AppendNoDup(n.parents, p);
      n.(parents := n.parents + [p])
  }

  /**
   * remove_parent: true iff the parent was present; then its first
   * occurrence is erased and the other entries keep their order.
   */
  function RemoveParent(n: NodeRec, p: NodeId): (r: (NodeRec, bool))
    ensures r.1 <==> p in n.parents
    ensures !r.1 ==> r.0 == n
    ensures r.1 ==>
      exists k :: 0 <= k < |n.parents| && n.parents[k] == p && p !in n.parents[..k]
        && r.0.parents == n.parents[..k] + n.parents[k + 1..]
    ensures NoDup(n.parents) ==> NoDup(r.0.parents) && p !in r.0.parents
    ensures forall q :: q != p ==> (q in r.0.parents <==> q in n.parents)
    ensures r.0.name == n.name && IsDirty(r.0) == IsDirty(n) && r.0.body == n.body
  {
    if p in n.parents then
      var k := IndexOf(n.parents, p);
      RemoveFirstFromNoDup(n.parents, p);
      assert p !in n.parents[..k];
      (n.(parents := RemoveAt(n.parents, k)), true)
    else
      (n, false)
  }

  /**
   * set_parent(i, parent): below the size, slot i is overwritten and its old
   * occupant returned; at or past the size it is add_parent and null is returned.
   */
  function SetParent(n: NodeRec, i: nat, p: NodeId): (r: (NodeRec, Option<NodeId>))
    ensures i < |n.parents| ==>
      |r.0.parents| == |n.parents| && r.0.parents[i] == p && r.1 == Some(n.parents[i])
      && forall j :: 0 <= j < |n.parents| && j != i ==> r.0.parents[j] == n.parents[j]
    ensures i >= |n.parents| ==> r == (AddParent(n, p), None)
    ensures r.0.name == n.name && IsDirty(r.0) == IsDirty(n) && r.0.body == n.body
  {
    if i >= |n.parents| then (AddParent(n, p), None)
    else (n.(parents := n.parents[i := p]), Some(n.parents[i]))
  }

  /** Putting the old occupant back into slot i undoes set_parent and hands back the parent it displaced. */
  lemma SetParentRestores(n: NodeRec, i: nat, p: NodeId)
    requires i < |n.parents|
    ensures var (m, prev) := SetParent(n, i, p);
      prev == Some(n.parents[i]) && SetParent(m, i, prev.value) == (n, Some(p))
  {
    var m := SetParent(n, i, p).0;
    assert m.parents[i := n.parents[i]] == n.parents;
  }

  /** parent_at: vector::at throws past the end, which is None here. */
  function ParentAt(n: NodeRec, i: nat): (r: Option<NodeId>)
    ensures r.Some? <==> i < ParentsSize(n)
    ensures r.Some? ==> r.value == n.parents[i]
  {
    if i < |n.parents| then Some(n.parents[i]) else None
  }

  function ParentsSize(n: NodeRec): nat {
    |n.parents|
  }

  /** get_parents: a copy of the parent list, in order. */
  function GetParents(n: NodeRec): (r: seq<NodeId>)
    ensures |r| == ParentsSize(n)
    ensures forall i :: 0 <= i < |r| ==> ParentAt(n, i) == Some(r[i])
  {
    n.parents
  }

  /** add_parent is idempotent. */
  lemma AddParentIdempotent(n: NodeRec, p: NodeId)
    ensures AddParent(AddParent(n, p), p) == AddParent(n, p)
  {
  }

  /** Adding an absent parent and removing it again restores the node and reports success. */
  lemma AddRemoveParentRoundTrip(n: NodeRec, p: NodeId)
    requires p !in n.parents
    ensures RemoveParent(AddParent(n, p), p) == (n, true)
  {
    AppendThenRemove(n.parents, p);
  }

  /** set_parent below the size does not check for the parent elsewhere in the list, so it can create a duplicate. */
  lemma SetParentCanDuplicate()
    ensures var n := NewNode(false, None, NewComposite(PlainComposite));
      var r := SetParent(AddParent(AddParent(n, 1), 2), 0, 2).0;
      NoDup(AddParent(AddParent(n, 1), 2).parents) && !NoDup(r.parents)
  {
    var n := NewNode(false, None, NewComposite(PlainComposite));
    var r := SetParent(AddParent(AddParent(n, 1), 2), 0, 2).0;
    assert r.parents == [2, 2];
  }
}

=== FILE: scenegraph.dfy ===
/**
 * SceneGraph (include/bulb/SceneGraph.hh, src/SceneGraph.cc): the owner of
 * the node objects, the by-name and animated-transform indexes, the sun and
 * the directional lights, and the two flags that decide when a frame
 * rebuilds the scene: `dirty` (the graph changed since the last rebuild)
 * and `updating` (a writer holds the non-blocking update gate).
 *
 * Every node object, owned or not, is a record of the arena; `owned` is
 * the graph's `nodes` vector, and `nextId` is the next address a new node
 * object receives.
 */
module SceneGraphs {
  import opened Wrappers
  import opened Seqs
  import opened Matrices
  import opened Engines
  import Transforms
  import Materials
  import Drawables
  import opened Nodes
  import opened Composites
  import opened Traversal
  import opened Visitors

  /** A registered scene callback (a weak pointer), as an opaque id. */
  type SceneListenerId = nat

  /** One scene callback invocation: the listener and the generation of the scene it was handed. */
  datatype SceneNotice = SceneNotice(listener: SceneListenerId, generation: nat)

  datatype SceneGraph = SceneGraph(
    arena: Arena,                     // every node object, and the child-listener log
    nextId: NodeId,                   // where the next node object is allocated
    root: Option<NodeId>,
    owned: seq<NodeId>,               // `nodes`: the node objects the graph owns, in adoption order
    byName: map<string, NodeId>,      // nodesByName
    animated: map<string, NodeId>,    // animationTransforms
    dirty: bool,
    updating: bool,                   // isUpdating
    sun: Entity,                      // 0 is the null entity
    directional: map<string, Entity>, // directional_lights
    listeners: seq<SceneListenerId>,  // scene_listeners
    notices: seq<SceneNotice>,        // the scene callbacks made so far
    engine: Engine)

  /**
   * The model's representation invariant: the engine hands out fresh
   * entities and the sun and directional lights were handed out before,
   * node ids lie below `nextId`, and the root, the owned nodes and both
   * indexes name node objects.
   */
  predicate WellFormed(g: SceneGraph) {
    && Engines.Valid(g.engine)
    && g.sun < g.engine.next
    && (forall k :: k in g.directional ==> g.directional[k] < g.engine.next)
    && (forall x :: x in g.arena.nodes ==> x < g.nextId)
    && (g.root.Some? ==> g.root.value in g.arena.nodes)
    && (forall x :: x in g.owned ==> x in g.arena.nodes)
    && (forall k :: k in g.byName ==> g.byName[k] in g.arena.nodes)
    && (forall k :: k in g.animated ==> g.animated[k] in g.arena.nodes)
  }

  /** Well-formedness survives any change that keeps the node ids, the entity set and every index. */
  lemma SameShapeWellFormed(g: SceneGraph, r: SceneGraph)
    requires WellFormed(g)
    requires r.arena.nodes.Keys == g.arena.nodes.Keys && r.nextId == g.nextId
    requires r.engine.alive == g.engine.alive && r.engine.next == g.engine.next
    requires r.root == g.root && r.owned == g.owned && r.byName == g.byName && r.animated == g.animated
    requires r.sun == g.sun && r.directional == g.directional
    ensures WellFormed(r)
  {
  }

  /** The constructor: a fresh scene, no nodes, dirty and not updating. */
  function NewSceneGraph(e: Engine): (g: SceneGraph)
    requires Engines.Valid(e)
    ensures WellFormed(g)
    ensures g.dirty && !g.updating
    ensures g.root == None && g.owned == [] && g.byName == map[] && g.animated == map[]
    ensures g.sun == 0 && g.directional == map[] && g.listeners == []
    ensures g.engine.scene == {} && g.engine.sceneGeneration == e.sceneGeneration + 1
    ensures g.engine == e.(scene := {}, sceneGeneration := e.sceneGeneration + 1)
    ensures g.arena == Arena(map[], []) && g.notices == []
  {
    SceneGraph(Arena(map[], []), 0, None, [], map[], map[], true, false, 0, map[], [], [], CreateScene(e))
  }

  // ---------------------------------------------------------------- the update gate

  /** start_updating: a compare-and-swap of the gate from clear to held. */
  function StartUpdating(g: SceneGraph): (r: (SceneGraph, bool))
    ensures r.1 <==> !g.updating
    ensures r.0.updating
    ensures r.0 == g.(updating := true)
  {
    (g.(updating := true), !g.updating)
  }

  /** end_updating(setDirty = true): dirty becomes exactly the argument, and the gate is released. */
  function EndUpdating(g: SceneGraph, setDirty: bool := true): (r: SceneGraph)
    ensures r.dirty == setDirty && !r.updating
    ensures r == g.(dirty := setDirty, updating := false)
  {
    g.(dirty := setDirty, updating := false)
  }

  /** While the gate is held a second start_updating fails and changes nothing. */
  lemma GateIsExclusive(g: SceneGraph)
    requires !g.updating
    ensures StartUpdating(g).1
    ensures var g1 := StartUpdating(g).0;
      !StartUpdating(g1).1 && StartUpdating(g1).0 == g1
    ensures var g1 := StartUpdating(g).0;
      !EndUpdating(g1).updating && StartUpdating(EndUpdating(g1)).1
  {
  }

  /** end_updating(false) throws away dirtiness recorded before it, including a factory's. */
  lemma EndUpdatingFalseDiscardsDirty(g: SceneGraph)
    requires g.dirty
    ensures !EndUpdating(StartUpdating(g).0, false).dirty
    ensures EndUpdating(StartUpdating(g).0).dirty
  {
  }

  // ---------------------------------------------------------------- allocation and the indexes

  /** nodesByName[name] = id for a non-empty name; the empty name is never registered. */
  function Register(byName: map<string, NodeId>, name: string, id: NodeId): (r: map<string, NodeId>)
    ensures name != "" ==> r == byName[name := id]
    ensures name == "" ==> r == byName
  {
    if name == "" then byName else byName[name := id]
  }

  /** A node object built outside the graph (a `new` by the caller), not owned by it. */
  function Construct(g: SceneGraph, n: NodeRec): (r: (SceneGraph, NodeId))
    requires WellFormed(g) && n.parents == [] && (n.body.Composite? ==> n.body.children == [])
    ensures WellFormed(r.0) && r.1 !in g.arena.nodes
    ensures r.0.arena.nodes == g.arena.nodes[r.1 := n]
    ensures Linked(g.arena.nodes) ==> Linked(r.0.arena.nodes)
    ensures r.0.arena == g.arena.(nodes := r.0.arena.nodes)
    ensures r.0 == g.(arena := r.0.arena, nextId := r.0.nextId)
  {
    FreshKeepsLinked(g.arena.nodes, g.nextId, n);
    (g.(arena := g.arena.(nodes := g.arena.nodes[g.nextId := n]), nextId := g.nextId + 1), g.nextId)
  }

  /**
   * What every make_* does with the node it built: emplace it in `nodes`,
   * register its non-empty name, and set dirty when the factory does.
   */
  function Place(g: SceneGraph, n: NodeRec, setDirty: bool): (r: (SceneGraph, NodeId))
    requires WellFormed(g) && n.parents == [] && (n.body.Composite? ==> n.body.children == [])
    ensures WellFormed(r.0) && r.1 !in g.arena.nodes
    ensures r.0.arena == g.arena.(nodes := g.arena.nodes[r.1 := n])
    ensures r.0.owned == g.owned + [r.1]
    ensures r.0.byName == Register(g.byName, n.name, r.1)
    ensures r.0.dirty == (g.dirty || setDirty)
    ensures Linked(g.arena.nodes) ==> Linked(r.0.arena.nodes)
    ensures r.0 == g.(arena := r.0.arena, nextId := r.0.nextId, owned := r.0.owned, byName := r.0.byName, dirty := r.0.dirty)
  {
    var (g1, id) := Construct(g, n);
    (g1.(owned := g.owned + [id], byName := Register(g.byName, n.name, id), dirty := g.dirty || setDirty), id)
  }

  /** get_node: the node registered under the name, or null. */
  function GetNode(g: SceneGraph, name: string): (r: Option<NodeId>)
    ensures r.Some? <==> name in g.byName
    ensures r.Some? ==> r.value == g.byName[name]
  {
    if name in g.byName then Some(g.byName[name]) else None
  }

  /** The key order of an unordered_map: every key once, nothing else. */
  predicate Enumerates<V>(order: seq<string>, m: map<string, V>) {
    && NoDup(order)
    && (forall k :: k in order ==> k in m)
    && (forall k :: k in m ==> k in order)
  }

  /**
   * get_animated_transforms: the values of the animated index in the map's
   * iteration order `order`.
   */
  function GetAnimatedTransforms(g: SceneGraph, order: seq<string>): (r: seq<NodeId>)
    requires Enumerates(order, g.animated)
    ensures |r| == |order|
    ensures forall i :: 0 <= i < |order| ==> r[i] == g.animated[order[i]]
    ensures forall x :: x in r <==> exists k :: k in g.animated && g.animated[k] == x
  {
    var r := seq(|order|, i requires 0 <= i < |order| => g.animated[order[i]]);
    assert forall k :: k in g.animated ==> g.animated[k] in r by {
      forall k | k in g.animated ensures g.animated[k] in r {
        var i :| 0 <= i < |order| && order[i] == k;
        assert r[i] == g.animated[k];
      }
    }
    r
  }

  /** add_scene_listener: appended, never removed. */
  function AddSceneListener(g: SceneGraph, l: SceneListenerId): (r: SceneGraph)
    ensures r.listeners == g.listeners + [l]
    ensures r == g.(listeners := r.listeners)
  {
    g.(listeners := g.listeners + [l])
  }

  // ---------------------------------------------------------------- the root

  /** The entities of the drawables among ids: what destroying those node objects destroys. */
  function LeafEntities(h: Heap, ids: seq<NodeId>): set<Entity> {
    set i | i in ids && i in h && h[i].body.Leaf? :: h[i].body.drawable.entity
  }

  /** The entities of the Geometry drawables among ids: those whose components the engine destroys too. */
  function GeometryEntities(h: Heap, ids: seq<NodeId>): set<Entity> {
    set i | i in ids && i in h && h[i].body.Leaf? && h[i].body.drawable.variant.Geometry? :: h[i].body.drawable.entity
  }

  /** Both entity sets split into the first id's contribution and the rest's. */
  lemma EntitiesSplit(h: Heap, ids: seq<NodeId>)
    requires |ids| > 0
    ensures LeafEntities(h, ids) ==
      (if ids[0] in h && h[ids[0]].body.Leaf? then {h[ids[0]].body.drawable.entity} else {}) + LeafEntities(h, ids[1..])
    ensures GeometryEntities(h, ids) ==
      (if ids[0] in h && h[ids[0]].body.Leaf? && h[ids[0]].body.drawable.variant.Geometry?
       then {h[ids[0]].body.drawable.entity} else {}) + GeometryEntities(h, ids[1..])
  {
    assert forall i :: i in ids <==> i == ids[0] || i in ids[1..];
  }

  /**
   * nodes.clear(): each owned drawable's destructor destroys its rendered
   * entity, and a Geometry's destructor first has the engine drop that
   * entity's components; the scene, the parameters and the entity counter
   * are untouched.
   */
  function Release(h: Heap, ids: seq<NodeId>, e: Engine): (r: Engine)
    ensures r.alive == e.alive - LeafEntities(h, ids)
    ensures Engines.Stripped(e, r, GeometryEntities(h, ids))
    ensures r == e.(alive := r.alive, transforms := r.transforms, transformParent := r.transformParent,
                    slots := r.slots, lights := r.lights)
    ensures Engines.Valid(e) ==> Engines.Valid(r)
    decreases |ids|
  {
    if |ids| == 0 then e
    else
      var e1 := if ids[0] in h && h[ids[0]].body.Leaf? then Drawables.DestroyDrawable(h[ids[0]].body.drawable, e) else e;
      var r := Release(h, ids[1..], e1);
      var head := if ids[0] in h && h[ids[0]].body.Leaf? && h[ids[0]].body.drawable.variant.Geometry?
                  then {h[ids[0]].body.drawable.entity} else {};
      EntitiesSplit(h, ids);
      Engines.StrippedTwice(e, e1, r, head, GeometryEntities(h, ids[1..]));
      r
  }

  /**
   * make_root(name = "Root", isReplace = false). An existing root is
   * returned as it is unless isReplace, which first destroys the owned
   * nodes and the old root (the name indexes keep their entries). The new
   * root is Composite(name): the name lands in the bool `dirty` parameter,
   * so the root is dirty exactly when a name was given, is itself unnamed,
   * and is never registered. The graph becomes dirty.
   */
  function MakeRoot(g: SceneGraph, name: Option<string> := Some("Root"), isReplace: bool := false): (r: (SceneGraph, NodeId))
    requires WellFormed(g)
    ensures WellFormed(r.0)
    ensures g.root.Some? && !isReplace ==> r == (g, g.root.value)
    ensures g.root.None? || isReplace ==>
      && r.1 !in g.arena.nodes && r.0.root == Some(r.1)
      && r.0.arena.nodes[r.1] == NodeRec("", name.Some?, [], Composite([], [], PlainComposite))
      && r.0.dirty
      && r.0.owned == (if g.root.Some? then [] else g.owned)
      && r.0.engine.alive == (if g.root.Some? then g.engine.alive - LeafEntities(g.arena.nodes, g.owned) else g.engine.alive)
      && Engines.Stripped(g.engine, r.0.engine, if g.root.Some? then GeometryEntities(g.arena.nodes, g.owned) else {})
      && r.0.engine.scene == g.engine.scene && r.0.engine.parameters == g.engine.parameters
      && r.0.byName == g.byName && r.0.animated == g.animated
      && r.0.updating == g.updating && r.0.sun == g.sun && r.0.directional == g.directional && r.0.listeners == g.listeners
    ensures g.root.None? || isReplace ==>
      && r.0.arena == g.arena.(nodes := g.arena.nodes[r.1 := r.0.arena.nodes[r.1]])
      && r.0 == g.(arena := r.0.arena, nextId := r.0.nextId, root := Some(r.1), owned := r.0.owned, dirty := true,
                   engine := r.0.engine)
      && r.0.engine == g.engine.(alive := r.0.engine.alive, transforms := r.0.engine.transforms,
                                 transformParent := r.0.engine.transformParent, slots := r.0.engine.slots,
                                 lights := r.0.engine.lights)
  {
    if g.root.Some? && !isReplace then (g, g.root.value)
    else
      var g1 := if g.root.Some? then g.(owned := [], root := None, engine := Release(g.arena.nodes, g.owned, g.engine)) else g;
      var n := NewNode(name.Some?, None, NewComposite(PlainComposite));
      var (g2, id) := Construct(g1, n);
      (g2.(root := Some(id), dirty := true, byName := Register(g2.byName, n.name, id)), id)
  }

  /** The root is never reachable through get_node, under any name. */
  lemma MakeRootNeverRegistered(g: SceneGraph, name: Option<string>, isReplace: bool, k: string)
    requires WellFormed(g) && (g.root.None? || isReplace)
    ensures var (g', id) := MakeRoot(g, name, isReplace);
      GetNode(g', k) == GetNode(g, k)
  {
  }

  /**
   * adopt_root(newroot): nodes.clear() destroys the owned nodes, and the
   * root becomes newroot; the indexes and the dirty flag are untouched.
   */
  function AdoptRoot(g: SceneGraph, id: NodeId): (r: SceneGraph)
    requires WellFormed(g) && IsComposite(g.arena.nodes, id)
    requires g.root != Some(id) && id !in g.owned
    ensures WellFormed(r)
    ensures r.root == Some(id) && r.owned == []
    ensures r.engine.alive == g.engine.alive - LeafEntities(g.arena.nodes, g.owned)
    ensures Engines.Stripped(g.engine, r.engine, GeometryEntities(g.arena.nodes, g.owned))
    ensures r.engine.scene == g.engine.scene && r.engine.parameters == g.engine.parameters
    ensures r == g.(root := Some(id), owned := [], engine := r.engine)
  {
    g.(owned := [], root := Some(id), engine := Release(g.arena.nodes, g.owned, g.engine))
  }

  // ---------------------------------------------------------------- factories

  /**
   * make_affine_transform (rotation as quaternion or 3x3 matrix): a dirty
   * transform node; the graph becomes dirty; with animation parameters the
   * node also enters the animated index under its name, even the empty one.
   */
  function MakeAffineTransform(g: SceneGraph, name: Option<string>, src: RotationSource, t: Vec3, s: Vec3,
                               params: Option<Transforms.ParamId>, order: Transforms.Order): (r: (SceneGraph, NodeId))
    requires WellFormed(g)
    ensures WellFormed(r.0) && r.1 !in g.arena.nodes && r.0.owned == g.owned + [r.1]
    ensures var n := r.0.arena.nodes[r.1];
      && n == NewNode(true, name, NewComposite(TransformNode(Transforms.NewAffineTransform(params, src, t, s, order))))
      && Transforms.Matrix(n.body.role.transform) == Transforms.Compose(order, [Translate(t)], [Rotate(src)], [Diagonal(s)])
      && r.0.byName == Register(g.byName, n.name, r.1)
      && r.0.animated == (if params.Some? then g.animated[n.name := r.1] else g.animated)
    ensures r.0.dirty
    ensures Linked(g.arena.nodes) ==> Linked(r.0.arena.nodes)
    ensures r.0.arena == g.arena.(nodes := g.arena.nodes[r.1 := r.0.arena.nodes[r.1]])
    ensures r.0 == g.(arena := r.0.arena, nextId := r.0.nextId, owned := r.0.owned, byName := r.0.byName,
                      animated := r.0.animated, dirty := true)
  {
    var n := NewNode(true, name, NewComposite(TransformNode(Transforms.NewAffineTransform(params, src, t, s, order))));
    var (g1, id) := Place(g, n, true);
    (g1.(animated := if params.Some? then g.animated[n.name := id] else g.animated), id)
  }

  /** The scalar-scale overloads: the vector factory with scale (s, s, s). */
  function MakeUniformAffineTransform(g: SceneGraph, name: Option<string>, src: RotationSource, t: Vec3, s: real,
                                      params: Option<Transforms.ParamId>, order: Transforms.Order): (r: (SceneGraph, NodeId))
    requires WellFormed(g)
    ensures r == MakeAffineTransform(g, name, src, t, Vec3(s, s, s), params, order)
    ensures Transforms.Matrix(r.0.arena.nodes[r.1].body.role.transform)
         == Transforms.Compose(order, [Translate(t)], [Rotate(src)], [Diagonal(Vec3(s, s, s))])
  {
    MakeAffineTransform(g, name, src, t, Vec3(s, s, s), params, order)
  }

  /** make_custom_transform: as the affine factory, with the matrix given whole. */
  function MakeCustomTransform(g: SceneGraph, name: Option<string>, m: Mat, params: Option<Transforms.ParamId>): (r: (SceneGraph, NodeId))
    requires WellFormed(g)
    ensures WellFormed(r.0) && r.1 !in g.arena.nodes && r.0.owned == g.owned + [r.1]
    ensures var n := r.0.arena.nodes[r.1];
      && n == NewNode(true, name, NewComposite(TransformNode(Transforms.NewCustomTransform(params, m))))
      && Transforms.Matrix(n.body.role.transform) == m
      && r.0.byName == Register(g.byName, n.name, r.1)
      && r.0.animated == (if params.Some? then g.animated[n.name := r.1] else g.animated)
    ensures r.0.dirty
    ensures Linked(g.arena.nodes) ==> Linked(r.0.arena.nodes)
    ensures r.0.arena == g.arena.(nodes := g.arena.nodes[r.1 := r.0.arena.nodes[r.1]])
    ensures r.0 == g.(arena := r.0.arena, nextId := r.0.nextId, owned := r.0.owned, byName := r.0.byName,
                      animated := r.0.animated, dirty := true)
  {
    var tr := Transforms.NewCustomTransform(params, m);
    var tr' := if params.Some? then Transforms.SetAnimationParameters(tr, params) else tr;
    var n := NewNode(true, name, NewComposite(TransformNode(tr')));
    var (g1, id) := Place(g, n, true);
    (g1.(animated := if params.Some? then g.animated[n.name := id] else g.animated), id)
  }

  /** make_material(name, material): a dirty Material node holding the handle; the graph becomes dirty. */
  function MakeMaterial(g: SceneGraph, name: Option<string>, handle: Option<MatHandle>): (r: (SceneGraph, NodeId))
    requires WellFormed(g)
    ensures WellFormed(r.0) && r.1 !in g.arena.nodes && r.0.owned == g.owned + [r.1]
    ensures var n := r.0.arena.nodes[r.1];
      && n == NewNode(true, name, NewComposite(MaterialNode(Materials.NewMaterial(handle))))
      && Materials.GetMaterial(n.body.role.material) == handle
      && r.0.byName == Register(g.byName, n.name, r.1)
    ensures r.0.dirty
    ensures Linked(g.arena.nodes) ==> Linked(r.0.arena.nodes)
    ensures r.0.arena == g.arena.(nodes := g.arena.nodes[r.1 := r.0.arena.nodes[r.1]])
    ensures r.0 == g.(arena := r.0.arena, nextId := r.0.nextId, owned := r.0.owned, byName := r.0.byName, dirty := true)
  {
    Place(g, NewNode(true, name, NewComposite(MaterialNode(Materials.NewMaterial(handle)))), true)
  }

  /**
   * make_material(name, filename): a Material(name) opened from the asset
   * bytes `data`; when open fails the node is discarded, null is returned
   * and the graph is unchanged. Otherwise it is placed as make_material does.
   */
  function MakeMaterialFromFile(g: SceneGraph, name: Option<string>, data: seq<bv8>, engineAvailable: bool,
                                built: Option<MatHandle>): (r: (SceneGraph, Option<NodeId>))
    requires WellFormed(g)
    ensures WellFormed(r.0)
    ensures r.1.None? <==> !Materials.Open(Materials.NewMaterial(None), data, engineAvailable, built).1
    ensures r.1.None? ==> r.0 == g
    ensures r.1.Some? ==>
      && r.1.value !in g.arena.nodes && r.0.owned == g.owned + [r.1.value] && r.0.dirty
      && built.Some?
      && r.0.arena.nodes[r.1.value] == NewNode(true, name, NewComposite(MaterialNode(Materials.NewMaterial(built))))
      && r.0.byName == Register(g.byName, r.0.arena.nodes[r.1.value].name, r.1.value)
      && r.0 == g.(arena := r.0.arena, nextId := r.0.nextId, owned := r.0.owned, byName := r.0.byName, dirty := true)
      && r.0.arena == g.arena.(nodes := g.arena.nodes[r.1.value := r.0.arena.nodes[r.1.value]])
  {
    var (m, ok) := Materials.Open(Materials.NewMaterial(None), data, engineAvailable, built);
    if !ok then (g, None)
    else
      var (g1, id) := Place(g, NewNode(true, name, NewComposite(MaterialNode(m))), true);
      (g1, Some(id))
  }

  /** make_geometry: a Geometry with a fresh entity; unlike the other factories it leaves dirty alone. */
  function MakeGeometry(g: SceneGraph, name: Option<string>, material: Option<MatHandle>,
                        internal: Option<Transforms.Transform>): (r: (SceneGraph, NodeId))
    requires WellFormed(g)
    ensures WellFormed(r.0) && r.1 !in g.arena.nodes && r.0.owned == g.owned + [r.1]
    ensures var n := r.0.arena.nodes[r.1];
      && n.body.Leaf? && n.dirty && n.parents == [] && n.name == (if name.Some? then name.value else "")
      && n.body.drawable.variant == Drawables.Geometry(material) && n.body.drawable.internal == internal
      && n.body.drawable.entity !in g.engine.alive
      && r.0.engine == g.engine.(next := r.0.engine.next, alive := g.engine.alive + {n.body.drawable.entity})
      && r.0.byName == Register(g.byName, n.name, r.1)
    ensures r.0.dirty == g.dirty
    ensures r.0 == g.(arena := r.0.arena, nextId := r.0.nextId, owned := r.0.owned, byName := r.0.byName, engine := r.0.engine)
    ensures Linked(g.arena.nodes) ==> Linked(r.0.arena.nodes)
    ensures r.0.arena == g.arena.(nodes := g.arena.nodes[r.1 := r.0.arena.nodes[r.1]])
  {
    var (d, e) := Drawables.NewGeometry(g.engine, material, internal);
    Place(g.(engine := e), NewNode(true, name, Leaf(d)), false)
  }

  /** make_multi_geometry(name, defaultMaterial, internal): as make_geometry, for a MultiGeometry with no parts. */
  function MakeMultiGeometry(g: SceneGraph, name: Option<string>, material: Option<MatHandle>,
                             internal: Option<Transforms.Transform>): (r: (SceneGraph, NodeId))
    requires WellFormed(g)
    ensures WellFormed(r.0) && r.1 !in g.arena.nodes && r.0.owned == g.owned + [r.1]
    ensures var n := r.0.arena.nodes[r.1];
      && n.body.Leaf? && n.dirty && n.parents == [] && n.name == (if name.Some? then name.value else "")
      && n.body.drawable.variant.MultiGeometry? && n.body.drawable.variant.rootMaterial == material
      && n.body.drawable.variant.parts == [] && n.body.drawable.internal == internal
      && n.body.drawable.entity !in g.engine.alive
      && r.0.engine == g.engine.(next := r.0.engine.next, alive := g.engine.alive + {n.body.drawable.entity})
      && r.0.byName == Register(g.byName, n.name, r.1)
    ensures r.0.dirty == g.dirty
    ensures r.0 == g.(arena := r.0.arena, nextId := r.0.nextId, owned := r.0.owned, byName := r.0.byName, engine := r.0.engine)
    ensures Linked(g.arena.nodes) ==> Linked(r.0.arena.nodes)
    ensures r.0.arena == g.arena.(nodes := g.arena.nodes[r.1 := r.0.arena.nodes[r.1]])
  {
    var (d, e) := Drawables.NewMultiGeometry(g.engine, material, internal);
    Place(g.(engine := e), NewNode(true, name, Leaf(d)), false)
  }

  /** make_spotlight and make_pointlight: a PositionalLight leaf whose light sits at the initial position; dirty is left alone. */
  function MakePositionalLight(g: SceneGraph, name: Option<string>, kind: LightKind, position: Vec3): (r: (SceneGraph, NodeId))
    requires WellFormed(g) && (kind == PointLight || kind == SpotLight)
    ensures WellFormed(r.0) && r.1 !in g.arena.nodes && r.0.owned == g.owned + [r.1]
    ensures var n := r.0.arena.nodes[r.1];
      && n.body.Leaf? && n.dirty && n.parents == [] && n.name == (if name.Some? then name.value else "")
      && n.body.drawable.variant == Drawables.PositionalLight(Vec4(position.x, position.y, position.z, 1.0))
      && n.body.drawable.entity !in g.engine.alive
      && r.0.engine == g.engine.(next := r.0.engine.next, alive := g.engine.alive + {n.body.drawable.entity},
                                 lights := g.engine.lights[n.body.drawable.entity := LightRec(kind, position)])
      && r.0.byName == Register(g.byName, n.name, r.1)
    ensures r.0.dirty == g.dirty
    ensures r.0 == g.(arena := r.0.arena, nextId := r.0.nextId, owned := r.0.owned, byName := r.0.byName, engine := r.0.engine)
    ensures Linked(g.arena.nodes) ==> Linked(r.0.arena.nodes)
    ensures r.0.arena == g.arena.(nodes := g.arena.nodes[r.1 := r.0.arena.nodes[r.1]])
  {
    var (d, e) := Drawables.NewPositionalLight(g.engine, kind, position);
    Place(g.(engine := e), NewNode(true, name, Leaf(d)), false)
  }

  // ---------------------------------------------------------------- adoption

  /** The node kinds adopt_material, adopt_geometry, adopt_multi_geometry and adopt_light take. */
  predicate Adoptable(n: NodeRec) {
    || (n.body.Composite? && n.body.role.MaterialNode?)
    || (n.body.Leaf? && !n.body.drawable.variant.PlainDrawable?)
  }

  /**
   * adopt_material, adopt_geometry, adopt_multi_geometry and adopt_light: a
   * node already in `nodes` is refused (false, nothing changes); otherwise
   * it is owned, its non-empty name registered, and the graph made dirty.
   * adopt_light discards the answer.
   */
  function Adopt(g: SceneGraph, id: NodeId): (r: (SceneGraph, bool))
    requires WellFormed(g) && id in g.arena.nodes && Adoptable(g.arena.nodes[id])
    ensures WellFormed(r.0)
    ensures r.1 <==> id !in g.owned
    ensures !r.1 ==> r.0 == g
    ensures r.1 ==>
      && r.0.owned == g.owned + [id] && r.0.dirty
      && r.0.byName == Register(g.byName, g.arena.nodes[id].name, id)
      && r.0 == g.(owned := r.0.owned, byName := r.0.byName, dirty := true)
  {
    if id in g.owned then (g, false)
    else (g.(owned := g.owned + [id], byName := Register(g.byName, g.arena.nodes[id].name, id), dirty := true), true)
  }

  /**
   * adopt_affine_transform and adopt_custom_transform: as Adopt, and with
   * non-null parameters the node's parameters are replaced and it enters
   * the animated index under its name.
   */
  function AdoptTransform(g: SceneGraph, id: NodeId, params: Option<Transforms.ParamId>): (r: (SceneGraph, bool))
    requires WellFormed(g) && id in g.arena.nodes
    requires g.arena.nodes[id].body.Composite? && g.arena.nodes[id].body.role.TransformNode?
    ensures WellFormed(r.0)
    ensures r.1 <==> id !in g.owned
    ensures !r.1 ==> r.0 == g
    ensures r.1 ==>
      var n := g.arena.nodes[id];
      && r.0.owned == g.owned + [id] && r.0.dirty
      && r.0.byName == Register(g.byName, n.name, id)
      && r.0.animated == (if params.Some? then g.animated[n.name := id] else g.animated)
      && r.0.arena.nodes[id].body.Composite? && r.0.arena.nodes[id].body.role.TransformNode?
      && r.0.arena.nodes[id].body.role.transform.params == (if params.Some? then params else n.body.role.transform.params)
      && r.0.arena.nodes[id].body.role.transform.shape == n.body.role.transform.shape
      && r.0.arena.nodes.Keys == g.arena.nodes.Keys
      && (forall x :: x in g.arena.nodes && x != id ==> r.0.arena.nodes[x] == g.arena.nodes[x])
      && (Linked(g.arena.nodes) ==> Linked(r.0.arena.nodes))
    ensures r.1 ==>
      && r.0 == g.(arena := r.0.arena, owned := r.0.owned, byName := r.0.byName, animated := r.0.animated, dirty := true)
      && r.0.arena.log == g.arena.log
  {
    if id in g.owned then (g, false)
    else
      var n := g.arena.nodes[id];
      var g1 := g.(arena := g.arena.(nodes := WithParameters(g.arena.nodes, id, params)));
      SameShapeWellFormed(g, g1);
      (g1.(owned := g.owned + [id],
           animated := if params.Some? then g.animated[n.name := id] else g.animated,
           byName := Register(g.byName, n.name, id),
           dirty := true), true)
  }

  /** The transform node's parameters replaced when non-null; every other record, and every link, is kept. */
  function WithParameters(h: Heap, id: NodeId, params: Option<Transforms.ParamId>): (r: Heap)
    requires id in h && h[id].body.Composite? && h[id].body.role.TransformNode?
    ensures r.Keys == h.Keys
    ensures r[id] == h[id].(body := h[id].body.(role := TransformNode(
      if params.Some? then Transforms.SetAnimationParameters(h[id].body.role.transform, params) else h[id].body.role.transform)))
    ensures forall x :: x in h && x != id ==> r[x] == h[x]
    ensures Linked(h) ==> Linked(r)
  {
    var n := h[id];
    var n' := if params.Some?
      then n.(body := n.body.(role := TransformNode(Transforms.SetAnimationParameters(n.body.role.transform, params))))
      else n;
    var r := h[id := n'];
    assert Kids(r, id) == Kids(h, id);
    SameLinksSameLinked(h, r);
    r
  }

  /** A node adopted once is refused the second time: adoption never duplicates ownership. */
  lemma AdoptTwiceRefused(g: SceneGraph, id: NodeId)
    requires WellFormed(g) && id in g.arena.nodes && Adoptable(g.arena.nodes[id]) && id !in g.owned
    ensures var (g1, ok1) := Adopt(g, id);
      ok1 && Adopt(g1, id) == (g1, false)
    ensures var (g1, ok1) := Adopt(g, id);
      NoDup(g.owned) ==> NoDup(g1.owned)
  {
    AppendNoDup(g.owned, id);
  }

  /** By name the last writer wins: a later make_* under the same non-empty name shadows the earlier node. */
  lemma LastWriterWins(g: SceneGraph, name: string, h1: Option<MatHandle>, h2: Option<MatHandle>)
    requires WellFormed(g) && name != ""
    ensures var (g1, a) := MakeMaterial(g, Some(name), h1);
      var (g2, b) := MakeMaterial(g1, Some(name), h2);
      && GetNode(g1, name) == Some(a)
      && GetNode(g2, name) == Some(b) && a != b
  {
  }

  // ---------------------------------------------------------------- lights outside the graph

  /** add_sunlight: any previous sun loses its light and its entity; a fresh entity becomes the sun; dirty. */
  function AddSunlight(g: SceneGraph): (r: (SceneGraph, Entity))
    requires WellFormed(g)
    ensures WellFormed(r.0)
    ensures r.0.sun == r.1 && r.1 != 0 && r.1 !in g.engine.alive && r.1 in r.0.engine.alive
    ensures r.1 in r.0.engine.lights && r.0.engine.lights[r.1].kind == SunLight
    ensures g.sun != 0 ==> g.sun !in r.0.engine.alive && (g.sun != r.1 ==> g.sun !in r.0.engine.lights)
    ensures var gone := if g.sun != 0 then {g.sun} else {};
      r.0.engine == g.engine.(next := r.0.engine.next, alive := g.engine.alive - gone + {r.1},
                              lights := (g.engine.lights - gone)[r.1 := LightRec(SunLight, Origin)])
    ensures r.0.dirty
    ensures r.0 == g.(sun := r.1, engine := r.0.engine, dirty := true)
  {
    var e1 := if g.sun != 0 then Destroy(DestroyLight(g.engine, g.sun), g.sun) else g.engine;
    var (e2, x) := Create(e1);
    (g.(sun := x, engine := BuildLight(e2, x, SunLight), dirty := true), x)
  }

  /**
   * remove_sunlight as written: the sun leaves the scene and loses its
   * light and its entity, and the graph is dirty; but `sun` keeps the
   * destroyed entity's id.
   */
  function RemoveSunlightAsWritten(g: SceneGraph): (r: SceneGraph)
    requires WellFormed(g)
    ensures WellFormed(r)
    ensures g.sun == 0 ==> r == g
    ensures g.sun != 0 ==>
      && r.sun == g.sun && r.sun !in r.engine.alive && r.sun !in r.engine.lights && r.sun !in r.engine.scene && r.dirty
    ensures g.sun != 0 ==>
      r == g.(engine := g.engine.(alive := g.engine.alive - {g.sun}, lights := g.engine.lights - {g.sun},
                                  scene := g.engine.scene - {g.sun}), dirty := true)
  {
    if g.sun == 0 then g
    else g.(engine := Destroy(DestroyLight(RemoveEntity(g.engine, g.sun), g.sun), g.sun), dirty := true)
  }

  /** remove_sunlight with the reset the rest of the class relies on: `sun` becomes null. */
  function RemoveSunlight(g: SceneGraph): (r: SceneGraph)
    requires WellFormed(g)
    ensures WellFormed(r)
    ensures r.sun == 0
    ensures g.sun == 0 ==> r == g
    ensures g.sun != 0 ==>
      && g.sun !in r.engine.alive && g.sun !in r.engine.lights && g.sun !in r.engine.scene && r.dirty
      && r == RemoveSunlightAsWritten(g).(sun := 0)
  {
    if g.sun == 0 then g
    else RemoveSunlightAsWritten(g).(sun := 0)
  }

  /** add_directional_light(name): a light already under the name is destroyed first; then a fresh one is stored; dirty. */
  function AddDirectionalLight(g: SceneGraph, name: string): (r: (SceneGraph, Entity))
    requires WellFormed(g)
    ensures WellFormed(r.0)
    ensures r.0.directional == g.directional[name := r.1]
    ensures r.1 != 0 && r.1 !in g.engine.alive && r.1 in r.0.engine.alive
    ensures r.1 in r.0.engine.lights && r.0.engine.lights[r.1].kind == DirectionalLight
    ensures name in g.directional ==> g.directional[name] !in r.0.engine.alive
    ensures var gone := if name in g.directional then {g.directional[name]} else {};
      r.0.engine == g.engine.(next := r.0.engine.next, alive := g.engine.alive - gone + {r.1},
                              lights := (g.engine.lights - gone)[r.1 := LightRec(DirectionalLight, Origin)])
    ensures r.0.dirty
    ensures r.0 == g.(directional := r.0.directional, engine := r.0.engine, dirty := true)
  {
    var e1 := if name in g.directional then Destroy(DestroyLight(g.engine, g.directional[name]), g.directional[name]) else g.engine;
    var (e2, x) := Create(e1);
    (g.(directional := g.directional[name := x], engine := BuildLight(e2, x, DirectionalLight), dirty := true), x)
  }

  /** remove_directional_light(name): an existing light is destroyed and erased, and the graph is dirty; an unknown name changes nothing. */
  function RemoveDirectionalLight(g: SceneGraph, name: string): (r: SceneGraph)
    requires WellFormed(g)
    ensures WellFormed(r)
    ensures name !in g.directional ==> r == g
    ensures name in g.directional ==>
      && r.directional == g.directional - {name}
      && g.directional[name] !in r.engine.alive && g.directional[name] !in r.engine.lights
      && r.engine == g.engine.(alive := g.engine.alive - {g.directional[name]}, lights := g.engine.lights - {g.directional[name]})
      && r.dirty
      && r == g.(directional := r.directional, engine := r.engine, dirty := true)
  {
    if name !in g.directional then g
    else
      var x := g.directional[name];
      g.(directional := g.directional - {name}, engine := Destroy(DestroyLight(g.engine, x), x), dirty := true)
  }

  /** Adding and then removing a directional light under a new name leaves the light table as it was. */
  lemma DirectionalRoundTrip(g: SceneGraph, name: string)
    requires WellFormed(g) && name !in g.directional
    ensures RemoveDirectionalLight(AddDirectionalLight(g, name).0, name).directional == g.directional
  {
    var (g1, x) := AddDirectionalLight(g, name);
    assert g1.directional - {name} == g.directional;
  }

  // ---------------------------------------------------------------- render

  /** The directional lights' entities in the map's iteration order. */
  function DirectionalInOrder(m: map<string, Entity>, order: seq<string>): (r: seq<Entity>)
    requires forall k :: k in order ==> k in m
    ensures |r| == |order|
    ensures forall i :: 0 <= i < |order| ==> r[i] == m[order[i]]
  {
    seq(|order|, i requires 0 <= i < |order| => m[order[i]])
  }

  /** What render puts in the entity list before traversing: the sun when set, then every directional light. */
  function Seeds(g: SceneGraph, order: seq<string>): (r: seq<Entity>)
    requires Enumerates(order, g.directional)
    ensures |r| == (if g.sun != 0 then 1 else 0) + |g.directional.Keys|
    ensures |r| == (if g.sun != 0 then 1 else 0) + |order|
    ensures g.sun != 0 ==> r[0] == g.sun
    ensures forall i :: 0 <= i < |order| ==> r[(if g.sun != 0 then 1 else 0) + i] == g.directional[order[i]]
    ensures forall k :: k in g.directional ==> g.directional[k] in r
  {
    var lights := DirectionalInOrder(g.directional, order);
    EnumerationSize(order, g.directional);
    assert forall k :: k in g.directional ==> g.directional[k] in lights by {
      forall k | k in g.directional ensures g.directional[k] in lights {
        var i :| 0 <= i < |order| && order[i] == k;
        assert lights[i] == g.directional[k];
      }
    }
    (if g.sun != 0 then [g.sun] else []) + lights
  }

  /** An enumeration of a map's keys is as long as the map. */
  lemma {:induction false} EnumerationSize<V>(order: seq<string>, m: map<string, V>)
    requires Enumerates(order, m)
    ensures |order| == |m.Keys|
    decreases |order|
  {
    if |order| == 0 {
      assert m.Keys == {};
    } else {
      var k := order[|order| - 1];
      var rest := order[..|order| - 1];
      assert order == rest + [k];
      assert NoDup(rest) by {
        forall i, j | 0 <= i < j < |rest| ensures rest[i] != rest[j] {
          assert rest[i] == order[i] && rest[j] == order[j];
        }
      }
      assert k !in rest;
      var m' := m - {k};
      assert Enumerates(rest, m');
      EnumerationSize(rest, m');
      assert m.Keys == m'.Keys + {k};
    }
  }

  /** One callback per registered listener still alive, in registration order, handed the current scene. */
  function SceneCallbacks(ls: seq<SceneListenerId>, expired: set<SceneListenerId>, generation: nat): (r: seq<SceneNotice>)
    ensures forall n :: n in r ==> n.generation == generation && n.listener in ls && n.listener !in expired
    ensures forall l :: l in ls && l !in expired ==> SceneNotice(l, generation) in r
    ensures |r| <= |ls|
    ensures (forall l :: l in ls ==> l !in expired) ==>
      |r| == |ls| && forall i :: 0 <= i < |ls| ==> r[i] == SceneNotice(ls[i], generation)
  {
    if |ls| == 0 then []
    else
      var rest := SceneCallbacks(ls[1..], expired, generation);
      assert forall l :: l in ls && l != ls[0] ==> l in ls[1..];
      (if ls[0] in expired then [] else [SceneNotice(ls[0], generation)]) + rest
  }

  /** The callbacks for two runs of listeners are those of the first run, then those of the second. */
  lemma {:induction false} SceneCallbacksAppend(a: seq<SceneListenerId>, b: seq<SceneListenerId>,
                                                expired: set<SceneListenerId>, generation: nat)
    ensures SceneCallbacks(a + b, expired, generation)
         == SceneCallbacks(a, expired, generation) + SceneCallbacks(b, expired, generation)
    decreases |a|
  {
    if |a| == 0 {
      assert a + b == b;
    } else {
      assert (a + b)[1..] == a[1..] + b;
      SceneCallbacksAppend(a[1..], b, expired, generation);
    }
  }

  /**
   * The entity-list assembly of a dirty render: when the old scene holds a
   * renderable a new scene replaces it; the list is seeded with the sun
   * and the directional lights, then the render visitor traverses from the
   * root.
   */
  function Assemble(g: SceneGraph, rank: map<NodeId, nat>, order: seq<string>, apply: (Mat, Vec4) -> Vec4): (s: RenderState)
    requires WellFormed(g) && g.root.Some? && Ranked(g.arena.nodes, rank) && Enumerates(order, g.directional)
    ensures AllDefined(g.arena.nodes) ==>
      && s.renderables == Seeds(g, order) + Emits(g.arena.nodes, Trace(g.arena.nodes, rank, g.root.value))
      && s.frame.stack == [] && !s.fault
    ensures s.nodes.Keys == g.arena.nodes.Keys
    ensures forall x :: x in g.arena.nodes ==>
      s.nodes[x].parents == g.arena.nodes[x].parents && Kids(s.nodes, x) == Kids(g.arena.nodes, x)
    ensures s.engine.alive == g.engine.alive && s.engine.next == g.engine.next
    ensures RenderableCount(g.engine) > 0 ==> s.engine.scene == {} && s.engine.sceneGeneration == g.engine.sceneGeneration + 1
    ensures RenderableCount(g.engine) == 0 ==> s.engine.scene == g.engine.scene && s.engine.sceneGeneration == g.engine.sceneGeneration
  {
    var e := if RenderableCount(g.engine) > 0 then CreateScene(g.engine) else g.engine;
    var h := g.arena.nodes;
    var calls := Trace(h, rank, g.root.value);
    var s0 := RenderState(Frame([], None), Seeds(g, order), h, e, false);
    RunKeeps(RenderVisitor(apply), calls, s0);
    if AllDefined(h) then
      RenderTraversal(apply, h, rank, g.root.value, s0);
      Run(RenderVisitor(apply), calls, s0)
    else
      Run(RenderVisitor(apply), calls, s0)
  }

  /**
   * The dirty branch of render: the assembled list joins the (possibly
   * new) scene, every live scene listener is called with that scene, and
   * dirty is cleared. Only drawable records and engine tables change.
   */
  function Rebuild(g: SceneGraph, rank: map<NodeId, nat>, order: seq<string>, expired: set<SceneListenerId>,
                   apply: (Mat, Vec4) -> Vec4): (r: SceneGraph)
    requires WellFormed(g) && g.root.Some? && Ranked(g.arena.nodes, rank) && Enumerates(order, g.directional)
    ensures WellFormed(r) && !r.dirty
    ensures var s := Assemble(g, rank, order, apply);
      && (forall x :: x in r.engine.scene <==> x in s.engine.scene || x in s.renderables)
      && r.arena.nodes == s.nodes
      && r.notices == g.notices + SceneCallbacks(g.listeners, expired, s.engine.sceneGeneration)
    ensures Linked(g.arena.nodes) ==> Linked(r.arena.nodes)
    ensures r.arena == g.arena.(nodes := Assemble(g, rank, order, apply).nodes)
    ensures r == g.(arena := r.arena, engine := r.engine, notices := r.notices, dirty := false)
  {
    var s := Assemble(g, rank, order, apply);
    SameLinksSameLinked(g.arena.nodes, s.nodes);
    var e := AddEntities(s.engine, s.renderables);
    var r := g.(arena := g.arena.(nodes := s.nodes),
                engine := e,
                notices := g.notices + SceneCallbacks(g.listeners, expired, e.sceneGeneration),
                dirty := false);
    SameShapeWellFormed(g, r);
    r
  }

  /**
   * render. While the gate is held: false, nothing changes. Otherwise a
   * dirty graph is rebuilt, and dirty is cleared before beginFrame is asked
   * (`frameOk`) whether the frame can be drawn; its answer is the result.
   */
  function Render(g: SceneGraph, rank: map<NodeId, nat>, order: seq<string>, expired: set<SceneListenerId>,
                  frameOk: bool, apply: (Mat, Vec4) -> Vec4): (r: (SceneGraph, bool))
    requires WellFormed(g)
    requires g.dirty && !g.updating ==> g.root.Some? && Ranked(g.arena.nodes, rank) && Enumerates(order, g.directional)
    ensures WellFormed(r.0)
    ensures g.updating ==> r == (g, false)
    ensures !g.updating ==> r.1 == frameOk && !r.0.dirty && !r.0.updating
    ensures !g.updating && !g.dirty ==> r.0 == g
    ensures !g.updating && g.dirty ==> r.0 == Rebuild(g, rank, order, expired, apply)
    ensures Linked(g.arena.nodes) ==> Linked(r.0.arena.nodes)
  {
    if g.updating then (g, false)
    else if !g.dirty then (g, frameOk)
    else (Rebuild(g, rank, order, expired, apply), frameOk)
  }

  /**
   * A dirty render assembles, in order, the sun, the directional lights and
   * the traversal's contributions, and each of them ends up in the scene.
   */
  lemma RenderAssembly(g: SceneGraph, rank: map<NodeId, nat>, order: seq<string>, expired: set<SceneListenerId>,
                       frameOk: bool, apply: (Mat, Vec4) -> Vec4)
    requires WellFormed(g) && Ranked(g.arena.nodes, rank) && Enumerates(order, g.directional)
    requires g.dirty && !g.updating && g.root.Some? && AllDefined(g.arena.nodes)
    ensures var list := Seeds(g, order) + Emits(g.arena.nodes, Trace(g.arena.nodes, rank, g.root.value));
      && Assemble(g, rank, order, apply).renderables == list
      && forall x :: x in list ==> x in Render(g, rank, order, expired, frameOk, apply).0.engine.scene
  {
  }

  /**
   * render clears dirty before beginFrame answers: when the frame after a
   * rebuild is skipped, the rebuilt scene stays, and the next render, whose
   * frame begins, draws it without traversing again.
   */
  lemma SkippedFrameKeepsRebuild(g: SceneGraph, rank: map<NodeId, nat>, order: seq<string>, expired: set<SceneListenerId>,
                                 apply: (Mat, Vec4) -> Vec4)
    requires WellFormed(g) && Ranked(g.arena.nodes, rank) && Enumerates(order, g.directional)
    requires g.dirty && !g.updating && g.root.Some?
    ensures var (g1, ok1) := Render(g, rank, order, expired, false, apply);
      && !ok1 && !g1.dirty && g1 == Rebuild(g, rank, order, expired, apply)
      && Ranked(g1.arena.nodes, rank)
      && Render(g1, rank, order, expired, true, apply) == (g1, true)
  {
    var (g1, ok1) := Render(g, rank, order, expired, false, apply);
    var s := Assemble(g, rank, order, apply);
    assert forall x :: x in g.arena.nodes ==> Kids(g1.arena.nodes, x) == Kids(g.arena.nodes, x);
  }

  /** The two flags as a state machine: a held gate blocks render, and releasing it with the default re-arms the rebuild. */
  lemma GateBlocksRender(g: SceneGraph, rank: map<NodeId, nat>, order: seq<string>, expired: set<SceneListenerId>,
                         frameOk: bool, apply: (Mat, Vec4) -> Vec4)
    requires WellFormed(g) && Ranked(g.arena.nodes, rank) && Enumerates(order, g.directional) && g.root.Some?
    requires !g.updating
    ensures var g1 := StartUpdating(g).0;
      Render(g1, rank, order, expired, frameOk, apply) == (g1, false)
    ensures var g2 := EndUpdating(StartUpdating(g).0);
      g2.dirty && !g2.updating && !Render(g2, rank, order, expired, frameOk, apply).0.dirty
  {
  }

  /**
   * remove_sunlight as written leaves the destroyed sun in `sun`, so the
   * next dirty render seeds the entity list with an entity that no longer
   * exists; the corrected version seeds nothing for the sun.
   */
  lemma RemovedSunStillRendered(g: SceneGraph, order: seq<string>)
    requires WellFormed(g) && g.sun != 0 && Enumerates(order, g.directional)
    ensures var g1 := RemoveSunlightAsWritten(g);
      Seeds(g1, order)[0] == g.sun && g.sun !in g1.engine.alive
    ensures var g2 := RemoveSunlight(g);
      |Seeds(g2, order)| == |g.directional.Keys| && Seeds(g2, order) == DirectionalInOrder(g.directional, order)
  {
  }

  /** A sun added after removing the old one is the only sun seeded. */
  lemma SunReplaced(g: SceneGraph, order: seq<string>)
    requires WellFormed(g) && Enumerates(order, g.directional)
    ensures var (g1, x) := AddSunlight(RemoveSunlight(g));
      Seeds(g1, order)[0] == x && x in g1.engine.alive
  {
  }
}

=== FILE: seqs.dfy ===
/** Sequence helpers standing in for the std::vector operations the source uses. */
module Seqs {

  predicate NoDup<T(==)>(s: seq<T>) {
    forall i, j :: 0 <= i < j < |s| ==> s[i] != s[j]
  }

  /** std::find: the first index holding x. */
  function IndexOf<T(==)>(s: seq<T>, x: T): (k: nat)
    requires x in s
    ensures k < |s| && s[k] == x
    ensures forall j :: 0 <= j < k ==> s[j] != x
  {
    if s[0] == x then 0 else 1 + IndexOf(s[1..], x)
  }

  /** vector::erase of one position: the others keep their order. */
  function RemoveAt<T>(s: seq<T>, k: nat): (r: seq<T>)
    requires k < |s|
    ensures |r| == |s| - 1
    ensures forall j :: 0 <= j < k ==> r[j] == s[j]
    ensures forall j :: k <= j < |r| ==> r[j] == s[j + 1]
  {
    s[..k] + s[k + 1..]
  }

  /** Erasing the first occurrence of x from a duplicate-free sequence leaves no x and no duplicate. */
  lemma RemoveFirstFromNoDup<T>(s: seq<T>, x: T)
    requires x in s
    ensures NoDup(s) ==> x !in RemoveAt(s, IndexOf(s, x)) && NoDup(RemoveAt(s, IndexOf(s, x)))
    ensures forall y :: y != x ==> (y in RemoveAt(s, IndexOf(s, x)) <==> y in s)
  {
    var k := IndexOf(s, x);
    var r := RemoveAt(s, k);
    forall y | y in s && y != x
      ensures y in r
    {
      var j :| 0 <= j < |s| && s[j] == y;
      if j < k { assert r[j] == y; } else { assert j > k; assert r[j - 1] == y; }
    }
  }

  /** std::vector::resize: truncate, or pad with the default value. */
  function Resize<T>(s: seq<T>, n: nat, pad: T): (r: seq<T>)
    ensures |r| == n
    ensures forall j :: 0 <= j < n && j < |s| ==> r[j] == s[j]
    ensures forall j :: |s| <= j < n ==> r[j] == pad
  {
    if |s| >= n then s[..n] else s + seq(n - |s|, _ => pad)
  }

  /** Appending an absent x and then erasing its first occurrence gives the original sequence back. */
  lemma AppendThenRemove<T>(s: seq<T>, x: T)
    requires x !in s
    ensures IndexOf(s + [x], x) == |s|
    ensures RemoveAt(s + [x], IndexOf(s + [x], x)) == s
  {
    assert (s + [x])[..|s|] == s;
  }

  /** Appending a new element to a duplicate-free sequence keeps it duplicate-free. */
  lemma AppendNoDup<T>(s: seq<T>, x: T)
    requires x !in s
    ensures NoDup(s) ==> NoDup(s + [x])
  {
    forall i, j | NoDup(s) && 0 <= i < j < |s + [x]|
      ensures (s + [x])[i] != (s + [x])[j]
    {
      if j == |s| {
        assert (s + [x])[i] == s[i];
      }
    }
  }

  /** Overwriting slot i of a duplicate-free sequence with a new element swaps one member for another. */
  lemma UpdateMembers<T>(s: seq<T>, i: nat, x: T)
    requires NoDup(s) && i < |s| && x !in s
    ensures NoDup(s[i := x])
    ensures forall y :: y in s[i := x] <==> (y in s && y != s[i]) || y == x
  {
    forall y | y in s && y != s[i]
      ensures y in s[i := x]
    {
      var j :| 0 <= j < |s| && s[j] == y;
      assert s[i := x][j] == y;
    }
    forall y | y in s[i := x] && y != x
      ensures y in s && y != s[i]
    {
      var j :| 0 <= j < |s| && s[i := x][j] == y;
      assert j != i && s[j] == y;
    }
    assert s[i := x][i] == x;
  }

  /** Cutting s[i..j] out of a duplicate-free sequence keeps exactly the members outside the cut. */
  lemma SpliceMembers<T>(s: seq<T>, i: nat, j: nat)
    requires NoDup(s) && i <= j <= |s|
    ensures NoDup(s[..i] + s[j..])
    ensures forall y :: y in s[..i] + s[j..] <==> y in s && y !in s[i..j]
  {
    var t := s[..i] + s[j..];
    forall a, b | 0 <= a < b < |t|
      ensures t[a] != t[b]
    {
      var a' := if a < i then a else a + (j - i);
      var b' := if b < i then b else b + (j - i);
      assert t[a] == s[a'] && t[b] == s[b'];
    }
    forall y | y in s && y !in s[i..j]
      ensures y in t
    {
      var k :| 0 <= k < |s| && s[k] == y;
      if k < i { assert t[k] == y; }
      else { assert t[k - (j - i)] == y; }
    }
    forall y | y in t
      ensures y in s && y !in s[i..j]
    {
      var k :| 0 <= k < |t| && t[k] == y;
      var k' := if k < i then k else k + (j - i);
      assert s[k'] == y;
    }
  }

  /** Putting a cut-out run back where it was cut gives the sequence back. */
  lemma SpliceReassembles<T>(s: seq<T>, rest: seq<T>, i: nat, j: nat)
    requires i <= j <= |s| && rest == s[..i] + s[j..]
    ensures s == rest[..i] + s[i..j] + rest[i..]
  {
    assert rest[..i] == s[..i];
    assert rest[i..] == s[j..];
    assert s == s[..i] + s[i..j] + s[j..];
  }

  /** In s + [x] with x absent from s, x sits only at the end, and cutting it out gives s. */
  lemma CutAppended<T>(s: seq<T>, x: T, t: seq<T>)
    requires x !in s
    requires exists k :: (0 <= k < |s + [x]| && (s + [x])[k] == x
                          && t == (s + [x])[..k] + (s + [x])[k + 1..])
    ensures t == s
  {
    var k :| 0 <= k < |s + [x]| && (s + [x])[k] == x && t == (s + [x])[..k] + (s + [x])[k + 1..];
    assert k == |s|;
    assert (s + [x])[..|s|] == s;
  }
}

=== FILE: transform.dfy ===
/**
 * Transform, AffineTransform and CustomTransform
 * (include/bulb/nodes/Transform.hh, AffineTransform.hh, CustomTransform.hh).
 * The composite part of a Transform node (children, parents, name) lives in
 * the node record; this module holds what the transform adds: the opaque
 * animation parameters and the matrices.
 */
module Transforms {
  import opened Wrappers
  import opened Matrices
  import Ut

  /** MatrixTransformOrder: the six fixed multiplication orders. */
  datatype Order = TRS | RTS | RST | SRT | STR | TSR

  /** AffineTransform::EPSILON, the guard on scale reciprocals. */
  const Epsilon: real := 0.00000001

  /** One diagonal entry of Si: 0 when the scale component is within Epsilon of zero, else its reciprocal. */
  function Reciprocal(s: real): (r: real)
    ensures Ut.NearZero(s, Epsilon) ==> r == 0.0
    ensures !Ut.NearZero(s, Epsilon) ==> r != 0.0 && (r > 0.0 <==> s > 0.0)
  {
    if Ut.NearZero(s, Epsilon) then 0.0 else 1.0 / s
  }

  /** Away from zero the guarded reciprocal is a true inverse. */
  lemma ReciprocalInverts(s: real)
    ensures !Ut.NearZero(s, Epsilon) ==> s * Reciprocal(s) == 1.0
  {
  }

  function InverseScale(s: Vec3): Vec3 {
    Vec3(Reciprocal(s.x), Reciprocal(s.y), Reciprocal(s.z))
  }

  function Negate(t: Vec3): Vec3 {
    Vec3(-t.x, -t.y, -t.z)
  }

  /** The product of three factors in the sequence the order names (T, R, S stand for the letters). */
  function Compose(order: Order, t: Mat, r: Mat, s: Mat): Mat {
    match order
    case TRS => Mul(Mul(t, r), s)
    case RTS => Mul(Mul(r, t), s)
    case RST => Mul(Mul(r, s), t)
    case SRT => Mul(Mul(s, r), t)
    case STR => Mul(Mul(s, t), r)
    case TSR => Mul(Mul(t, s), r)
  }

  /** The eight matrices an AffineTransform keeps, and its fixed order. */
  datatype Affine = Affine(m: Mat, r: Mat, s: Mat, t: Mat, mi: Mat, ri: Mat, si: Mat, ti: Mat, order: Order)

  /** M is the order-product of T, R, S and Mi the same-order (not reversed) product of Ti, Ri, Si. */
  predicate Multiplied(a: Affine) {
    a.m == Compose(a.order, a.t, a.r, a.s) && a.mi == Compose(a.order, a.ti, a.ri, a.si)
  }

  /** Each stored inverse is derived from its component: Ri = transpose(R), Si = guarded reciprocals, Ti = -t. */
  predicate Paired(a: Affine) {
    && |a.r| == 1 && a.r[0].Rotate? && a.ri == [Transposed(a.r[0].src)]
    && |a.s| == 1 && a.s[0].Diagonal? && a.si == [Diagonal(InverseScale(a.s[0].d))]
    && |a.t| == 1 && a.t[0].Translate? && a.ti == [Translate(Negate(a.t[0].t))]
  }

  predicate Valid(a: Affine) {
    Multiplied(a) && Paired(a)
  }

  /** mul(): recompute M and Mi from the current components, in the fixed order. */
  function Remultiply(a: Affine): (r: Affine)
    ensures Multiplied(r)
    ensures r.r == a.r && r.s == a.s && r.t == a.t && r.ri == a.ri && r.si == a.si && r.ti == a.ti
    ensures r.order == a.order
  {
    a.(m := Compose(a.order, a.t, a.r, a.s), mi := Compose(a.order, a.ti, a.ri, a.si))
  }

  /**
   * Both constructors (quaternion and 3x3 rotation) with their defaults folded
   * in by the caller: R from the source, S = diag(s, 1), T = translation t,
   * the guarded inverses, then mul().
   */
  function NewAffine(src: RotationSource, t: Vec3, s: Vec3, order: Order): (a: Affine)
    ensures Valid(a) && a.order == order
    ensures a.r == [Rotate(src)] && a.t == [Translate(t)] && a.s == [Diagonal(s)]
    ensures a.ri == [Transposed(src)] && a.ti == [Translate(Negate(t))] && a.si == [Diagonal(InverseScale(s))]
  {
    Remultiply(Affine(Identity, [Rotate(src)], [Diagonal(s)], [Translate(t)],
                      Identity, [Transposed(src)], [Diagonal(InverseScale(s))], [Translate(Negate(t))], order))
  }

  /** rotation(mat3) and rotation(quat): set R and Ri = transpose(R), then mul(). */
  function SetRotation(a: Affine, src: RotationSource): (r: Affine)
    ensures Multiplied(r) && (Paired(a) ==> Paired(r))
    ensures r.r == [Rotate(src)] && r.ri == [Transposed(src)]
    ensures r.s == a.s && r.si == a.si && r.t == a.t && r.ti == a.ti && r.order == a.order
  {
    Remultiply(a.(r := [Rotate(src)], ri := [Transposed(src)]))
  }

  /** translation(double3) and translation(x, y, z): t in T's fourth column, -t in Ti's, then mul(). */
  function SetTranslation(a: Affine, t: Vec3): (r: Affine)
    ensures Multiplied(r) && (Paired(a) ==> Paired(r))
    ensures r.t == [Translate(t)] && r.ti == [Translate(Vec3(-t.x, -t.y, -t.z))]
    ensures r.r == a.r && r.ri == a.ri && r.s == a.s && r.si == a.si && r.order == a.order
  {
    Remultiply(a.(t := [Translate(t)], ti := [Translate(Negate(t))]))
  }

  /** scaling(double3) and scaling(x, y, z): S = diag(s, 1), Si the guarded reciprocals, then mul(). */
  function SetScaling(a: Affine, s: Vec3): (r: Affine)
    ensures Multiplied(r) && (Paired(a) ==> Paired(r))
    ensures r.s == [Diagonal(s)] && r.si == [Diagonal(InverseScale(s))]
    ensures r.r == a.r && r.ri == a.ri && r.t == a.t && r.ti == a.ti && r.order == a.order
  {
    Remultiply(a.(s := [Diagonal(s)], si := [Diagonal(InverseScale(s))]))
  }

  /** scaling(s): the reciprocal 1/s is computed up front and used only when s is not near zero. */
  function SetUniformScaling(a: Affine, s: real): (r: Affine)
    ensures Multiplied(r)
  {
    var rs := if s == 0.0 then 0.0 else 1.0 / s;
    var inv := if Ut.NearZero(s, Epsilon) then 0.0 else rs;
    Remultiply(a.(s := [Diagonal(Vec3(s, s, s))], si := [Diagonal(Vec3(inv, inv, inv))]))
  }

  /** The one-argument scaling setter agrees with the three-component one at (s, s, s). */
  lemma UniformScalingAgrees(a: Affine, s: real)
    ensures SetUniformScaling(a, s) == SetScaling(a, Vec3(s, s, s))
  {
  }

  /** Every setter keeps the full invariant and never changes the order. */
  lemma SettersPreserveValid(a: Affine, src: RotationSource, t: Vec3, s: Vec3, u: real)
    requires Valid(a)
    ensures Valid(SetRotation(a, src)) && SetRotation(a, src).order == a.order
    ensures Valid(SetTranslation(a, t)) && SetTranslation(a, t).order == a.order
    ensures Valid(SetScaling(a, s)) && SetScaling(a, s).order == a.order
    ensures Valid(SetUniformScaling(a, u)) && SetUniformScaling(a, u).order == a.order
  {
    UniformScalingAgrees(a, u);
  }

  /** The matrix a Valid transform exposes is the order-product of its current components. */
  lemma ValidMatrixIsOrderProduct(a: Affine)
    requires Valid(a)
    ensures exists src, t, s ::
      a.m == Compose(a.order, [Translate(t)], [Rotate(src)], [Diagonal(s)])
      && a.mi == Compose(a.order, [Translate(Negate(t))], [Transposed(src)], [Diagonal(InverseScale(s))])
  {
    var src, t, s := a.r[0].src, a.t[0].t, a.s[0].d;
    assert a.r == [Rotate(src)] && a.t == [Translate(t)] && a.s == [Diagonal(s)];
  }

  /** CustomTransform: an arbitrary M and its (uninterpreted) general inverse. */
  datatype Custom = Custom(m: Mat, mi: Mat)

  function Inverse(m: Mat): Mat {
    [InverseOf(m)]
  }

  predicate CustomValid(c: Custom) {
    c.mi == Inverse(c.m)
  }

  function NewCustom(m: Mat): (c: Custom)
    ensures CustomValid(c) && c.m == m
  {
    Custom(m, Inverse(m))
  }

  /** set(m): replace M and recompute Mi from it. */
  function SetCustom(c: Custom, m: Mat): (r: Custom)
    ensures CustomValid(r) && r.m == m
  {
    Custom(m, Inverse(m))
  }

  /** Opaque animation parameters (the source's void*); None is the null pointer. */
  type ParamId = nat

  datatype Shape = AffineShape(affine: Affine) | CustomShape(custom: Custom)

  datatype Transform = Transform(params: Option<ParamId>, shape: Shape)

  /** matrix() (and matrixf(), the same matrix at float precision): a copy of M for either kind. */
  function Matrix(t: Transform): (m: Mat)
    ensures t.shape.AffineShape? ==> m == t.shape.affine.m
    ensures t.shape.CustomShape? ==> m == t.shape.custom.m
  {
    match t.shape
    case AffineShape(a) => a.m
    case CustomShape(c) => c.m
  }

  function NewAffineTransform(params: Option<ParamId>, src: RotationSource, t: Vec3, s: Vec3, order: Order): (r: Transform)
    ensures r.params == params && r.shape.AffineShape? && Valid(r.shape.affine) && r.shape.affine.order == order
    ensures Matrix(r) == Compose(order, [Translate(t)], [Rotate(src)], [Diagonal(s)])
  {
    Transform(params, AffineShape(NewAffine(src, t, s, order)))
  }

  /** The CustomTransform constructor passes its animation parameters straight to Transform. */
  function NewCustomTransform(params: Option<ParamId>, m: Mat): (r: Transform)
    ensures r.params == params && r.shape.CustomShape? && CustomValid(r.shape.custom)
    ensures Matrix(r) == m
  {
    Transform(params, CustomShape(NewCustom(m)))
  }

  /** set_animation_parameters: replaces the parameters and nothing else. */
  function SetAnimationParameters(t: Transform, params: Option<ParamId>): (r: Transform)
    ensures r.params == params && r.shape == t.shape && Matrix(r) == Matrix(t)
  {
    t.(params := params)
  }

  /** animate(f): f is applied once, to this transform and its current parameters; its result is the animated transform. */
  function Animate(t: Transform, f: (Transform, Option<ParamId>) -> Transform): (r: Transform)
    ensures r == f(t, t.params)
  {
    f(t, t.params)
  }
}

=== FILE: traversal.dfy ===
/**
 * The traversal protocol (src/nodes/Composite.cc traverse, the accept
 * overrides, include/bulb/nodes/Node.hh traverse). A traversal is written
 * out as the sequence of visitor calls it makes; a visitor is then a state
 * machine folded over that sequence. The graph must be acyclic, which a
 * rank map witnesses: every child ranks strictly below its parent.
 */
module Traversal {
  import opened Wrappers
  import opened Matrices
  import opened Engines
  import opened Nodes
  import opened Composites
  import Transforms
  import Drawables

  /** The dynamic type of a node, as on_post_traverse's casts see it. */
  datatype NodeTag = PlainTag | TransformTag | MaterialTag | DrawableTag(isLight: bool)

  /**
   * One visitor call. The typed node pointer the visitor receives becomes
   * the node id plus what the visitor reads from it: a Transform's matrix(),
   * a Material's get_material().
   */
  datatype Call =
    | VisitTransform(node: NodeId, matrix: Mat)
    | VisitDrawable(node: NodeId)
    | VisitMaterial(node: NodeId, handle: Option<MatHandle>)
    | PostTraverse(node: NodeId, tag: NodeTag)

  function Tag(n: NodeRec): NodeTag {
    match n.body
    case Leaf(d) => DrawableTag(d.variant.PositionalLight?)
    case Composite(_, _, PlainComposite) => PlainTag
    case Composite(_, _, TransformNode(_)) => TransformTag
    case Composite(_, _, MaterialNode(_)) => MaterialTag
  }

  /**
   * accept(visitor): a plain Composite makes no call; Transform, Material
   * and Drawable dispatch to the visit overload of their own type.
   */
  function Accept(id: NodeId, n: NodeRec): (r: seq<Call>)
    ensures |r| <= 1
    ensures r == [] <==> n.body.Composite? && n.body.role.PlainComposite?
    ensures n.body.Leaf? ==> r == [VisitDrawable(id)]
    ensures n.body.Composite? && n.body.role.TransformNode? ==>
      r == [VisitTransform(id, Transforms.Matrix(n.body.role.transform))]
    ensures n.body.Composite? && n.body.role.MaterialNode? ==> r == [VisitMaterial(id, n.body.role.material.handle)]
  {
    match n.body
    case Leaf(_) => [VisitDrawable(id)]
    case Composite(_, _, PlainComposite) => []
    case Composite(_, _, TransformNode(t)) => [VisitTransform(id, Transforms.Matrix(t))]
    case Composite(_, _, MaterialNode(m)) => [VisitMaterial(id, m.handle)]
  }

  /** Every node is ranked, and every child is a node ranked strictly below its parent. */
  predicate Ranked(h: Heap, rank: map<NodeId, nat>) {
    forall p :: p in h ==> p in rank && forall c :: c in Kids(h, p) ==> c in h && c in rank && rank[c] < rank[p]
  }

  predicate AllBelow(h: Heap, rank: map<NodeId, nat>, ids: seq<NodeId>, bound: nat) {
    forall x :: x in ids ==> x in h && x in rank && rank[x] < bound
  }

  /**
   * traverse(visitor): a leaf uses Node's default, one accept; a composite
   * accepts, traverses each child in list order, then calls
   * on_post_traverse on itself.
   */
  function Trace(h: Heap, rank: map<NodeId, nat>, id: NodeId): seq<Call>
    requires Ranked(h, rank) && id in h
    decreases rank[id], 1
  {
    var n := h[id];
    if n.body.Leaf? then Accept(id, n)
    else Accept(id, n) + TraceAll(h, rank, n.body.children, rank[id]) + [PostTraverse(id, Tag(n))]
  }

  function TraceAll(h: Heap, rank: map<NodeId, nat>, ids: seq<NodeId>, bound: nat): seq<Call>
    requires Ranked(h, rank) && AllBelow(h, rank, ids, bound)
    decreases bound, 0, |ids|
  {
    if |ids| == 0 then []
    else Trace(h, rank, ids[0]) + TraceAll(h, rank, ids[1..], bound)
  }

  /** A call fits the graph: drawables are visited only on leaves, post hooks only on composites and with their own tag. */
  predicate Fits(h: Heap, c: Call) {
    && (c.VisitDrawable? ==> c.node in h && h[c.node].body.Leaf?)
    && (c.PostTraverse? ==> IsComposite(h, c.node) && c.tag == Tag(h[c.node]) && !c.tag.DrawableTag?)
  }

  /**
   * Traversal calls on_post_traverse only on composites, so the
   * PositionalLight branch of the render visitor's post hook is never
   * taken, and a drawable is only ever visited through its own accept.
   */
  lemma {:induction false} TraceFits(h: Heap, rank: map<NodeId, nat>, id: NodeId)
    requires Ranked(h, rank) && id in h
    ensures forall c :: c in Trace(h, rank, id) ==> Fits(h, c)
    decreases rank[id], 1
  {
    var n := h[id];
    if n.body.Composite? {
      TraceAllFits(h, rank, n.body.children, rank[id]);
    }
  }

  lemma {:induction false} TraceAllFits(h: Heap, rank: map<NodeId, nat>, ids: seq<NodeId>, bound: nat)
    requires Ranked(h, rank) && AllBelow(h, rank, ids, bound)
    ensures forall c :: c in TraceAll(h, rank, ids, bound) ==> Fits(h, c)
    decreases bound, 0, |ids|
  {
    if |ids| > 0 {
      TraceFits(h, rank, ids[0]);
      TraceAllFits(h, rank, ids[1..], bound);
    }
  }

  function CountPosts(calls: seq<Call>): nat {
    if |calls| == 0 then 0 else (if calls[0].PostTraverse? then 1 else 0) + CountPosts(calls[1..])
  }

  function CountVisits(calls: seq<Call>): nat {
    if |calls| == 0 then 0 else (if calls[0].VisitDrawable? then 1 else 0) + CountVisits(calls[1..])
  }

  lemma {:induction false} CountAppend(a: seq<Call>, b: seq<Call>)
    ensures CountPosts(a + b) == CountPosts(a) + CountPosts(b)
    ensures CountVisits(a + b) == CountVisits(a) + CountVisits(b)
  {
    if |a| == 0 {
      assert a + b == b;
    } else {
      assert (a + b)[1..] == a[1..] + b;
      CountAppend(a[1..], b);
    }
  }

  /** How many composites and leaves a traversal from id reaches, counting shared nodes once per path. */
  function Reach(h: Heap, rank: map<NodeId, nat>, id: NodeId): (r: (nat, nat))
    requires Ranked(h, rank) && id in h
    decreases rank[id], 1
  {
    if h[id].body.Leaf? then (0, 1)
    else var k := ReachAll(h, rank, h[id].body.children, rank[id]); (k.0 + 1, k.1)
  }

  function ReachAll(h: Heap, rank: map<NodeId, nat>, ids: seq<NodeId>, bound: nat): (r: (nat, nat))
    requires Ranked(h, rank) && AllBelow(h, rank, ids, bound)
    decreases bound, 0, |ids|
  {
    if |ids| == 0 then (0, 0)
    else var a := Reach(h, rank, ids[0]); var b := ReachAll(h, rank, ids[1..], bound); (a.0 + b.0, a.1 + b.1)
  }

  /**
   * on_post_traverse fires exactly once per composite reached, whatever its
   * number of children, and visit(Drawable) exactly once per leaf reached.
   */
  lemma {:induction false} TraceCounts(h: Heap, rank: map<NodeId, nat>, id: NodeId)
    requires Ranked(h, rank) && id in h
    ensures CountPosts(Trace(h, rank, id)) == Reach(h, rank, id).0
    ensures CountVisits(Trace(h, rank, id)) == Reach(h, rank, id).1
    decreases rank[id], 1
  {
    var n := h[id];
    if n.body.Leaf? {
      assert Trace(h, rank, id) == [VisitDrawable(id)];
    } else {
      var kids := TraceAll(h, rank, n.body.children, rank[id]);
      TraceAllCounts(h, rank, n.body.children, rank[id]);
      CountAppend(Accept(id, n), kids);
      CountAppend(Accept(id, n) + kids, [PostTraverse(id, Tag(n))]);
    }
  }

  lemma {:induction false} TraceAllCounts(h: Heap, rank: map<NodeId, nat>, ids: seq<NodeId>, bound: nat)
    requires Ranked(h, rank) && AllBelow(h, rank, ids, bound)
    ensures CountPosts(TraceAll(h, rank, ids, bound)) == ReachAll(h, rank, ids, bound).0
    ensures CountVisits(TraceAll(h, rank, ids, bound)) == ReachAll(h, rank, ids, bound).1
    decreases bound, 0, |ids|
  {
    if |ids| > 0 {
      TraceCounts(h, rank, ids[0]);
      TraceAllCounts(h, rank, ids[1..], bound);
      CountAppend(Trace(h, rank, ids[0]), TraceAll(h, rank, ids[1..], bound));
    }
  }
}

=== FILE: ut.dfy ===
/**
 * The numeric helpers of include/bulb/ut.hh over exact reals. The source
 * instantiates them for float, double and long double; over reals the
 * instantiations coincide, so each is defined once.
 */
module Ut {

  function Abs(v: real): (r: real)
    ensures r >= 0.0
    ensures r == v || r == -v
  {
    if v < 0.0 then -v else v
  }

  /** near_zero(v, epsilon): the magnitude of v does not exceed epsilon (the bound is inclusive). */
  function NearZero(v: real, epsilon: real): (b: bool)
    ensures b <==> -epsilon <= v <= epsilon
  {
    Abs(v) <= epsilon
  }

  /** pi<T> as written in the source: the decimal literal 3.1415926535897932385. */
  const Pi: real := 3.1415926535897932385
  const TwoPi: real := Pi * 2.0
  const HalfPi: real := Pi * 0.5
  const QuarterPi: real := Pi * 0.25

  function DegreesToRadians(degrees: real): (radians: real)
    ensures radians * 180.0 == degrees * Pi
  {
    degrees * Pi / 180.0
  }

  function RadiansToDegrees(radians: real): (degrees: real)
    ensures degrees * Pi == radians * 180.0
  {
    radians * 180.0 / Pi
  }

  /** Over exact reals the two conversions undo each other. */
  lemma AngleRoundTrip(x: real)
    ensures RadiansToDegrees(DegreesToRadians(x)) == x
    ensures DegreesToRadians(RadiansToDegrees(x)) == x
  {
    var r := DegreesToRadians(x);
    assert RadiansToDegrees(r) * Pi == r * 180.0 == x * Pi;
    var d := RadiansToDegrees(x);
    assert DegreesToRadians(d) * 180.0 == d * Pi == x * 180.0;
  }
}

=== FILE: visitor.dfy ===
/**
 * NodeVisitor and RenderVisitor (include/bulb/nodes/Visitor.hh,
 * src/nodes/Visitor.cc). The render visitor's matrix stack and current
 * material form a small machine driven by the calls of a traversal; the
 * drawable visit adds the per-drawable work on top of it.
 */
module Visitors {
  import opened Wrappers
  import opened Matrices
  import opened Engines
  import opened Nodes
  import opened Composites
  import opened Traversal
  import Transforms
  import Materials
  import Drawables

  /** RenderVisitor's matrixStack and currentMaterial. */
  datatype Frame = Frame(stack: seq<Mat>, current: Option<MatHandle>)

  /** Whether the post hook pops for this tag: Transform or PositionalLight. */
  predicate Pops(tag: NodeTag) {
    tag == TransformTag || tag == DrawableTag(true)
  }

  /** A pop of an empty std::list is undefined behaviour. */
  predicate PopsEmpty(f: Frame, c: Call) {
    c.PostTraverse? && Pops(c.tag) && |f.stack| == 0
  }

  /**
   * The effect of one call on the stack and current material: a Transform
   * visit pushes its matrix, a Material visit overwrites the current
   * material (even with null), a drawable visit leaves both alone, and the
   * post hook pops for a Transform or PositionalLight, else clears the
   * current material for a Material, else does nothing.
   */
  function FrameStep(f: Frame, c: Call): (r: Frame)
    ensures c.VisitTransform? ==> r.stack == f.stack + [c.matrix] && r.current == f.current
    ensures c.VisitMaterial? ==> r.stack == f.stack && r.current == c.handle
    ensures c.VisitDrawable? ==> r == f
    ensures c.PostTraverse? && Pops(c.tag) && |f.stack| > 0 ==> r.stack == f.stack[..|f.stack| - 1] && r.current == f.current
    ensures c.PostTraverse? && c.tag == MaterialTag ==> r.stack == f.stack && r.current == None
    ensures c.PostTraverse? && c.tag == PlainTag ==> r == f
  {
    match c
    case VisitTransform(_, m) => f.(stack := f.stack + [m])
    case VisitMaterial(_, handle) => f.(current := handle)
    case VisitDrawable(_) => f
    case PostTraverse(_, tag) =>
      if Pops(tag) then (if |f.stack| > 0 then f.(stack := f.stack[..|f.stack| - 1]) else f)
      else if tag == MaterialTag then f.(current := None)
      else f
  }

  function FrameRun(calls: seq<Call>, f: Frame): Frame {
    if |calls| == 0 then f else FrameRun(calls[1..], FrameStep(f, calls[0]))
  }

  /** No call of the run pops an empty stack. */
  predicate Safe(calls: seq<Call>, f: Frame) {
    |calls| == 0 || (!PopsEmpty(f, calls[0]) && Safe(calls[1..], FrameStep(f, calls[0])))
  }

  /** What a drawable visit sees: the node, the matrix stack and the current material. */
  datatype Sight = Sight(node: NodeId, stack: seq<Mat>, current: Option<MatHandle>)

  /** The sights of the drawable visits of a run, in order. */
  function Sights(calls: seq<Call>, f: Frame): seq<Sight> {
    if |calls| == 0 then []
    else
      var seen := if calls[0].VisitDrawable? then [Sight(calls[0].node, f.stack, f.current)] else [];
      seen + Sights(calls[1..], FrameStep(f, calls[0]))
  }

  lemma {:induction false} FrameRunAppend(a: seq<Call>, b: seq<Call>, f: Frame)
    ensures FrameRun(a + b, f) == FrameRun(b, FrameRun(a, f))
    ensures Safe(a + b, f) <==> Safe(a, f) && Safe(b, FrameRun(a, f))
    ensures Sights(a + b, f) == Sights(a, f) + Sights(b, FrameRun(a, f))
  {
    if |a| == 0 {
      assert a + b == b;
    } else {
      assert (a + b)[0] == a[0];
      assert (a + b)[1..] == a[1..] + b;
      FrameRunAppend(a[1..], b, FrameStep(f, a[0]));
    }
  }

  /** Whether a Material node is reached from id. */
  function HasMaterial(h: Heap, rank: map<NodeId, nat>, id: NodeId): bool
    requires Ranked(h, rank) && id in h
    decreases rank[id], 1
  {
    h[id].body.Composite? && (h[id].body.role.MaterialNode? || AnyMaterial(h, rank, h[id].body.children, rank[id]))
  }

  function AnyMaterial(h: Heap, rank: map<NodeId, nat>, ids: seq<NodeId>, bound: nat): bool
    requires Ranked(h, rank) && AllBelow(h, rank, ids, bound)
    decreases bound, 0, |ids|
  {
    |ids| > 0 && (HasMaterial(h, rank, ids[0]) || AnyMaterial(h, rank, ids[1..], bound))
  }

  /**
   * The current material a traversal of id leaves behind: null as soon as
   * the subtree holds a Material (its post hook clears rather than
   * restores), otherwise what it was before.
   */
  function MaterialAfter(h: Heap, rank: map<NodeId, nat>, id: NodeId, cur: Option<MatHandle>): Option<MatHandle>
    requires Ranked(h, rank) && id in h
  {
    if HasMaterial(h, rank, id) then None else cur
  }

  function MaterialAfterAll(h: Heap, rank: map<NodeId, nat>, ids: seq<NodeId>, bound: nat, cur: Option<MatHandle>): Option<MatHandle>
    requires Ranked(h, rank) && AllBelow(h, rank, ids, bound)
  {
    if AnyMaterial(h, rank, ids, bound) then None else cur
  }

  /**
   * The reference semantics of what each drawable sees, defined on the
   * tree: below a Transform the stack grows by its matrix, below a Material
   * the current material is its handle, and siblings see the current
   * material their elder siblings leave behind. The stack a leaf sees is
   * therefore the initial stack followed by the matrices of the Transforms
   * on its path, root first.
   */
  function Visits(h: Heap, rank: map<NodeId, nat>, id: NodeId, stack: seq<Mat>, cur: Option<MatHandle>): seq<Sight>
    requires Ranked(h, rank) && id in h
    decreases rank[id], 1
  {
    match h[id].body
    case Leaf(_) => [Sight(id, stack, cur)]
    case Composite(children, _, PlainComposite) => VisitsAll(h, rank, children, rank[id], stack, cur)
    case Composite(children, _, TransformNode(t)) => VisitsAll(h, rank, children, rank[id], stack + [Transforms.Matrix(t)], cur)
    case Composite(children, _, MaterialNode(m)) => VisitsAll(h, rank, children, rank[id], stack, m.handle)
  }

  function VisitsAll(h: Heap, rank: map<NodeId, nat>, ids: seq<NodeId>, bound: nat, stack: seq<Mat>, cur: Option<MatHandle>): seq<Sight>
    requires Ranked(h, rank) && AllBelow(h, rank, ids, bound)
    decreases bound, 0, |ids|
  {
    if |ids| == 0 then []
    else Visits(h, rank, ids[0], stack, cur) + VisitsAll(h, rank, ids[1..], bound, stack, MaterialAfter(h, rank, ids[0], cur))
  }

  /**
   * The traversal protocol drives the stack machine as the tree says: the
   * stack returns to its initial depth and contents, no pop ever meets an
   * empty stack, the current material ends as MaterialAfter says, and each
   * drawable visit sees what the reference semantics says.
   */
  lemma {:induction false} TraceSound(h: Heap, rank: map<NodeId, nat>, id: NodeId, f: Frame)
    requires Ranked(h, rank) && id in h
    ensures FrameRun(Trace(h, rank, id), f) == Frame(f.stack, MaterialAfter(h, rank, id, f.current))
    ensures Safe(Trace(h, rank, id), f)
    ensures Sights(Trace(h, rank, id), f) == Visits(h, rank, id, f.stack, f.current)
    decreases rank[id], 1
  {
    var n := h[id];
    var acc := Accept(id, n);
    if n.body.Leaf? {
      assert Trace(h, rank, id) == [VisitDrawable(id)];
      assert FrameRun([VisitDrawable(id)], f) == f;
      assert Sights([VisitDrawable(id)], f) == [Sight(id, f.stack, f.current)];
    } else {
      var kids := n.body.children;
      var f1 := FrameRun(acc, f);
      var mid := TraceAll(h, rank, kids, rank[id]);
      var post := [PostTraverse(id, Tag(n))];
      TraceAllSound(h, rank, kids, rank[id], f1);
      FrameRunAppend(acc, mid, f);
      FrameRunAppend(acc + mid, post, f);
      var f2 := FrameRun(mid, f1);
      assert FrameRun(post, f2) == FrameStep(f2, post[0]);
      assert Sights(post, f2) == [];
      assert Safe(post, f2) <==> !PopsEmpty(f2, post[0]);
      match n.body.role
      case PlainComposite =>
        assert f1 == f;
      case TransformNode(t) =>
        assert acc == [VisitTransform(id, Transforms.Matrix(t))];
        assert f1 == FrameStep(f, acc[0]);
        assert Sights(acc, f) == [];
        assert f2.stack[..|f2.stack| - 1] == f.stack;
      case MaterialNode(m) =>
        assert acc == [VisitMaterial(id, m.handle)];
        assert f1 == FrameStep(f, acc[0]);
        assert Sights(acc, f) == [];
    }
  }

  lemma {:induction false} TraceAllSound(h: Heap, rank: map<NodeId, nat>, ids: seq<NodeId>, bound: nat, f: Frame)
    requires Ranked(h, rank) && AllBelow(h, rank, ids, bound)
    ensures FrameRun(TraceAll(h, rank, ids, bound), f) == Frame(f.stack, MaterialAfterAll(h, rank, ids, bound, f.current))
    ensures Safe(TraceAll(h, rank, ids, bound), f)
    ensures Sights(TraceAll(h, rank, ids, bound), f) == VisitsAll(h, rank, ids, bound, f.stack, f.current)
    decreases bound, 0, |ids|
  {
    if |ids| > 0 {
      var first := Trace(h, rank, ids[0]);
      TraceSound(h, rank, ids[0], f);
      var f1 := FrameRun(first, f);
      TraceAllSound(h, rank, ids[1..], bound, f1);
      FrameRunAppend(first, TraceAll(h, rank, ids[1..], bound), f);
    }
  }

  /**
   * A NodeVisitor is the base class, whose overloads all do nothing; a
   * RenderVisitor carries the matrix arithmetic a PositionalLight needs.
   */
  datatype Visitor = NodeVisitor | RenderVisitor(apply: (Mat, Vec4) -> Vec4)

  /**
   * The render visitor's state: its stack and current material, the
   * renderables list, plus the node arena and engine its drawable visits
   * write to. `fault` records undefined behaviour of the source (a pop of
   * an empty stack, a pre_render whose per-part materials are missing).
   */
  datatype RenderState = RenderState(frame: Frame, renderables: seq<Entity>, nodes: Heap, engine: Engine, fault: bool)

  /** A fresh RenderVisitor: empty stack, no renderables, null current material. */
  function NewRenderState(nodes: Heap, engine: Engine): (s: RenderState)
    ensures s.frame.stack == [] && s.renderables == [] && s.frame.current == None && !s.fault
    ensures s.nodes == nodes && s.engine == engine
  {
    RenderState(Frame([], None), [], nodes, engine, false)
  }

  /** The internal transform's matrix, if the drawable owns one. */
  function InternalMatrices(d: Drawables.Drawable): seq<Mat> {
    if d.internal.Some? then [Transforms.Matrix(d.internal.value)] else []
  }

  /**
   * The drawable's final matrix: identity, times each stack matrix from
   * bottom to top, times the internal transform's matrix when present.
   */
  function FinalMatrix(stack: seq<Mat>, d: Drawables.Drawable): (m: Mat)
    ensures m == Product(stack + InternalMatrices(d))
  {
    if d.internal.Some? then
      ProductAppend(stack, InternalMatrices(d));
      ProductSingleton(Transforms.Matrix(d.internal.value));
      Mul(Product(stack), Transforms.Matrix(d.internal.value))
    else
      assert stack + InternalMatrices(d) == stack;
      Product(stack)
  }

  /** The drawable as visit(Drawable) hands it to pre_render: final matrix set, then the current material if it takes one. */
  function Prepare(d: Drawables.Drawable, f: Frame): (r: Drawables.Drawable)
    ensures r.final == FinalMatrix(f.stack, d)
    ensures r.entity == d.entity && r.internal == d.internal
    ensures f.current.Some? && Drawables.IsMaterializable(d) ==>
      Drawables.IsMaterializable(r) && Drawables.GetMaterial(r) == f.current
    ensures f.current.None? || !Drawables.IsMaterializable(d) ==> r.variant == d.variant
    ensures d.variant.MultiGeometry? ==>
      r.variant.MultiGeometry? && r.variant.parts == d.variant.parts && r.variant.partMaterials == d.variant.partMaterials
    ensures Drawables.Contribution(r) == Drawables.Contribution(d)
    ensures Drawables.PreRenderDefined(r) == Drawables.PreRenderDefined(d)
  {
    var d1 := Drawables.SetFinalTransform(d, FinalMatrix(f.stack, d));
    if f.current.Some? && Drawables.IsMaterializable(d1) then Drawables.SetMaterial(d1, f.current) else d1
  }

  /**
   * visit(Drawable): the final matrix is set, the current material (when
   * non-null) is set on a Materializable drawable, and only then is
   * pre_render run. The stack and the current material are unchanged.
   */
  function RenderDrawable(s: RenderState, id: NodeId, apply: (Mat, Vec4) -> Vec4): (r: RenderState)
    ensures r.frame == s.frame
    ensures r.nodes.Keys == s.nodes.Keys
    ensures forall x :: x in s.nodes && x != id ==> r.nodes[x] == s.nodes[x]
    ensures id in s.nodes && s.nodes[id].body.Leaf? ==>
      var d := s.nodes[id].body.drawable;
      && r.nodes[id] == s.nodes[id].(body := Leaf(Prepare(d, s.frame)))
      && r.nodes[id].body.drawable.final == Product(s.frame.stack + InternalMatrices(d))
      && (Drawables.PreRenderDefined(d) ==>
            && r.renderables == s.renderables + Drawables.Contribution(d)
            && r.fault == s.fault
            && r.engine.alive == s.engine.alive && r.engine.scene == s.engine.scene)
      && (Drawables.PreRenderDefined(d) && d.variant.Geometry? ==>
            && r.engine.transforms == s.engine.transforms[d.entity := r.nodes[id].body.drawable.final]
            && r.engine.slots.Keys == s.engine.slots.Keys
            && (s.frame.current.Some? && d.entity in s.engine.slots ==>
                  r.engine.slots[d.entity] == seq(|s.engine.slots[d.entity]|, _ => Some(DefaultInstance(s.frame.current.value)))))
    ensures !(id in s.nodes && s.nodes[id].body.Leaf? && Drawables.PreRenderDefined(s.nodes[id].body.drawable)) ==> r.fault
    ensures r.engine == s.engine.(transforms := r.engine.transforms, slots := r.engine.slots, lights := r.engine.lights)
  {
    if id !in s.nodes || !s.nodes[id].body.Leaf? then s.(fault := true)
    else
      var d := Prepare(s.nodes[id].body.drawable, s.frame);
      var nodes := s.nodes[id := s.nodes[id].(body := Leaf(d))];
      if !Drawables.PreRenderDefined(d) then s.(nodes := nodes, fault := true)
      else
        var (e, out) := Drawables.PreRender(d, s.engine, s.renderables, apply);
        s.(nodes := nodes, engine := e, renderables := out)
  }

  /** One visitor call. The base visitor ignores every call. */
  function Step(v: Visitor, s: RenderState, c: Call): (r: RenderState)
    ensures v.NodeVisitor? ==> r == s
    ensures v.RenderVisitor? ==> r.frame == FrameStep(s.frame, c)
    ensures v.RenderVisitor? && !c.VisitDrawable? ==>
      r == s.(frame := r.frame, fault := s.fault || PopsEmpty(s.frame, c))
  {
    match v
    case NodeVisitor => s
    case RenderVisitor(apply) =>
      match c
      case VisitDrawable(id) => RenderDrawable(s, id, apply)
      case _ => s.(frame := FrameStep(s.frame, c), fault := s.fault || PopsEmpty(s.frame, c))
  }

  /** Running a visitor over a sequence of calls, first to last. */
  function Run(v: Visitor, calls: seq<Call>, s: RenderState): RenderState {
    if |calls| == 0 then s else Run(v, calls[1..], Step(v, s, calls[0]))
  }

  lemma {:induction false} RunAppend(v: Visitor, a: seq<Call>, b: seq<Call>, s: RenderState)
    ensures Run(v, a + b, s) == Run(v, b, Run(v, a, s))
  {
    if |a| == 0 {
      assert a + b == b;
    } else {
      assert (a + b)[0] == a[0];
      assert (a + b)[1..] == a[1..] + b;
      RunAppend(v, a[1..], b, Step(v, s, a[0]));
    }
  }

  /**
   * A run changes only drawable records and the engine's transform, slot
   * and light tables: the node ids, every link, the entity set and the
   * scene stay as they were.
   */
  lemma {:induction false} RunKeeps(v: Visitor, calls: seq<Call>, s: RenderState)
    ensures var r := Run(v, calls, s);
      && r.nodes.Keys == s.nodes.Keys
      && (forall x :: x in s.nodes ==> r.nodes[x].parents == s.nodes[x].parents && Kids(r.nodes, x) == Kids(s.nodes, x))
      && r.engine == s.engine.(transforms := r.engine.transforms, slots := r.engine.slots, lights := r.engine.lights)
  {
    if |calls| > 0 {
      var s1 := Step(v, s, calls[0]);
      RunKeeps(v, calls[1..], s1);
    }
  }

  /** The base NodeVisitor's no-op overloads leave every state unchanged, whatever the calls. */
  lemma {:induction false} BaseVisitorInert(calls: seq<Call>, s: RenderState)
    ensures Run(NodeVisitor, calls, s) == s
  {
    if |calls| > 0 {
      BaseVisitorInert(calls[1..], s);
    }
  }

  /** The render visitor's stack and current material follow the frame machine alone. */
  lemma {:induction false} RunFrame(apply: (Mat, Vec4) -> Vec4, calls: seq<Call>, s: RenderState)
    ensures Run(RenderVisitor(apply), calls, s).frame == FrameRun(calls, s.frame)
  {
    if |calls| > 0 {
      RunFrame(apply, calls[1..], Step(RenderVisitor(apply), s, calls[0]));
    }
  }

  /** The contribution of one call to Emits. */
  function Emitted(h: Heap, c: Call): seq<Entity> {
    if c.VisitDrawable? && c.node in h && h[c.node].body.Leaf? then Drawables.Contribution(h[c.node].body.drawable) else []
  }

  /** The entities the drawable visits of a run contribute, in call order. */
  function Emits(h: Heap, calls: seq<Call>): seq<Entity> {
    if |calls| == 0 then []
    else
      Emitted(h, calls[0]) + Emits(h, calls[1..])
  }

  /** Every leaf of h is still a leaf of h2, contributing the same entities and equally well defined. */
  predicate LeavesAgree(h: Heap, h2: Heap) {
    forall x :: x in h && h[x].body.Leaf? ==>
      && x in h2 && h2[x].body.Leaf?
      && Drawables.Contribution(h2[x].body.drawable) == Drawables.Contribution(h[x].body.drawable)
      && Drawables.PreRenderDefined(h2[x].body.drawable) == Drawables.PreRenderDefined(h[x].body.drawable)
  }

  /** Every leaf of h can pre_render without undefined behaviour. */
  predicate AllDefined(h: Heap) {
    forall x :: x in h && h[x].body.Leaf? ==> Drawables.PreRenderDefined(h[x].body.drawable)
  }

  /**
   * Over calls that fit h, the render visitor appends exactly the drawables'
   * contributions, in call order, behind whatever the list held before; the
   * leaves keep agreeing with h; and without an empty pop nothing faults.
   */
  lemma StepEmits(apply: (Mat, Vec4) -> Vec4, h: Heap, c: Call, s: RenderState)
    requires LeavesAgree(h, s.nodes) && AllDefined(h) && Fits(h, c)
    ensures var r := Step(RenderVisitor(apply), s, c);
      && r.renderables == s.renderables + Emitted(h, c)
      && LeavesAgree(h, r.nodes)
      && (!PopsEmpty(s.frame, c) ==> r.fault == s.fault)
  {
    var r := Step(RenderVisitor(apply), s, c);
    if c.VisitDrawable? {
      assert r == RenderDrawable(s, c.node, apply);
      assert forall x :: x in s.nodes && x != c.node ==> r.nodes[x] == s.nodes[x];
    }
  }

  lemma {:induction false} RunEmits(apply: (Mat, Vec4) -> Vec4, h: Heap, calls: seq<Call>, s: RenderState)
    requires LeavesAgree(h, s.nodes) && AllDefined(h)
    requires forall c :: c in calls ==> Fits(h, c)
    ensures var r := Run(RenderVisitor(apply), calls, s);
      && r.renderables == s.renderables + Emits(h, calls)
      && LeavesAgree(h, r.nodes)
      && (Safe(calls, s.frame) ==> r.fault == s.fault)
  {
    if |calls| > 0 {
      var c := calls[0];
      assert c in calls;
      StepEmits(apply, h, c, s);
      var s1 := Step(RenderVisitor(apply), s, c);
      assert Run(RenderVisitor(apply), calls, s) == Run(RenderVisitor(apply), calls[1..], s1);
      assert forall c' :: c' in calls[1..] ==> c' in calls;
      RunEmits(apply, h, calls[1..], s1);
      assert Emits(h, calls) == Emitted(h, c) + Emits(h, calls[1..]);
    }
  }

  /**
   * Rendering a traversal of an acyclic graph: the matrix stack ends as it
   * began, the current material ends as MaterialAfter says, the renderables
   * list gains exactly the contributions of the drawables reached, in
   * traversal order, after any seeded entries, and nothing faults.
   */
  lemma RenderTraversal(apply: (Mat, Vec4) -> Vec4, h: Heap, rank: map<NodeId, nat>, root: NodeId, s: RenderState)
    requires Ranked(h, rank) && root in h && LeavesAgree(h, s.nodes) && AllDefined(h)
    ensures var r := Run(RenderVisitor(apply), Trace(h, rank, root), s);
      && r.frame.stack == s.frame.stack
      && r.frame.current == MaterialAfter(h, rank, root, s.frame.current)
      && r.renderables == s.renderables + Emits(h, Trace(h, rank, root))
      && r.fault == s.fault
  {
    var calls := Trace(h, rank, root);
    TraceFits(h, rank, root);
    TraceSound(h, rank, root, s.frame);
    RunFrame(apply, calls, s);
    RunEmits(apply, h, calls, s);
  }

  /**
   * A nested Material clears the current material instead of restoring the
   * outer one: under Material 7 holding Material 8 (over drawable 2) and
   * then drawable 3, drawable 3 sees no material at all.
   */
  lemma NestedMaterialClears()
    ensures var leaf := NodeRec("", true, [], Leaf(Drawables.Drawable(1, Identity, None, Drawables.PlainDrawable)));
      var outer := Materials.NewMaterial(Some(7));
      var inner := Materials.NewMaterial(Some(8));
      var h := map[0 := NodeRec("", true, [], Composite([1, 3], [], MaterialNode(outer))),
                   1 := NodeRec("", true, [0], Composite([2], [], MaterialNode(inner))),
                   2 := leaf, 3 := leaf];
      var rank := map[0 := 2, 1 := 1, 2 := 0, 3 := 0];
      && Ranked(h, rank)
      && Sights(Trace(h, rank, 0), Frame([], None)) == [Sight(2, [], Some(8)), Sight(3, [], None)]
  {
    var leaf := NodeRec("", true, [], Leaf(Drawables.Drawable(1, Identity, None, Drawables.PlainDrawable)));
    var outer := Materials.NewMaterial(Some(7));
    var inner := Materials.NewMaterial(Some(8));
    var h := map[0 := NodeRec("", true, [], Composite([1, 3], [], MaterialNode(outer))),
                 1 := NodeRec("", true, [0], Composite([2], [], MaterialNode(inner))),
                 2 := leaf, 3 := leaf];
    var rank := map[0 := 2, 1 := 1, 2 := 0, 3 := 0];
    assert Kids(h, 0) == [1, 3] && Kids(h, 1) == [2] && Kids(h, 2) == [] && Kids(h, 3) == [];
    assert Ranked(h, rank);
    TraceSound(h, rank, 0, Frame([], None));
    assert HasMaterial(h, rank, 1);
    assert Visits(h, rank, 1, [], Some(7)) == [Sight(2, [], Some(8))];
    assert Visits(h, rank, 3, [], None) == [Sight(3, [], None)];
    assert VisitsAll(h, rank, [3], 2, [], None) == [Sight(3, [], None)];
  }
}

=== FILE: wrappers.dfy ===
/** The optional value used wherever the source passes or returns a pointer that may be null. */
module Wrappers {

  datatype Option<+T> = None | Some(value: T) {

    /** The wrapped value, or `default` when absent. */
    function GetOr(default: T): T {
      match this
      case Some(v) => v
      case None => default
    }
  }
}
